=== FILE: README.md ===
# BusWear event bus, modelled in Dafny

BusWear is an EventBus fork for Android that mirrors events between a phone
and a watch. This project models its core:

- **The event bus** (`EventBus.java`), as the class `Bus.EventBus`. It holds:
  - the subscription registry: `subscriptionsByEventType`, `typesBySubscriber` and `classList`;
  - the posting thread's state: `eventQueue`, `isPosting`, `isMainThread`, the current event and subscription, and `canceled`;
  - the sticky cache and the event-type cache.

  Its methods update these fields in place. Handlers are an abstract table from subscriber, method and event to a reaction: return, ask to cancel, or throw. Every handler run and every hand-off to a poster is appended to `effects`. Every transmission to the peer is appended to `sent`. What a post does is specified by ghost functions:
  - `Handle`: `postSingleEvent` for one event;
  - `TurnOf`: one event taken off the queue;
  - `Drain`: the whole drain loop of `postLocal`, `post` or `postRemote`.
    The drains that transmit name the `parseToSend` they call. `post` and `postRemote` call it as written. The corrected one states what the authors intended (see Findings).

  Each method is proved against these functions, and the lemmas about them state what the drains promise.
- **The wire codec** (`WearBusTools.java`), in `WearBusTools`, `BigEndian` and `Utf8`:
  - `parseToSend` encodes String as UTF-8 and Integer, Long and Short as fixed-width big-endian two's complement;
  - `getSendSimpleObject` decodes by simple class name;
  - the message-path constants fix the routing.

  `SyncProtocol` holds the path parsing of `syncEvent` and `stickyEventCommand`.
- **The peer-node watcher** (`ConnectionUtil.java`), as the class `Connection.ConnectionUtil`. It keeps `lastSeenNodes` and posts a sticky `WearConnectionEvent` on the bus when the reachable node set changes.

Class graphs (`getInterfaces`, `getSuperclass`) are a `TypeHierarchy.Hierarchy` value. Levels on it make the recursion of `addInterfaces` well founded.

## Model

| member | source | states |
|---|---|---|
| Bus.EventBus.constructor | buswear/src/main/java/pl/tajchert/buswear/EventBus.java:116-131 | A new bus has empty maps, lists and queue, an idle posting state, and the registry, type-cache and sticky invariants hold |
| Bus.EventBus.Subscribe | buswear/src/main/java/pl/tajchert/buswear/EventBus.java:182-228 | The event type joins `classList` once. An equal subscription already listed raises and changes nothing. Otherwise the new subscription is inserted after every entry of equal or higher priority (`InsertedAt`), the type is appended to the subscriber's list, and a sticky registration routes the cached event of that type to it. The registry invariant is kept and every earlier subscription is kept; the log of handler runs only grows, and is untouched without `sticky` |
| Bus.EventBus.AddSubscription | buswear/src/main/java/pl/tajchert/buswear/EventBus.java:182-215 | The registry half of `subscribe`: the event type joins `classList` once, and it reports a duplicate iff an equal subscription is already listed, changing no list then. Otherwise the fresh subscription sits at its priority place in the list for its type (`InsertedAt`), the type is appended to the subscriber's types, the subscriber now holds the method, and other subscribers are untouched |
| Bus.EventBus.InsertSubscription | buswear/src/main/java/pl/tajchert/buswear/EventBus.java:187-215 | The insertion loop puts the subscription at the first index whose priority is lower, so the list stays sorted and ties keep registration order; only that list and that subscriber's entry change, and the registry read without that subscriber is as before |
| Bus.EventBus.DeliverSticky | buswear/src/main/java/pl/tajchert/buswear/EventBus.java:217-227 | With `sticky` and a cached event of the type, the event is routed to the new subscription and the log then holds that delivery; otherwise nothing runs |
| Bus.EventBus.Register | buswear/src/main/java/pl/tajchert/buswear/EventBus.java:158-179 | Subscribes every handler method in turn. When no exception escapes, each method is then subscribed, and with `registerSticky` each method whose event type has a cached sticky event has had that event handed to its new subscription (`Reached`). The log of handler runs only grows, and without `sticky` neither it nor `canceled` changes. The registry invariant holds and the subscriber keeps every subscription it had. Other subscribers are untouched (`OthersKept`: every list without this subscriber, and every other subscriber's types, are as before), and `classList` only grows, by event types of the given methods |
| Bus.EventBus.IsRegistered | buswear/src/main/java/pl/tajchert/buswear/EventBus.java:230-232 | True iff the subscriber has recorded types; an unregistered subscriber has no subscription in any list |
| Bus.EventBus.UnsubscribeByEventType | buswear/src/main/java/pl/tajchert/buswear/EventBus.java:235-249 | The in-place loop with `i--`/`size--` leaves the type's list equal to `Without(list, x)`, so every entry of `x` is gone and the others keep their order. The removed entries become inactive and every other subscription keeps its `active` flag |
| Bus.EventBus.UnsubscribeTypes | buswear/src/main/java/pl/tajchert/buswear/EventBus.java:253-257 | After the loop over the subscriber's types, each of those lists is free of `x` and all other lists are unchanged. Every subscription of `x` in those lists is inactive; other subscriptions keep their flag |
| Bus.EventBus.Unregister | buswear/src/main/java/pl/tajchert/buswear/EventBus.java:252-262 | Every list equals `Without(old list, x)` and `x` is dropped from `typesBySubscriber`, so `IsRegistered` becomes false. Exactly the subscriptions of `x` become inactive, the registry invariant is kept, and an unknown subscriber changes no list |
| Bus.RecordTypeKeepsRegistry | buswear/src/main/java/pl/tajchert/buswear/EventBus.java:184-186 | Appending a type only when `classList` lacks it keeps the class list free of repeats |
| Bus.InsertKeepsRegistry | buswear/src/main/java/pl/tajchert/buswear/EventBus.java:202-215 | A priority-ordered insertion plus recording the type for the subscriber keeps every list sorted and every listed subscription indexed under its subscriber |
| Bus.InsertionKeepsOthers | buswear/src/main/java/pl/tajchert/buswear/EventBus.java:203-208 | Inserting an entry of a subscriber into one list leaves every list, read without that subscriber, as it was |
| Bus.InsertionKeepsListed | buswear/src/main/java/pl/tajchert/buswear/EventBus.java:205 | Inserting into one list keeps every subscription a subscriber had and adds the new one |
| Bus.UnregisterKeepsRegistry | buswear/src/main/java/pl/tajchert/buswear/EventBus.java:252-259 | Clearing only the recorded types' lists clears the subscriber from every list, because the registry indexes every subscription under its subscriber; the invariant holds after the subscriber is forgotten |
| Bus.UnsubscribeStep | buswear/src/main/java/pl/tajchert/buswear/EventBus.java:255-257 | One more pass of the loop of unregister: the lists stand as if the first `j + 1` types were done, and a type met twice is cleared only once |
| Subscriptions.Subscription.constructor | buswear/src/main/java/pl/tajchert/buswear/EventBus.java:188 | A new subscription records subscriber, method and priority, and is active |
| Subscriptions.Without | buswear/src/main/java/pl/tajchert/buswear/EventBus.java:239-246 | The kept entries are exactly the entries of other subscribers |
| Subscriptions.WithoutAppend | buswear/src/main/java/pl/tajchert/buswear/EventBus.java:239-246 | Removal distributes over concatenation, so the survivors keep their relative order |
| Subscriptions.WithoutIdentity | buswear/src/main/java/pl/tajchert/buswear/EventBus.java:239-246 | A list with no entry of `x` is left as it is |
| Subscriptions.WithoutTwice | buswear/src/main/java/pl/tajchert/buswear/EventBus.java:255-256 | Removing twice is removing once (a type recorded twice for a subscriber) |
| Subscriptions.RemovalStep | buswear/src/main/java/pl/tajchert/buswear/EventBus.java:240-245 | One pass of the removal loop keeps its view of the list: the prefix is the original prefix without `x`, the suffix is the unread original |
| Subscriptions.WithoutKeepsSorted | buswear/src/main/java/pl/tajchert/buswear/EventBus.java:243 | Removing entries keeps a list sorted by priority |
| Subscriptions.InsertKeepsSorted | buswear/src/main/java/pl/tajchert/buswear/EventBus.java:203-207 | Inserting at the first lower-priority index keeps the list sorted, after all entries of equal priority |
| Bus.EventBus.CancelRefusalOf | buswear/src/main/java/pl/tajchert/buswear/EventBus.java:417-431 | A cancel is accepted iff the thread is posting, the event is non-null and is the current event, and the current subscription is PostThread. Each refusal is named in the source's order |
| Bus.EventBus.CancelEventDelivery | buswear/src/main/java/pl/tajchert/buswear/EventBus.java:417-431 | Returns exactly the refusal above and sets `canceled` only when the cancel is accepted |
| Bus.EventBus.InvokeSubscriber | buswear/src/main/java/pl/tajchert/buswear/EventBus.java:718-752 | The run is logged. An accepted cancel sets `canceled`. A throw or a refused cancel escapes only when `throwSubscriberException` is set |
| Bus.EventBus.PostToSubscription | buswear/src/main/java/pl/tajchert/buswear/EventBus.java:648-673 | The subscription runs inline or is queued on the poster `RouteOf` names for its thread mode |
| Dispatch.RouteOf | buswear/src/main/java/pl/tajchert/buswear/EventBus.java:648-673 | PostThread is always inline. MainThread is inline iff on the main thread, else the main poster. BackgroundThread is queued iff on the main thread. Async is always queued |
| Bus.EventBus.InvokePendingPost | buswear/src/main/java/pl/tajchert/buswear/EventBus.java:709-716 | A queued delivery whose subscription is inactive runs nothing; an active one runs the handler |
| Dispatch.Step | buswear/src/main/java/pl/tajchert/buswear/EventBus.java:718-741 | A handler failure escapes a turn only when `throwSubscriberException` is set |
| Dispatch.StepFailsWhen | buswear/src/main/java/pl/tajchert/buswear/EventBus.java:718-741 | A turn fails iff its handler ran inline and threw, or asked for a cancel that was refused, and `throwSubscriberException` is set |
| Dispatch.CancelOnlyFromPostThread | buswear/src/main/java/pl/tajchert/buswear/EventBus.java:417-431 | A turn that cancels belongs to a PostThread handler that asked to cancel the very event being delivered |
| Dispatch.StepFollowsRoute | buswear/src/main/java/pl/tajchert/buswear/EventBus.java:648-673 | A turn runs the handler exactly when the route is inline; a queued turn never cancels or fails |
| Dispatch.ListDelivery | buswear/src/main/java/pl/tajchert/buswear/EventBus.java:627-642 | A list's delivery logs at most one effect per subscription |
| Dispatch.ListDeliveryInOrder | buswear/src/main/java/pl/tajchert/buswear/EventBus.java:627-642 | The k-th effect of a list's delivery is the turn of the k-th subscription, in priority order |
| Dispatch.ListDeliveryStops | buswear/src/main/java/pl/tajchert/buswear/EventBus.java:633-641 | No turn before the last one cancels or fails. A delivery cut short ends on a cancel or a failure. The list fails iff its last turn failed |
| Dispatch.ListDeliveryNext | buswear/src/main/java/pl/tajchert/buswear/EventBus.java:627-642 | The delivery of the list from `i` is turn `i` followed, unless it canceled or failed, by the delivery from `i + 1` |
| Dispatch.TypesDelivery | buswear/src/main/java/pl/tajchert/buswear/EventBus.java:600-609 | A post that failed found a subscription |
| Dispatch.SingleTypeDelivery | buswear/src/main/java/pl/tajchert/buswear/EventBus.java:607-608 | Without inheritance the post is the delivery of the class's own list; found iff that list is non-empty |
| Dispatch.TypesDeliveryAppendFailed | buswear/src/main/java/pl/tajchert/buswear/EventBus.java:603-606 | A failure among the first types is the outcome of the whole post; later types get nothing |
| Dispatch.TypesDeliveryAppend | buswear/src/main/java/pl/tajchert/buswear/EventBus.java:603-606 | Without a failure, the post over `a + b` is the post over `a` followed by the post over `b`, and `found` is or-ed |
| Dispatch.TypesDeliveryNext | buswear/src/main/java/pl/tajchert/buswear/EventBus.java:603-606 | One more type: its list's delivery is appended, its failure ends the post, and `found` accumulates as `subscriptionFound \|=` does |
| Dispatch.TypesDeliveryFound | buswear/src/main/java/pl/tajchert/buswear/EventBus.java:600-618 | When no handler fails, a subscription was found iff one of the event's types has a non-empty list |
| Bus.EventBus.TakeTurn | buswear/src/main/java/pl/tajchert/buswear/EventBus.java:628-638 | The turn logs the subscription's step and reports whether it canceled. Afterwards the event, the subscription and `canceled` are reset |
| Bus.EventBus.TurnAt | buswear/src/main/java/pl/tajchert/buswear/EventBus.java:627-641 | Turn `i` either ends the list, its effects then being the delivery from `i`, or leaves the delivery from `i + 1` to do |
| Bus.EventBus.PostSingleEventForEventType | buswear/src/main/java/pl/tajchert/buswear/EventBus.java:621-646 | Effects are the list's `ListDelivery`, so it stops at a cancel. It raises iff a handler failure escapes. It returns whether the type has a subscription. The posting state is idle and not canceled afterwards |
| Bus.EventBus.PostToTypes | buswear/src/main/java/pl/tajchert/buswear/EventBus.java:600-606 | The loop over the looked-up types does exactly `TypesDelivery`: effects, outcome and `found` |
| Bus.EventBus.PostNotice | buswear/src/main/java/pl/tajchert/buswear/EventBus.java:610-618 | A NoSubscriberEvent wrapping the event joins the queue iff nobody got it and the bus wants the notice. Nothing runs, because the thread is posting |
| Bus.EventBus.PostSingleEvent | buswear/src/main/java/pl/tajchert/buswear/EventBus.java:597-619 | Effects, outcome and queued notice are those of `Handle`, and nothing is transmitted. A null event raises a NullPointerException |
| Bus.EventBus.Handle | buswear/src/main/java/pl/tajchert/buswear/EventBus.java:597-619 | Only a null event raises NullEvent, and otherwise only a handler failure escapes. What is queued is at most a NoSubscriberEvent wrapping a non-notice event |
| Bus.EventBus.NoticeWhenUnheard | buswear/src/main/java/pl/tajchert/buswear/EventBus.java:610-618 | A NoSubscriberEvent is queued iff no handler failed, no type the event is delivered to has a subscription, and `sendNoSubscriberEvent` holds for a class other than NoSubscriberEvent and SubscriberExceptionEvent |
| Bus.EventBus.TypesFor | buswear/src/main/java/pl/tajchert/buswear/EventBus.java:598-609 | The types an event is delivered to start with its own class and repeat none |
| Bus.EventBus.TurnOf | buswear/src/main/java/pl/tajchert/buswear/EventBus.java:281-297 | One turn queues at most a NoSubscriberEvent for a non-notice event, and a turn that raises transmits nothing |
| Bus.EventBus.TurnByMode | buswear/src/main/java/pl/tajchert/buswear/EventBus.java:281-297 | `postLocal` transmits nothing. `postRemote` runs no handler and queues nothing. A remote turn that does not raise transmits the event's wire bytes under its class |
| Bus.EventBus.DrainCons | buswear/src/main/java/pl/tajchert/buswear/EventBus.java:280-299 | A drain of a non-empty queue is one turn on its head, then, unless the turn raised, the drain of the rest plus what the turn queued, on a lighter queue |
| Bus.EventBus.DrainStep | buswear/src/main/java/pl/tajchert/buswear/EventBus.java:280-299 | The same step stated for logs already holding earlier effects and transmissions |
| Bus.EventBus.DrainFifo | buswear/src/main/java/pl/tajchert/buswear/EventBus.java:280-283 | Draining is FIFO: the queue's events are taken in order, and everything behind them is a NoSubscriberEvent the drain queued |
| Bus.FifoStep | buswear/src/main/java/pl/tajchert/buswear/EventBus.java:282 | Removing the head of the queue and appending only NoSubscriberEvents keeps the FIFO order |
| Bus.EventBus.DrainEmptiesQueue | buswear/src/main/java/pl/tajchert/buswear/EventBus.java:320-322 | A drain that no exception ends leaves the queue empty |
| Bus.EventBus.LocalDrainSendsNothing | buswear/src/main/java/pl/tajchert/buswear/EventBus.java:310-330 | `postLocal` transmits nothing |
| Bus.EventBus.RemoteDrainRunsNothing | buswear/src/main/java/pl/tajchert/buswear/EventBus.java:343-356 | `postRemote` runs no handler and takes events only from the queue it was given |
| Bus.EventBus.RemoteDrainTransmits | buswear/src/main/java/pl/tajchert/buswear/EventBus.java:287-297 | When no exception ends it, `post` or `postRemote` transmits every event it took, in order, with the sticky flag. Each event goes as the bytes its drain's `parseToSend` gives. NoSubscriberEvents are not transmitted |
| Bus.EventBus.UnsupportedAfterDelivery | buswear/src/main/java/pl/tajchert/buswear/EventBus.java:282-288 | In `post`, an event its `parseToSend` cannot send is first delivered locally. Its RuntimeException then ends the drain, leaving the rest of the queue in place |
| Bus.EventBus.AsWrittenPostRaisesOnNotice | buswear/src/main/java/pl/tajchert/buswear/EventBus.java:280-299 | As written, `post` of an unheard event with the notice wanted delivers and transmits the event, delivers its NoSubscriberEvent, and then ends with parseToSend's RuntimeException |
| Bus.EventBus.CorrectedPostSkipsNotice | buswear/src/main/java/pl/tajchert/buswear/EventBus.java:280-299 | With the corrected `parseToSend`, the same post delivers both events, transmits the event alone and completes |
| Bus.EventBus.GreenrobotNoticeByEncoder | buswear/src/main/java/pl/tajchert/buswear/wear/WearBusTools.java:91-93 | As written, a greenrobot NoSubscriberEvent is delivered and silently not sent; the corrected encoder rejects it like any other plain object |
| Bus.WeightAppend | buswear/src/main/java/pl/tajchert/buswear/EventBus.java:616 | Queue weights add up, so the bus's own NoSubscriberEvent, which weighs less than the event it wraps, lets every drain end |
| Bus.RemoteLogAppend | buswear/src/main/java/pl/tajchert/buswear/EventBus.java:287-297 | The transmissions for a queue are those of its parts, in order |
| Bus.RemoteLogOfOne | buswear/src/main/java/pl/tajchert/buswear/EventBus.java:287-289 | Under either `parseToSend`, a scalar is transmitted as its wire bytes; a NoSubscriberEvent, null or unsupported value never is |
| Bus.EventBus.Drain | buswear/src/main/java/pl/tajchert/buswear/EventBus.java:280-299 | A drain ends with no exception, or with a null event, a failed handler or an unsupported type; `postLocal` never with the last |
| Bus.EventBus.DrainQueue | buswear/src/main/java/pl/tajchert/buswear/EventBus.java:280-299 | The drain loop does exactly `Drain`: effects, transmissions and outcome, and it leaves `Drain`'s remaining queue |
| Bus.EventBus.DrainTurn | buswear/src/main/java/pl/tajchert/buswear/EventBus.java:280-299 | One pass of the loop either ends the drain as `Drain` ends or leaves a lighter queue whose drain completes the one begun |
| Bus.EventBus.DrainNext | buswear/src/main/java/pl/tajchert/buswear/EventBus.java:281-297 | The head of the queue is removed and has exactly the turn `TurnOf` gives it |
| Bus.EventBus.PostLocal | buswear/src/main/java/pl/tajchert/buswear/EventBus.java:310-330 | The event is appended. A thread already posting only appends. A thread left canceled raises AbortStateNotReset with `isPosting` still set. Otherwise the queue is drained as `Drain` says, and `isPosting`, `isMainThread` and `canceled` are false afterwards |
| Bus.EventBus.Post | buswear/src/main/java/pl/tajchert/buswear/EventBus.java:269-303 | As PostLocal, with each non-null event delivered locally, then encoded by `parseToSend` as written and transmitted. A null event ends the drain undelivered; an unsupported type ends it after local delivery, and so does the bus's own NoSubscriberEvent |
| Bus.EventBus.PostRemote | buswear/src/main/java/pl/tajchert/buswear/EventBus.java:337-403 | As PostLocal, with no local delivery; each event is encoded by `parseToSend` as written and transmitted with the sticky flag |
| Bus.EventBus.GetStickyEvent | buswear/src/main/java/pl/tajchert/buswear/EventBus.java:468-472 | The stored event is returned if there is one, and its cast to the type never fails |
| Bus.EventBus.PostStickyLocal | buswear/src/main/java/pl/tajchert/buswear/EventBus.java:455-461 | The event is stored under its class before the local post, so `GetStickyEvent` returns it; the post is as PostLocal. A null event raises and changes nothing |
| Bus.EventBus.RemoveStickyEventLocal | buswear/src/main/java/pl/tajchert/buswear/EventBus.java:500-504 | Returns what was stored under the type and removes only that key |
| Bus.EventBus.RemoveStickyEventLocalIfEqual | buswear/src/main/java/pl/tajchert/buswear/EventBus.java:540-551 | Removes the entry of the event's class iff it equals the event, and returns whether it did; other keys are untouched and a null event raises |
| Bus.EventBus.RemoveAllStickyEventsLocal | buswear/src/main/java/pl/tajchert/buswear/EventBus.java:573-577 | The cache is empty: no type has a sticky event |
| Bus.EventBus.HasSubscriberForEvent | buswear/src/main/java/pl/tajchert/buswear/EventBus.java:579-595 | True iff some type the class reaches has a non-empty list; the lookup is cached |
| Bus.EventBus.LookupAllEventTypes | buswear/src/main/java/pl/tajchert/buswear/EventBus.java:676-691 | Returns `EventTypes(c)`, from the cache or by the walk over the class and its superclasses, and caches it |
| Bus.AddInterfaces | buswear/src/main/java/pl/tajchert/buswear/EventBus.java:694-701 | The recursive loop appends exactly `AddInterfacesList`: each interface not yet listed, then its own interfaces |
| TypeHierarchy.AddInterfacesPrefix | buswear/src/main/java/pl/tajchert/buswear/EventBus.java:694-701 | addInterfaces only appends to the list, and every interface it is given ends up listed |
| TypeHierarchy.AddInterfacesNoDup | buswear/src/main/java/pl/tajchert/buswear/EventBus.java:696 | The `contains` test before each append means a list without repeats stays without repeats |
| TypeHierarchy.AddInterfacesClosed | buswear/src/main/java/pl/tajchert/buswear/EventBus.java:695-699 | Each appended entry is an interface, and the recursive call lists all of its own interfaces too |
| TypeHierarchy.AddInterfacesReach | buswear/src/main/java/pl/tajchert/buswear/EventBus.java:695-699 | Each appended entry is reachable from one of the interfaces given |
| TypeHierarchy.AddInterfacesFacts | buswear/src/main/java/pl/tajchert/buswear/EventBus.java:694-701 | addInterfaces keeps the list as a prefix and lists every given interface. It never adds one twice, and appends only interfaces reached from those given, whose interfaces are listed too |
| TypeHierarchy.WalkFacts | buswear/src/main/java/pl/tajchert/buswear/EventBus.java:680-686 | The lookup walk keeps its prefix, lists no type twice, and ends closed under interfaces and superclasses |
| TypeHierarchy.ClosedListHoldsReached | buswear/src/main/java/pl/tajchert/buswear/EventBus.java:680-686 | A list closed under interfaces and superclasses holds everything its classes reach |
| TypeHierarchy.EventTypesSpec | buswear/src/main/java/pl/tajchert/buswear/EventBus.java:676-701 | lookupAllEventTypes lists the class first, repeats nothing, and lists exactly what the class reaches |
| Bus.EventBus.FindParcel | buswear/src/main/java/pl/tajchert/buswear/EventBus.java:852-866 | Returns `FirstParcel`: what the first known class of that simple name builds, skipping classes whose constructor fails |
| Bus.FirstParcel | buswear/src/main/java/pl/tajchert/buswear/EventBus.java:852-866 | findParcel returns null iff no known class of that simple name can build the value |
| Bus.FirstParcelFirst | buswear/src/main/java/pl/tajchert/buswear/EventBus.java:852-866 | A found value is built by a known class of that simple name, and by no earlier class in the list |
| Bus.OwnClassParcel | buswear/src/main/java/pl/tajchert/buswear/EventBus.java:852-866 | If each known class's creator builds a value of that class, a parcel payload decodes to a non-null value of a known class with the received simple name, so the post and the sticky cache use that class |
| Bus.EventBus.DecodePayload | buswear/src/main/java/pl/tajchert/buswear/EventBus.java:779-798 | A payload decodes as a scalar by simple name first, else as a parcel of a known class |
| Bus.EventBus.SyncEvent | buswear/src/main/java/pl/tajchert/buswear/EventBus.java:774-808 | An event path is decoded and posted locally; a sticky path is decoded, stored and posted locally. A command path applies the command `ParseCommand` reads and changes only the sticky cache (queue, logs, posting flags and the type cache are as before), and any other path changes nothing. A short scalar payload raises |
| Bus.EventBus.PostInbound | buswear/src/main/java/pl/tajchert/buswear/EventBus.java:787-803 | A decoded non-null object is posted locally, or as a local sticky event; nothing else is posted |
| Bus.EventBus.StickyEventCommand | buswear/src/main/java/pl/tajchert/buswear/EventBus.java:813-850 | Clear-all empties the cache. Remove-by-class drops every known class of that simple name. Remove-by-value drops the decoded value's entry only if it is the one cached. A slice before index 0 raises |
| Bus.EventBus.RemoveBySimpleName | buswear/src/main/java/pl/tajchert/buswear/EventBus.java:822-835 | The loop over the class list removes exactly the known classes of that simple name |
| SyncProtocol.Classify | buswear/src/main/java/pl/tajchert/buswear/EventBus.java:777-808 | The path tests run in order: event prefix, then sticky prefix, then command prefix; the first two give the class name after the last dot |
| SyncProtocol.ParseCommand | buswear/src/main/java/pl/tajchert/buswear/EventBus.java:813-850 | Clear-all iff the class name is String and the payload decodes to the clear-all action. Any other class name reads the 5 characters before the last dot |
| SyncProtocol.EventPathRoutes | buswear/src/main/java/pl/tajchert/buswear/EventBus.java:777-778 | An event path with a dot-free class name goes to postLocal under that name |
| SyncProtocol.StickyPathRoutes | buswear/src/main/java/pl/tajchert/buswear/EventBus.java:777-792 | A sticky path is never taken by the event test and goes to postStickyLocal |
| SyncProtocol.CommandPathRoutes | buswear/src/main/java/pl/tajchert/buswear/EventBus.java:805-807 | Every command path (clear-all, by class, by value) reaches stickyEventCommand |
| SyncProtocol.ClearAllCommand | buswear/src/main/java/pl/tajchert/buswear/EventBus.java:815-820 | The clear-all command that removeAllStickyEventsRemote sends parses as ClearAll |
| SyncProtocol.ScopeSlice | buswear/src/main/java/pl/tajchert/buswear/EventBus.java:829-830 | The 5 characters before the last dot of a scoped command path are the scope's letters |
| SyncProtocol.RemoveByClassCommand | buswear/src/main/java/pl/tajchert/buswear/EventBus.java:831-836 | The command removeStickyEventRemote(Class) sends removes by simple name |
| SyncProtocol.RemoveByValueCommand | buswear/src/main/java/pl/tajchert/buswear/EventBus.java:837-847 | The command removeStickyEventRemote(Object) sends removes by decoded value |
| SyncProtocol.StringValueCommand | buswear/src/main/java/pl/tajchert/buswear/EventBus.java:815-827 | A remove-by-value command for a String is read as remove-by-class, or as clear-all for the action string |
| WearBusTools.EncodeValue | buswear/src/main/java/pl/tajchert/buswear/wear/WearBusTools.java:94-116 | Past the NoSubscriberEvent test, a value is always either encoded or rejected |
| WearBusTools.ParseToSend | buswear/src/main/java/pl/tajchert/buswear/wear/WearBusTools.java:90-117 | Null is returned iff the value is a NoSubscriberEvent. It throws iff the value is null or none of String, Integer, Long, Float, Double, Short or Parcelable |
| WearBusTools.ParseToSendAsWritten | buswear/src/main/java/pl/tajchert/buswear/wear/WearBusTools.java:90-93 | As written, only the imported greenrobot NoSubscriberEvent class yields null |
| WearBusTools.EncodersAgreeElsewhere | buswear/src/main/java/pl/tajchert/buswear/wear/WearBusTools.java:90-117 | The as-written and corrected `parseToSend` differ exactly on the bus's and greenrobot's NoSubscriberEvent |
| WearBusTools.AsWrittenRejectsBusNoSubscriber | buswear/src/main/java/pl/tajchert/buswear/wear/WearBusTools.java:90-117 | As written, the bus's own NoSubscriberEvent reaches the RuntimeException; the corrected test returns null for it |
| WearBusTools.GetSendSimpleObject | buswear/src/main/java/pl/tajchert/buswear/wear/WearBusTools.java:60-80 | Null iff the name is none of String, Integer, Long, Double, Float, Short; a String never underflows |
| WearBusTools.EncodedWidths | buswear/src/main/java/pl/tajchert/buswear/wear/WearBusTools.java:101-110 | Integer and Float take 4 bytes, Long and Double 8, Short 2 |
| WearBusTools.IntegerIsBigEndian | buswear/src/main/java/pl/tajchert/buswear/wear/WearBusTools.java:101-102 | Byte `k` of an Integer is its two's-complement base-256 digit `3 - k`: big-endian |
| Objects.SimpleName | buswear/src/main/java/pl/tajchert/buswear/EventBus.java:854 | `getSimpleName` of a top-level class holds no dot |
| Objects.SimpleNameIsLastSegment | buswear/src/main/java/pl/tajchert/buswear/EventBus.java:854 | The simple name ends the class name, preceded by a dot unless it is the whole name |
| WearBusTools.SimpleNameOfJavaLang | buswear/src/main/java/pl/tajchert/buswear/EventBus.java:778 | The simple name of `java.lang.X` is `X` |
| WearBusTools.ScalarSimpleNames | buswear/src/main/java/pl/tajchert/buswear/wear/WearBusTools.java:62-77 | The scalar classes' simple names are exactly the names the decoder tests for |
| WearBusTools.RoundTrip | buswear/src/main/java/pl/tajchert/buswear/wear/WearBusTools.java:60-117 | Decoding the encoding of a String or fixed-width scalar, under its class's simple name, gives the value back |
| WearBusTools.RoundTripString | buswear/src/main/java/pl/tajchert/buswear/wear/WearBusTools.java:95-100 | A UTF-8 encoded String decodes under "String" to itself |
| WearBusTools.RoundTripInteger | buswear/src/main/java/pl/tajchert/buswear/wear/WearBusTools.java:101-110 | Integer, Long and Short survive encode-then-decode under "Integer", "Long" and "Short" |
| WearBusTools.RoundTripFloating | buswear/src/main/java/pl/tajchert/buswear/wear/WearBusTools.java:105-108 | Float and Double bit patterns survive encode-then-decode |
| WearBusTools.DecodeThenEncode | buswear/src/main/java/pl/tajchert/buswear/wear/WearBusTools.java:68-77 | A buffer of exactly a fixed-width kind's size decodes to a value that encodes back to the same buffer |
| WearBusTools.StickyPrefixIsNotEventPrefix | buswear/src/main/java/pl/tajchert/buswear/wear/WearBusTools.java:16-17 | The sticky prefix does not contain the event prefix |
| WearBusTools.CommandPrefixIsNotEventPrefix | buswear/src/main/java/pl/tajchert/buswear/wear/WearBusTools.java:16-25 | No command path prefix contains the event or the sticky prefix |
| WearBusTools.RemovalPrefixesShape | buswear/src/main/java/pl/tajchert/buswear/wear/WearBusTools.java:24-25 | `class.` and `event.` are five letters and a dot, matching the 5-character slice |
| BigEndian.FromToBytes | buswear/src/main/java/pl/tajchert/buswear/wear/WearBusTools.java:101-104 | Reading back the big-endian bytes of a number gives the number |
| BigEndian.ToFromBytes | buswear/src/main/java/pl/tajchert/buswear/wear/WearBusTools.java:68-71 | Writing back a read buffer gives the buffer |
| BigEndian.ToBytesDigit | buswear/src/main/java/pl/tajchert/buswear/wear/WearBusTools.java:101-110 | Byte `i` of an `n`-byte big-endian encoding is base-256 digit `n - 1 - i` |
| BigEndian.DecodeEncodeSigned | buswear/src/main/java/pl/tajchert/buswear/wear/WearBusTools.java:101-110 | `getInt`/`getLong`/`getShort` after `putInt`/`putLong`/`putShort` give the value back |
| BigEndian.EncodeDecodeSigned | buswear/src/main/java/pl/tajchert/buswear/wear/WearBusTools.java:68-77 | Putting back what was read gives the same bytes |
| Utf8.Encode | buswear/src/main/java/pl/tajchert/buswear/wear/WearBusTools.java:97 | Each character takes one to four bytes |
| Utf8.DecodeEncode | buswear/src/main/java/pl/tajchert/buswear/wear/WearBusTools.java:95-100 | UTF-8 decoding of a string's UTF-8 encoding gives the string back |
| Utf8.DecodeOne | buswear/src/main/java/pl/tajchert/buswear/wear/WearBusTools.java:64 | One character takes at least one and at most all of the remaining bytes |
| Utf8.DecodedCharReencodes | buswear/src/main/java/pl/tajchert/buswear/wear/WearBusTools.java:64 | A decoded character other than U+FFFD re-encodes to exactly the bytes it was decoded from |
| Utf8.Decode | buswear/src/main/java/pl/tajchert/buswear/wear/WearBusTools.java:64 | `new String(bytes, "UTF-8")` has at most one character per byte; when no U+FFFD comes out, encoding the string gives the bytes back |
| JavaStrings.Contains | buswear/src/main/java/pl/tajchert/buswear/EventBus.java:777 | `contains` holds iff the pattern occurs at some index |
| JavaStrings.LastIndexOf | buswear/src/main/java/pl/tajchert/buswear/EventBus.java:778 | The index of the last occurrence, or -1 if there is none |
| JavaStrings.AfterLastOfAppend | buswear/src/main/java/pl/tajchert/buswear/EventBus.java:778 | A prefix ending in the delimiter followed by a delimiter-free tail leaves the tail as the text after the last delimiter |
| JavaStrings.NotContainedWithFreeTail | buswear/src/main/java/pl/tajchert/buswear/EventBus.java:777-791 | Appending a dot-free class name cannot create an occurrence of a prefix that ends in a dot |
| Connection.NodeListOf | buswear/src/main/java/pl/tajchert/buswear/ConnectionUtil.java:72-78 | An absent node set yields the empty list, so it behaves as an empty set |
| Connection.NodesChanged | buswear/src/main/java/pl/tajchert/buswear/ConnectionUtil.java:88-104 | No change is reported iff the lists have the same length and every new id is among the old ids |
| Connection.CompareNodes | buswear/src/main/java/pl/tajchert/buswear/ConnectionUtil.java:88-104 | The nested loop with the labelled continue returns exactly `NodesChanged`: sizes differ, or some new id is absent from the old ids |
| Connection.SameListUnchanged | buswear/src/main/java/pl/tajchert/buswear/ConnectionUtil.java:88-104 | A list compared with itself has not changed |
| Connection.DuplicateIdsMaskChange | buswear/src/main/java/pl/tajchert/buswear/ConnectionUtil.java:93-103 | With repeated ids, a lost id goes unnoticed: `[a, a]` against `[a, b]` is unchanged |
| Connection.UnchangedMeansSameIds | buswear/src/main/java/pl/tajchert/buswear/ConnectionUtil.java:90-103 | When the new list repeats no id, an unchanged verdict means both lists carry the same ids |
| Connection.DistinctIdsCount | buswear/src/main/java/pl/tajchert/buswear/ConnectionUtil.java:93-103 | A list with no repeated id has as many ids as nodes |
| Connection.IdsAtMost | buswear/src/main/java/pl/tajchert/buswear/ConnectionUtil.java:93-103 | A list never has more ids than nodes |
| Connection.ConnectionUtil.constructor | buswear/src/main/java/pl/tajchert/buswear/ConnectionUtil.java:27-32 | A new watcher has seen no node, and the constructor's notify of an absent set detects no change |
| Connection.ConnectionUtil.NotifyNodeUpdates | buswear/src/main/java/pl/tajchert/buswear/ConnectionUtil.java:71-86 | On a change, a WearConnectionEvent for the nodes is stored as the sticky event of its class and posted locally; otherwise the bus is untouched. The nodes become `lastSeenNodes` unless the post raised |
| Connection.ConnectionUtil.OnCapabilityChanged | buswear/src/main/java/pl/tajchert/buswear/ConnectionUtil.java:64-69 | Only the BusWear capability's change is a node update; any other name changes nothing |
| Connection.ConnectionUtil.OnConnectionSuspended | buswear/src/main/java/pl/tajchert/buswear/ConnectionUtil.java:59-62 | A suspension is a node update to the empty set |
| Connection.ConnectionEventReportsNodes | buswear/src/main/java/pl/tajchert/buswear/wear/connection/WearConnectionEvent.java:19-21 | `hasBusWearConnection` is true iff the node list is non-empty |

## Left out

- Reflection is not modelled: `SubscriberMethodFinder`, `Method.invoke` and the Parcel constructor used by `findParcel`.
  - Handlers are the `react` table.
  - `Register` takes the found methods as a list.
  - Parcel construction is the partial function `unparcel`.
- Concurrency is not modelled: `ThreadLocal`, `synchronized`, the concurrent collections and the three posters. There is one posting state per bus, and the main-thread test is a boolean parameter. Posters are recorded as `Enqueued` effects; `InvokePendingPost` is what a poster later runs.
- Transport is not modelled. `SendByteArrayToNode` is recorded as a `Transmission` in `sent`, and its own failures (caught and logged) cannot be observed. `SendCommandToNode` is not modelled. The senders `removeStickyEventRemote`, `removeAllStickyEventsRemote`, `removeStickyEvent` and `removeAllStickyEvents` are therefore left out. The paths they send are covered by `SyncProtocol.ClearAllCommand`, `RemoveByClassCommand` and `RemoveByValueCommand`.
- `postSticky` and `postStickyRemote` are left out; they combine a cache put with the posts modelled here.
- `parcelToByte` and `byteToParcel` are not modelled. A Parcelable is a class name plus the bytes `Parcel.marshall` would give.
- Float and Double are carried as IEEE 754 bit patterns; no floating-point arithmetic is modelled.
- Logging, `getDefault`, the builder, `clearCaches` and `getExecutorService` are not modelled. `syncEvent` and `stickyEventCommand` act on the given bus instead of the default one.
- `classList` and `eventTypesCache` are static in the source and per instance here.
- `handleSubscriberException`: a failure escapes iff `throwSubscriberException` is set. The following are not modelled:
  - `sendSubscriberExceptionEvent`;
  - the special case that swallows failures while delivering a SubscriberExceptionEvent;
  - the `IllegalAccessException` branch.
- Bus.EventBus.Drain: handlers do not post re-entrantly. Only the bus's own NoSubscriberEvent is posted from inside a drain. A handler that posts is not modelled, because its termination cannot be bounded.
- Strings are sequences of Unicode scalar values. A Java string is UTF-16 and may hold an unpaired surrogate, which `getBytes("UTF-8")` turns into `?`. Such strings are not modelled, so `Utf8.DecodeEncode` and `WearBusTools.RoundTripString` promise the round trip only for strings of scalar values.
- SyncProtocol.ParseCommand: `stickyEventCommand` reads the action with `new String(bytes)`, in the platform's default charset. The model decodes it as UTF-8, which is Android's default; other defaults are not modelled.
- Identity is modelled as value equality.
  - `cancelEventDelivery` compares the event by `!=`, and `removeStickyEventLocal(Object)` uses `equals`; both are value equality here.
  - Subscribers are numbers compared by `==`.
- `getSimpleName` is the text after the last dot, which is right for top-level classes only. Nested classes are not modelled.
- `Subscription.java`, `SubscriberMethod.java`, `PendingPost.java` and `NoSubscriberEvent.java` are not part of this model. Their fields and `Subscription.equals` (same subscriber, same method) are taken as the bus uses them.
- Connection.ConnectionUtil: the GoogleApiClient plumbing is not modelled (`onConnected`, `disconnect`, capability queries). `EventCatcher.java` is not modelled. The capability name is a constructor parameter. The node set's iteration order is the order of the given sequence.

## Findings

| source | as written | input that shows it | evidently intended | confidence | as-written member | corrected member |
|---|---|---|---|---|---|---|
| buswear/src/main/java/pl/tajchert/buswear/wear/WearBusTools.java:91-93 | `parseToSend` returns null only for `org.greenrobot.eventbus.NoSubscriberEvent`, the class it imports. The bus itself creates `pl.tajchert.buswear.NoSubscriberEvent`, which falls through to the RuntimeException | `post` of an event nobody subscribes to, with `sendNoSubscriberEvent` set. The NoSubscriberEvent it queues reaches `parseToSend`, which throws, and the RuntimeException escapes `post` | A NoSubscriberEvent of the bus is delivered locally, not transmitted, and raises nothing | medium, not executed | WearBusTools.ParseToSendAsWritten, WearBusTools.AsWrittenRejectsBusNoSubscriber, Bus.EventBus.AsWrittenPostRaisesOnNotice | WearBusTools.ParseToSend, Bus.EventBus.CorrectedPostSkipsNotice |

=== FILE: big_endian.dfy ===
/**
 * Fixed-width big-endian two's-complement integers, the layout
 * java.nio.ByteBuffer uses for putShort/putInt/putLong and getShort/getInt/getLong.
 */
module BigEndian {
  import opened Objects

  function Pow256(n: nat): (p: nat)
    ensures p >= 1
  {
    if n == 0 then 1 else 256 * Pow256(n - 1)
  }

  /** The `n` bytes of `u`, most significant first. */
  function ToBytes(u: nat, n: nat): (r: seq<byte>)
    requires u < Pow256(n)
    ensures |r| == n
  {
    if n == 0 then [] else ToBytes(u / 256, n - 1) + [u % 256]
  }

  /** The unsigned number whose big-endian bytes are `bs`. */
  function FromBytes(bs: seq<byte>): (u: nat)
    ensures u < Pow256(|bs|)
  {
    if bs == [] then 0 else FromBytes(bs[..|bs| - 1]) * 256 + bs[|bs| - 1]
  }

  lemma {:induction false} FromToBytes(u: nat, n: nat)
    requires u < Pow256(n)
    ensures FromBytes(ToBytes(u, n)) == u
  {
    if n > 0 {
      var r := ToBytes(u, n);
      assert r[..n - 1] == ToBytes(u / 256, n - 1);
      FromToBytes(u / 256, n - 1);
    }
  }

  lemma {:induction false} ToFromBytes(bs: seq<byte>)
    ensures ToBytes(FromBytes(bs), |bs|) == bs
  {
    if bs != [] {
      var n := |bs|;
      var u := FromBytes(bs);
      var init := bs[..n - 1];
      assert u / 256 == FromBytes(init) && u % 256 == bs[n - 1];
      ToFromBytes(init);
      assert bs == init + [bs[n - 1]];
    }
  }

  /** Big-endian order: byte `i` of `ToBytes(u, n)` is digit `n - 1 - i` of `u` in base 256. */
  lemma {:induction false} ToBytesDigit(u: nat, n: nat, i: nat)
    requires u < Pow256(n) && i < n
    ensures ToBytes(u, n)[i] == (u / Pow256(n - 1 - i)) % 256
  {
    if i == n - 1 {
      assert ToBytes(u, n)[i] == u % 256;
    } else {
      ToBytesDigit(u / 256, n - 1, i);
      DivDiv(u, 256, Pow256(n - 2 - i));
    }
  }

  /** Division by `d` is determined by any quotient/remainder pair. */
  lemma DivUnique(u: int, d: int, q: int, r: int)
    requires d > 0 && u == q * d + r && 0 <= r < d
    ensures u / d == q && u % d == r
  {
    var k := q - u / d;
    assert k * d == u % d - r;
  }

  lemma DivDiv(u: nat, a: nat, b: nat)
    requires a > 0 && b > 0
    ensures u / a / b == u / (a * b)
  {
    var q, r := u / (a * b), u % (a * b);
    var r1, r0 := r / a, r % a;
    assert r1 < b;
    assert u == (q * b + r1) * a + r0;
    DivUnique(u, a, q * b + r1, r0);
    DivUnique(u / a, b, q, r1);
  }

  /** Half the range of an `n`-byte integer: its values are `-Half(n)` up to `Half(n) - 1`. */
  function Half(n: nat): (h: int)
    ensures n > 0 ==> Pow256(n) == 2 * h
  {
    Pow256(n) / 2
  }

  /** The two's-complement bit pattern of `x` in `n` bytes. */
  function Unsigned(x: int, n: nat): (u: nat)
    requires n > 0 && -Half(n) <= x < Half(n)
    ensures u < Pow256(n)
  {
    if x < 0 then x + Pow256(n) else x
  }

  /** The number whose `n`-byte two's-complement bit pattern is `u`. */
  function Signed(u: nat, n: nat): (x: int)
    requires n > 0 && u < Pow256(n)
    ensures -Half(n) <= x < Half(n)
  {
    if u >= Half(n) then u - Pow256(n) else u
  }

  /** `ByteBuffer.allocate(n).putX(x).array()` for the `n`-byte integer type. */
  function EncodeSigned(x: int, n: nat): (r: seq<byte>)
    requires n > 0 && -Half(n) <= x < Half(n)
    ensures |r| == n
  {
    ToBytes(Unsigned(x, n), n)
  }

  /** `ByteBuffer.wrap(bs).getX()` for the `n`-byte integer type: the first `n` bytes are read. */
  function DecodeSigned(bs: seq<byte>, n: nat): (x: int)
    requires 0 < n <= |bs|
    ensures -Half(n) <= x < Half(n)
  {
    Signed(FromBytes(bs[..n]), n)
  }

  lemma {:induction false} DecodeEncodeSigned(x: int, n: nat)
    requires n > 0 && -Half(n) <= x < Half(n)
    ensures DecodeSigned(EncodeSigned(x, n), n) == x
  {
    var bs := EncodeSigned(x, n);
    assert bs[..n] == bs;
    FromToBytes(Unsigned(x, n), n);
  }

  /** Every `n`-byte buffer is the encoding of the number it decodes to. */
  lemma {:induction false} EncodeDecodeSigned(bs: seq<byte>)
    requires |bs| > 0
    ensures EncodeSigned(DecodeSigned(bs, |bs|), |bs|) == bs
  {
    assert bs[..|bs|] == bs;
    ToFromBytes(bs);
  }

  lemma Pow256Values()
    ensures Pow256(2) == 0x1_0000
    ensures Pow256(4) == 0x1_0000_0000
    ensures Pow256(8) == 0x1_0000_0000_0000_0000
  {
    assert Pow256(1) == 256;
    assert Pow256(2) == 0x1_0000;
    assert Pow256(3) == 0x100_0000;
    assert Pow256(4) == 0x1_0000_0000;
    assert Pow256(5) == 0x100_0000_0000;
    assert Pow256(6) == 0x1_0000_0000_0000;
    assert Pow256(7) == 0x100_0000_0000_0000;
  }
}

=== FILE: connection_util.dfy ===
/**
 * The peer-node watcher of ConnectionUtil: it remembers the BusWear nodes it
 * last saw and, whenever the reachable set changes, posts a sticky
 * WearConnectionEvent on the local bus.
 */
module Connection {
  import opened Wrappers
  import opened Objects
  import opened TypeHierarchy
  import opened Bus

  /** Some node of `nodes` has id `id`. */
  predicate IdIn(id: string, nodes: seq<Node>) {
    exists j | 0 <= j < |nodes| :: nodes[j].id == id
  }

  /**
   * The verdict of `nodesChanged(nodeList, lastSeenNodes)`: the sizes
   * differ, or some new node's id is not among the old ids. The check runs
   * from new to old only.
   */
  function NodesChanged(nodeList: seq<Node>, lastSeen: seq<Node>): (changed: bool)
    ensures !changed <==> |nodeList| == |lastSeen| && Ids(nodeList) <= Ids(lastSeen)
  {
    |nodeList| != |lastSeen| || exists i | 0 <= i < |nodeList| :: !IdIn(nodeList[i].id, lastSeen)
  }

  /** The ids of a node list. */
  function Ids(nodes: seq<Node>): (r: set<string>)
    ensures forall id :: id in r <==> IdIn(id, nodes)
  {
    set j | 0 <= j < |nodes| :: nodes[j].id
  }

  /** No two nodes of the list share an id. */
  predicate DistinctIds(nodes: seq<Node>) {
    forall i, j | 0 <= i < j < |nodes| :: nodes[i].id != nodes[j].id
  }

  /** `notifyNodeUpdates(null)` copies no node, so it acts as for an empty node set. */
  function NodeListOf(connectedNodes: Option<seq<Node>>): (r: seq<Node>)
    ensures connectedNodes.None? ==> r == []
    ensures connectedNodes.Some? ==> r == connectedNodes.value
  {
    match connectedNodes
    case None => []
    case Some(nodes) => nodes
  }

  /**
   * `nodesChanged` as written: a size check, then for each new node a scan
   * of the old ones that moves on to the next new node as soon as its id
   * turns up.
   */
  method CompareNodes(nodeList: seq<Node>, lastSeen: seq<Node>) returns (changed: bool)
    ensures changed == NodesChanged(nodeList, lastSeen)
  {
    if |nodeList| != |lastSeen| {
      return true;
    }
    var i := 0;
    while i < |nodeList|
      invariant 0 <= i <= |nodeList|
      invariant forall k | 0 <= k < i :: IdIn(nodeList[k].id, lastSeen)
    {
      var newNode := nodeList[i];
      var j := 0;
      var found := false;
      while j < |lastSeen| && !found
        invariant 0 <= j <= |lastSeen|
        invariant found ==> IdIn(newNode.id, lastSeen)
        invariant !found ==> forall k | 0 <= k < j :: lastSeen[k].id != newNode.id
      {
        if newNode.id == lastSeen[j].id {
          found := true;
        }
        j := j + 1;
      }
      if !found {
        return true;
      }
      i := i + 1;
    }
    return false;
  }

  /** A list compared with itself has not changed. */
  lemma SameListUnchanged(nodes: seq<Node>)
    ensures !NodesChanged(nodes, nodes)
  {
    forall i | 0 <= i < |nodes| ensures IdIn(nodes[i].id, nodes) {
      assert nodes[i].id == nodes[i].id;
    }
  }

  /**
   * Repeated ids mask a change: two nodes with the same id replacing two
   * nodes with different ids go unnoticed, although one old id is gone.
   */
  lemma DuplicateIdsMaskChange(a: Node, b: Node)
    requires a.id != b.id
    ensures !NodesChanged([a, a], [a, b])
    ensures b.id in Ids([a, b]) && b.id !in Ids([a, a])
  {
    assert IdIn(a.id, [a, b]) by {
      assert [a, b][0].id == a.id;
    }
    assert b.id in Ids([a, b]) by {
      assert [a, b][1].id == b.id;
    }
  }

  /** The ids of a non-empty list: those of its tail and the head's. */
  lemma IdsCons(nodes: seq<Node>)
    requires nodes != []
    ensures Ids(nodes) == Ids(nodes[1..]) + {nodes[0].id}
  {
    var tail := nodes[1..];
    forall id | id in Ids(nodes) ensures id in Ids(tail) + {nodes[0].id} {
      var j :| 0 <= j < |nodes| && nodes[j].id == id;
      if j > 0 {
        assert tail[j - 1].id == id;
      }
    }
    forall id | id in Ids(tail) ensures id in Ids(nodes) {
      var j :| 0 <= j < |tail| && tail[j].id == id;
      assert nodes[j + 1].id == id;
    }
  }

  /** A list with no repeated id has as many ids as nodes. */
  lemma {:induction false} DistinctIdsCount(nodes: seq<Node>)
    requires DistinctIds(nodes)
    ensures |Ids(nodes)| == |nodes|
  {
    if nodes != [] {
      var tail := nodes[1..];
      assert DistinctIds(tail) by {
        forall i, j | 0 <= i < j < |tail| ensures tail[i].id != tail[j].id {
          assert tail[i] == nodes[i + 1] && tail[j] == nodes[j + 1];
        }
      }
      DistinctIdsCount(tail);
      IdsCons(nodes);
      assert nodes[0].id !in Ids(tail) by {
        forall j | 0 <= j < |tail| ensures tail[j].id != nodes[0].id {
          assert tail[j] == nodes[j + 1];
        }
      }
    }
  }

  /** A list never has more ids than nodes. */
  lemma {:induction false} IdsAtMost(nodes: seq<Node>)
    ensures |Ids(nodes)| <= |nodes|
  {
    if nodes != [] {
      IdsAtMost(nodes[1..]);
      IdsCons(nodes);
    }
  }

  lemma SubsetCard<T>(a: set<T>, b: set<T>)
    requires a <= b
    ensures |a| <= |b|
  {
    assert b == a + (b - a);
  }

  /**
   * When the new list repeats no id, an unchanged verdict means the two
   * lists carry exactly the same ids: only repeated ids can mask a change.
   */
  lemma UnchangedMeansSameIds(nodeList: seq<Node>, lastSeen: seq<Node>)
    requires DistinctIds(nodeList)
    requires !NodesChanged(nodeList, lastSeen)
    ensures Ids(nodeList) == Ids(lastSeen)
  {
    var newIds := Ids(nodeList);
    var oldIds := Ids(lastSeen);
    assert newIds <= oldIds by {
      forall id | id in newIds ensures id in oldIds {
        var i :| 0 <= i < |nodeList| && nodeList[i].id == id;
      }
    }
    DistinctIdsCount(nodeList);
    IdsAtMost(lastSeen);
    assert oldIds == newIds + (oldIds - newIds);
    assert |oldIds - newIds| == 0;
  }

  /**
   * The connection watcher of one device. It reports node changes on the
   * bus it was given; the Play-services client that feeds it is outside
   * the model.
   */
  class ConnectionUtil {
    const bus: EventBus
    const busWearCapability: string
    var lastSeenNodes: seq<Node>

    /**
     * A fresh watcher has seen no node. The source's constructor then
     * notifies an absent node set, which compares equal to the empty list
     * and posts nothing.
     */
    constructor (bus: EventBus, busWearCapability: string)
      ensures this.bus == bus && this.busWearCapability == busWearCapability
      ensures lastSeenNodes == []
      ensures !NodesChanged(NodeListOf(None), lastSeenNodes)
    {
      this.bus := bus;
      this.busWearCapability := busWearCapability;
      lastSeenNodes := [];
    }

    /** The bus is ready to take a local sticky post. */
    ghost predicate BusReady()
      reads bus
    {
      bus.TypesReady() && bus.PostingIdle() && bus.StickyOk()
    }

    /**
     * What `notifyNodeUpdates(nodes)` did: on a change, a WearConnectionEvent
     * for the nodes was stored as the sticky event of its class and posted
     * locally; the nodes became the last seen ones unless that post threw.
     * Without a change the bus is untouched.
     */
    twostate predicate Notified(nodes: seq<Node>, onMainThread: bool, outcome: Outcome)
      requires WellFormed(bus.hierarchy)
      reads this, bus
    {
      if NodesChanged(nodes, old(lastSeenNodes)) then
        && bus.stickyEvents == old(bus.stickyEvents)[WEAR_CONNECTION_CLASS := WearConnection(nodes)]
        && bus.Posted(WearConnection(nodes), onMainThread, LocalOnly, outcome)
        && lastSeenNodes == (if outcome.Done? then nodes else old(lastSeenNodes))
      else
        outcome == Done && unchanged(bus) && lastSeenNodes == nodes
    }

    /**
     * `notifyNodeUpdates(connectedNodes)`: copies the nodes (none for an
     * absent set), posts a sticky WearConnectionEvent when they differ from
     * the last seen ones, then remembers them.
     */
    method NotifyNodeUpdates(connectedNodes: Option<seq<Node>>, onMainThread: bool) returns (outcome: Outcome)
      requires BusReady()
      modifies this`lastSeenNodes, bus`eventQueue, bus`isPosting, bus`isMainThread, bus`currentEvent
      modifies bus`currentSubscription, bus`canceled, bus`effects, bus`sent, bus`eventTypesCache, bus`stickyEvents
      ensures BusReady()
      ensures Notified(NodeListOf(connectedNodes), onMainThread, outcome)
      ensures outcome.Done? ==> lastSeenNodes == NodeListOf(connectedNodes)
    {
      var nodeList := [];
      if connectedNodes.Some? {
        var nodes := connectedNodes.value;
        var k := 0;
        while k < |nodes|
          invariant 0 <= k <= |nodes|
          invariant nodeList == nodes[..k]
        {
          nodeList := nodeList + [nodes[k]];
          k := k + 1;
        }
        assert nodes[..k] == nodes;
      }
      var changed := CompareNodes(nodeList, lastSeenNodes);
      outcome := Done;
      if changed {
        outcome := bus.PostStickyLocal(WearConnection(nodeList), onMainThread);
        if outcome.Raised? {
          return;
        }
      }
      lastSeenNodes := nodeList;
    }

    /** `onCapabilityChanged(info)`: only a change of the BusWear capability is a node update. */
    method OnCapabilityChanged(name: string, nodes: seq<Node>, onMainThread: bool) returns (outcome: Outcome)
      requires BusReady()
      modifies this`lastSeenNodes, bus`eventQueue, bus`isPosting, bus`isMainThread, bus`currentEvent
      modifies bus`currentSubscription, bus`canceled, bus`effects, bus`sent, bus`eventTypesCache, bus`stickyEvents
      ensures BusReady()
      ensures name == busWearCapability ==> Notified(nodes, onMainThread, outcome)
      ensures name != busWearCapability ==> outcome == Done && unchanged(this, bus)
    {
      outcome := Done;
      if busWearCapability == name {
        outcome := NotifyNodeUpdates(Some(nodes), onMainThread);
      }
    }

    /** `onConnectionSuspended(cause)`: no node is reachable any more. */
    method OnConnectionSuspended(onMainThread: bool) returns (outcome: Outcome)
      requires BusReady()
      modifies this`lastSeenNodes, bus`eventQueue, bus`isPosting, bus`isMainThread, bus`currentEvent
      modifies bus`currentSubscription, bus`canceled, bus`effects, bus`sent, bus`eventTypesCache, bus`stickyEvents
      ensures BusReady()
      ensures Notified([], onMainThread, outcome)
    {
      outcome := NotifyNodeUpdates(None, onMainThread);
    }
  }

  /**
   * The connection event a notify stores tells subscribers whether any
   * BusWear node is reachable: exactly when the node list is not empty.
   */
  lemma ConnectionEventReportsNodes(nodes: seq<Node>)
    ensures HasBusWearConnection(WearConnection(nodes)) <==> nodes != []
    ensures ClassOf(WearConnection(nodes)) == WEAR_CONNECTION_CLASS
  {
  }
}

=== FILE: dispatch.dfy ===
/**
 * Delivery of one event to one per-type list of subscriptions
 * (`postToSubscription` and the loop of `postSingleEventForEventType`),
 * stated as functions of the handler table.
 */
module Dispatch {
  import opened Objects
  import opened Subscriptions

  /** The three posters that run handlers off the posting thread. */
  datatype Poster = MainThreadPoster | BackgroundPoster | AsyncPoster

  datatype Route = InvokeInline | Enqueue(poster: Poster)

  /** A queued delivery, run later by a poster. */
  datatype PendingPost = PendingPost(subscription: Subscription, event: Value)

  /** What a handler does when invoked: return, ask to cancel delivery of `target`, or throw. */
  datatype Reaction = Returns | Cancels(target: Value) | Throws

  /** The handler methods, reached by reflection in the program. */
  type Handlers = (Subscriber, SubscriberMethod, Value) -> Reaction

  /** What the bus does for one subscription: run its handler, or hand it to a poster. */
  datatype Effect =
    | Invoked(subscription: Subscription, event: Value)
    | Enqueued(poster: Poster, post: PendingPost)

  /** The switch of `postToSubscription`. */
  function RouteOf(mode: ThreadMode, isMainThread: bool): (r: Route)
    ensures mode == PostThread ==> r == InvokeInline
    ensures mode == MainThread ==> (r == InvokeInline <==> isMainThread)
    ensures mode == MainThread && !isMainThread ==> r == Enqueue(MainThreadPoster)
    ensures mode == BackgroundThread ==> (r == Enqueue(BackgroundPoster) <==> isMainThread)
    ensures mode == BackgroundThread && !isMainThread ==> r == InvokeInline
    ensures mode == Async ==> r == Enqueue(AsyncPoster)
  {
    match mode
    case PostThread => InvokeInline
    case MainThread => if isMainThread then InvokeInline else Enqueue(MainThreadPoster)
    case BackgroundThread => if isMainThread then Enqueue(BackgroundPoster) else InvokeInline
    case Async => Enqueue(AsyncPoster)
  }

  datatype StepResult = StepResult(effect: Effect, canceled: bool, failed: bool)

  /**
   * One subscription's turn while event `e` is being posted: the posting
   * state then holds `e` and this subscription. A cancel is honoured only
   * for the current event from a PostThread handler; a refused cancel
   * throws inside the handler and counts as a handler failure, which
   * escapes only when `throwSubscriberException` is set.
   */
  function Step(react: Handlers, throwSubscriberException: bool, sub: Subscription, e: Value, isMainThread: bool): (r: StepResult)
    ensures r.failed ==> throwSubscriberException
  {
    match RouteOf(sub.subscriberMethod.threadMode, isMainThread)
    case Enqueue(p) => StepResult(Enqueued(p, PendingPost(sub, e)), false, false)
    case InvokeInline =>
      match react(sub.subscriber, sub.subscriberMethod, e)
      case Returns => StepResult(Invoked(sub, e), false, false)
      case Cancels(t) =>
        if t != Null && t == e && sub.subscriberMethod.threadMode == PostThread then
          StepResult(Invoked(sub, e), true, false)
        else
          StepResult(Invoked(sub, e), false, throwSubscriberException)
      case Throws => StepResult(Invoked(sub, e), false, throwSubscriberException)
  }

  datatype Delivery = Delivery(effects: seq<Effect>, failed: bool)

  /** The subscriptions of one list take their turns in order until one cancels or fails. */
  function ListDelivery(react: Handlers, throwSubscriberException: bool, subs: seq<Subscription>, e: Value, isMainThread: bool): (d: Delivery)
    ensures |d.effects| <= |subs|
  {
    if subs == [] then Delivery([], false)
    else
      var st := Step(react, throwSubscriberException, subs[0], e, isMainThread);
      if st.failed || st.canceled then Delivery([st.effect], st.failed)
      else
        var rest := ListDelivery(react, throwSubscriberException, subs[1..], e, isMainThread);
        Delivery([st.effect] + rest.effects, rest.failed)
  }

  /** Only a PostThread handler asking to cancel the very event it was given cancels. */
  lemma CancelOnlyFromPostThread(react: Handlers, throwSubscriberException: bool, sub: Subscription, e: Value, isMainThread: bool)
    requires Step(react, throwSubscriberException, sub, e, isMainThread).canceled
    ensures sub.subscriberMethod.threadMode == PostThread
    ensures e != Null && react(sub.subscriber, sub.subscriberMethod, e) == Cancels(e)
  {
  }

  /**
   * A turn fails exactly when its handler ran inline and threw, or asked
   * for a cancel that was refused, and `throwSubscriberException` is set.
   */
  lemma StepFailsWhen(react: Handlers, throwSubscriberException: bool, sub: Subscription, e: Value, isMainThread: bool)
    ensures var st := Step(react, throwSubscriberException, sub, e, isMainThread);
      st.failed <==>
        && throwSubscriberException && st.effect.Invoked? && !st.canceled
        && react(sub.subscriber, sub.subscriberMethod, e) != Returns
  {
  }

  /** A handler is run on the posting thread exactly when the route says so; otherwise it is queued. */
  lemma StepFollowsRoute(react: Handlers, throwSubscriberException: bool, sub: Subscription, e: Value, isMainThread: bool)
    ensures var st := Step(react, throwSubscriberException, sub, e, isMainThread);
      && (st.effect.Invoked? <==> RouteOf(sub.subscriberMethod.threadMode, isMainThread) == InvokeInline)
      && (st.effect.Enqueued? ==> st.effect.post == PendingPost(sub, e) && !st.canceled && !st.failed)
      && (st.effect.Invoked? ==> st.effect.subscription == sub && st.effect.event == e)
  {
  }

  /** The list is delivered in its own order: effect `k` is subscription `k`'s turn. */
  lemma {:induction false} ListDeliveryInOrder(react: Handlers, throwSubscriberException: bool, subs: seq<Subscription>, e: Value, isMainThread: bool)
    ensures var d := ListDelivery(react, throwSubscriberException, subs, e, isMainThread);
      forall k | 0 <= k < |d.effects| :: d.effects[k] == Step(react, throwSubscriberException, subs[k], e, isMainThread).effect
  {
    if subs != [] {
      var st := Step(react, throwSubscriberException, subs[0], e, isMainThread);
      if !(st.failed || st.canceled) {
        ListDeliveryInOrder(react, throwSubscriberException, subs[1..], e, isMainThread);
        var rest := ListDelivery(react, throwSubscriberException, subs[1..], e, isMainThread);
        var d := ListDelivery(react, throwSubscriberException, subs, e, isMainThread);
        forall k | 1 <= k < |d.effects| ensures d.effects[k] == Step(react, throwSubscriberException, subs[k], e, isMainThread).effect {
          assert d.effects[k] == rest.effects[k - 1] && subs[k] == subs[1..][k - 1];
        }
      }
    }
  }

  /**
   * Delivery stops at the first subscription that cancels or fails and no
   * further: every earlier turn neither canceled nor failed, a list cut
   * short ends with a cancel or a failure, and the delivery failed exactly
   * when its last turn failed.
   */
  lemma {:induction false} ListDeliveryStops(react: Handlers, throwSubscriberException: bool, subs: seq<Subscription>, e: Value, isMainThread: bool)
    ensures var d := ListDelivery(react, throwSubscriberException, subs, e, isMainThread);
      var n := |d.effects|;
      && (forall k | 0 <= k < n - 1 ::
            !Step(react, throwSubscriberException, subs[k], e, isMainThread).canceled
            && !Step(react, throwSubscriberException, subs[k], e, isMainThread).failed)
      && (n < |subs| ==> n > 0 && (Step(react, throwSubscriberException, subs[n - 1], e, isMainThread).canceled
                                   || Step(react, throwSubscriberException, subs[n - 1], e, isMainThread).failed))
      && (d.failed <==> n > 0 && Step(react, throwSubscriberException, subs[n - 1], e, isMainThread).failed)
  {
    if subs != [] {
      var st := Step(react, throwSubscriberException, subs[0], e, isMainThread);
      if !(st.failed || st.canceled) {
        ListDeliveryStops(react, throwSubscriberException, subs[1..], e, isMainThread);
        var rest := ListDelivery(react, throwSubscriberException, subs[1..], e, isMainThread);
        var d := ListDelivery(react, throwSubscriberException, subs, e, isMainThread);
        var n := |d.effects|;
        assert n == |rest.effects| + 1;
        forall k | 1 <= k < n - 1 ensures subs[k] == subs[1..][k - 1] {}
        if n > 1 {
          assert subs[n - 1] == subs[1..][n - 2];
        }
      }
    }
  }

  /**
   * The turn of subscription `i`, against the delivery of the list from `i`
   * on: either it ends the list (a failure or a cancel), or what is left to
   * deliver is the list from `i + 1` on.
   */
  lemma ListDeliveryNext(react: Handlers, throwSubscriberException: bool, subs: seq<Subscription>, i: nat, e: Value,
                         isMainThread: bool, before: seq<Effect>)
    requires i < |subs|
    ensures var st := Step(react, throwSubscriberException, subs[i], e, isMainThread);
      var here := ListDelivery(react, throwSubscriberException, subs[i..], e, isMainThread);
      var rest := ListDelivery(react, throwSubscriberException, subs[i + 1..], e, isMainThread);
      if st.failed || st.canceled then
        before + [st.effect] == before + here.effects && here.failed == st.failed
      else
        (before + [st.effect]) + rest.effects == before + here.effects && here.failed == rest.failed
  {
    assert subs[i..][0] == subs[i] && subs[i..][1..] == subs[i + 1..];
    var st := Step(react, throwSubscriberException, subs[i], e, isMainThread);
    var rest := ListDelivery(react, throwSubscriberException, subs[i + 1..], e, isMainThread);
    assert (before + [st.effect]) + rest.effects == before + ([st.effect] + rest.effects);
  }

  lemma AppendAssoc<T>(a: seq<T>, b: seq<T>, c: seq<T>)
    ensures a + (b + c) == (a + b) + c
  {
  }

  function Listed(byType: map<ClassName, seq<Subscription>>, t: ClassName): seq<Subscription> {
    if t in byType then byType[t] else []
  }

  /** The outcome of posting one event: what was run or queued, whether a handler failed, whether any list was found. */
  datatype EventDelivery = EventDelivery(effects: seq<Effect>, failed: bool, found: bool)

  /**
   * The loop of `postSingleEvent` over the event's types: each type's list
   * is delivered in turn, a cancel ends only that type's list, and a failure
   * ends the whole post.
   */
  function TypesDelivery(react: Handlers, throwSubscriberException: bool, byType: map<ClassName, seq<Subscription>>,
                         types: seq<ClassName>, e: Value, isMainThread: bool): (d: EventDelivery)
    ensures d.failed ==> d.found
  {
    if types == [] then EventDelivery([], false, false)
    else
      var subs := Listed(byType, types[0]);
      var first := ListDelivery(react, throwSubscriberException, subs, e, isMainThread);
      if first.failed then EventDelivery(first.effects, true, true)
      else
        var rest := TypesDelivery(react, throwSubscriberException, byType, types[1..], e, isMainThread);
        EventDelivery(first.effects + rest.effects, rest.failed, |subs| > 0 || rest.found)
  }

  /** An event with one type: that type's list is delivered, and a subscription was found iff the list is not empty. */
  lemma SingleTypeDelivery(react: Handlers, throwSubscriberException: bool, byType: map<ClassName, seq<Subscription>>,
                           t: ClassName, e: Value, isMainThread: bool)
    ensures var l := ListDelivery(react, throwSubscriberException, Listed(byType, t), e, isMainThread);
      TypesDelivery(react, throwSubscriberException, byType, [t], e, isMainThread)
        == EventDelivery(l.effects, l.failed, Listed(byType, t) != [])
  {
    assert [t][1..] == [];
  }

  /** A failure in the types of `a` ends the post before any type of `b`. */
  lemma {:induction false} TypesDeliveryAppendFailed(react: Handlers, throwSubscriberException: bool, byType: map<ClassName, seq<Subscription>>,
                                                     a: seq<ClassName>, b: seq<ClassName>, e: Value, isMainThread: bool)
    requires TypesDelivery(react, throwSubscriberException, byType, a, e, isMainThread).failed
    ensures TypesDelivery(react, throwSubscriberException, byType, a + b, e, isMainThread)
         == TypesDelivery(react, throwSubscriberException, byType, a, e, isMainThread)
  {
    var ab := a + b;
    assert ab[0] == a[0];
    assert ab[1..] == a[1..] + b;
    if !ListDelivery(react, throwSubscriberException, Listed(byType, a[0]), e, isMainThread).failed {
      TypesDeliveryAppendFailed(react, throwSubscriberException, byType, a[1..], b, e, isMainThread);
    }
  }

  /**
   * Unless a handler fails, delivering the types of `a + b` is delivering
   * `a` and then `b`: a cancel in one type's list does not stop delivery to
   * the next type.
   */
  lemma {:induction false} TypesDeliveryAppend(react: Handlers, throwSubscriberException: bool, byType: map<ClassName, seq<Subscription>>,
                                               a: seq<ClassName>, b: seq<ClassName>, e: Value, isMainThread: bool)
    requires !TypesDelivery(react, throwSubscriberException, byType, a, e, isMainThread).failed
    ensures TypesDelivery(react, throwSubscriberException, byType, a + b, e, isMainThread)
         == EventDelivery(TypesDelivery(react, throwSubscriberException, byType, a, e, isMainThread).effects
                            + TypesDelivery(react, throwSubscriberException, byType, b, e, isMainThread).effects,
                          TypesDelivery(react, throwSubscriberException, byType, b, e, isMainThread).failed,
                          TypesDelivery(react, throwSubscriberException, byType, a, e, isMainThread).found
                            || TypesDelivery(react, throwSubscriberException, byType, b, e, isMainThread).found)
  {
    if a == [] {
      assert a + b == b;
    } else {
      var ab := a + b;
      assert ab[0] == a[0];
      assert ab[1..] == a[1..] + b;
      var first := ListDelivery(react, throwSubscriberException, Listed(byType, a[0]), e, isMainThread);
      TypesDeliveryAppend(react, throwSubscriberException, byType, a[1..], b, e, isMainThread);
      var r1 := TypesDelivery(react, throwSubscriberException, byType, a[1..], e, isMainThread);
      var db := TypesDelivery(react, throwSubscriberException, byType, b, e, isMainThread);
      AppendAssoc(first.effects, r1.effects, db.effects);
    }
  }

  /** The loop of `postSingleEvent` one type further: the next type's list is delivered after the earlier ones. */
  lemma TypesDeliveryStep(react: Handlers, throwSubscriberException: bool, byType: map<ClassName, seq<Subscription>>,
                          types: seq<ClassName>, h: nat, e: Value, isMainThread: bool)
    requires h < |types|
    requires !TypesDelivery(react, throwSubscriberException, byType, types[..h], e, isMainThread).failed
    ensures var dh := TypesDelivery(react, throwSubscriberException, byType, types[..h], e, isMainThread);
      var l := ListDelivery(react, throwSubscriberException, Listed(byType, types[h]), e, isMainThread);
      TypesDelivery(react, throwSubscriberException, byType, types[..h + 1], e, isMainThread)
        == EventDelivery(dh.effects + l.effects, l.failed, dh.found || Listed(byType, types[h]) != [])
  {
    assert types[..h + 1] == types[..h] + [types[h]];
    TypesDeliveryAppend(react, throwSubscriberException, byType, types[..h], [types[h]], e, isMainThread);
    SingleTypeDelivery(react, throwSubscriberException, byType, types[h], e, isMainThread);
  }

  /**
   * The loop of `postSingleEvent` one type further, for effects logged
   * after `base`: the next type's list is delivered after the earlier ones,
   * and a failure there is the outcome of the whole post.
   */
  lemma TypesDeliveryNext(react: Handlers, throwSubscriberException: bool, byType: map<ClassName, seq<Subscription>>,
                          types: seq<ClassName>, h: nat, e: Value, isMainThread: bool, base: seq<Effect>)
    requires h < |types|
    requires !TypesDelivery(react, throwSubscriberException, byType, types[..h], e, isMainThread).failed
    ensures var dh := TypesDelivery(react, throwSubscriberException, byType, types[..h], e, isMainThread);
      var l := ListDelivery(react, throwSubscriberException, Listed(byType, types[h]), e, isMainThread);
      var d1 := TypesDelivery(react, throwSubscriberException, byType, types[..h + 1], e, isMainThread);
      && (base + dh.effects) + l.effects == base + d1.effects
      && d1.failed == l.failed
      && d1.found == (dh.found || Listed(byType, types[h]) != [])
      && (l.failed ==> TypesDelivery(react, throwSubscriberException, byType, types, e, isMainThread) == d1)
  {
    var dh := TypesDelivery(react, throwSubscriberException, byType, types[..h], e, isMainThread);
    var l := ListDelivery(react, throwSubscriberException, Listed(byType, types[h]), e, isMainThread);
    TypesDeliveryStep(react, throwSubscriberException, byType, types, h, e, isMainThread);
    AppendAssoc(base, dh.effects, l.effects);
    if l.failed {
      TypesDeliveryStopsAt(react, throwSubscriberException, byType, types, h + 1, e, isMainThread);
    }
  }

  /** A failure among the first types is the outcome of the whole post. */
  lemma TypesDeliveryStopsAt(react: Handlers, throwSubscriberException: bool, byType: map<ClassName, seq<Subscription>>,
                             types: seq<ClassName>, h: nat, e: Value, isMainThread: bool)
    requires h <= |types|
    requires TypesDelivery(react, throwSubscriberException, byType, types[..h], e, isMainThread).failed
    ensures TypesDelivery(react, throwSubscriberException, byType, types, e, isMainThread)
         == TypesDelivery(react, throwSubscriberException, byType, types[..h], e, isMainThread)
  {
    assert types == types[..h] + types[h..];
    TypesDeliveryAppendFailed(react, throwSubscriberException, byType, types[..h], types[h..], e, isMainThread);
  }

  /** When no handler fails, a subscription was found exactly when one of the types has a non-empty list. */
  lemma {:induction false} TypesDeliveryFound(react: Handlers, throwSubscriberException: bool, byType: map<ClassName, seq<Subscription>>,
                                              types: seq<ClassName>, e: Value, isMainThread: bool)
    ensures var d := TypesDelivery(react, throwSubscriberException, byType, types, e, isMainThread);
      !d.failed ==> (d.found <==> exists t | t in types :: Listed(byType, t) != [])
  {
    if types != [] {
      TypesDeliveryFound(react, throwSubscriberException, byType, types[1..], e, isMainThread);
      var d := TypesDelivery(react, throwSubscriberException, byType, types, e, isMainThread);
      if !d.failed && !d.found {
        forall t | t in types ensures Listed(byType, t) == [] {
          if t != types[0] {
            assert t in types[1..];
          }
        }
      }
      if (exists t | t in types[1..] :: Listed(byType, t) != []) {
        var t :| t in types[1..] && Listed(byType, t) != [];
        assert t in types;
      }
    }
  }
}

=== FILE: event_bus.dfy ===
/**
 * The event bus: subscription registry, posting-thread state and drain
 * loops, sticky cache, event-type lookup and the inbound sync routing, as
 * one object whose fields the operations update in place.
 */
module Bus {
  import opened Wrappers
  import opened JavaStrings
  import opened Objects
  import opened WearBusTools
  import opened TypeHierarchy
  import opened Subscriptions
  import opened Dispatch
  import opened SyncProtocol

  /** The exceptions that leave a bus operation. */
  datatype BusError =
    | AbortStateNotReset        // "Internal error. Abort state was not reset"
    | AlreadyRegistered         // subscribe: an equal subscription is already listed
    | InvokingSubscriberFailed  // a handler failed while throwSubscriberException is set
    | NullEvent                 // NullPointerException from event.getClass()
    | UnsupportedEvent          // parseToSend's RuntimeException for a type it cannot send
    | BufferUnderflow           // a received scalar payload shorter than its type
    | PathSliceOutOfRange       // stickyEventCommand: substring starting before index 0

  datatype Outcome = Done | Raised(error: BusError)

  /** Why cancelEventDelivery throws. */
  datatype CancelRefusal = NotPosting | NullTarget | NotCurrentEvent | NoCurrentSubscription | NotPostThread

  /** A SendByteArrayToNode started with these bytes, the event's class and the sticky flag. */
  datatype Transmission = Transmission(data: seq<byte>, eventClass: ClassName, sticky: bool)

  /** `new C(Parcel)` for class C on the received bytes; None when C has no such constructor or it throws. */
  type Unparcel = (ClassName, seq<byte>) -> Option<Value>

  /** Class `c` has simple name `name` and its Parcel constructor builds a value from `data`. */
  predicate Builds(unparcel: Unparcel, c: ClassName, name: string, data: seq<byte>) {
    SimpleName(c) == name && unparcel(c, data).Some?
  }

  /** What findParcel returns: the first listed class with that simple name whose constructor succeeds. */
  function FirstParcel(unparcel: Unparcel, classes: seq<ClassName>, name: string, data: seq<byte>): (r: Option<Value>)
    ensures r.None? <==> forall k | 0 <= k < |classes| :: !Builds(unparcel, classes[k], name, data)
  {
    if classes == [] then None
    else if Builds(unparcel, classes[0], name, data) then unparcel(classes[0], data)
    else
      NoneSatisfiesCons(classes, c => Builds(unparcel, c, name, data));
      FirstParcel(unparcel, classes[1..], name, data)
  }

  /** No element of a list satisfies `p` iff the head does not and no element of the tail does. */
  lemma NoneSatisfiesCons<T>(s: seq<T>, p: T -> bool)
    requires s != []
    ensures (forall k | 0 <= k < |s| :: !p(s[k])) <==> !p(s[0]) && forall k | 0 <= k < |s[1..]| :: !p(s[1..][k])
  {
    var tail := s[1..];
    if forall k | 0 <= k < |s| :: !p(s[k]) {
      forall k | 0 <= k < |tail| ensures !p(tail[k]) {
        assert tail[k] == s[k + 1];
      }
    }
    if !p(s[0]) && forall k | 0 <= k < |tail| :: !p(tail[k]) {
      forall k | 1 <= k < |s| ensures !p(s[k]) {
        assert s[k] == tail[k - 1];
      }
    }
  }

  /** What findParcel finds is the value built by the first listed class that can build it. */
  lemma {:induction false} FirstParcelFirst(unparcel: Unparcel, classes: seq<ClassName>, name: string, data: seq<byte>)
    requires FirstParcel(unparcel, classes, name, data).Some?
    ensures exists k | 0 <= k < |classes| ::
      && Builds(unparcel, classes[k], name, data)
      && FirstParcel(unparcel, classes, name, data) == unparcel(classes[k], data)
      && forall j | 0 <= j < k :: !Builds(unparcel, classes[j], name, data)
  {
    var r := FirstParcel(unparcel, classes, name, data);
    if Builds(unparcel, classes[0], name, data) {
      assert Builds(unparcel, classes[0], name, data) && r == unparcel(classes[0], data);
    } else {
      var tail := classes[1..];
      var rest := FirstParcel(unparcel, tail, name, data);
      assert r == rest;
      FirstParcelFirst(unparcel, tail, name, data);
      var k :| 0 <= k < |tail| && Builds(unparcel, tail[k], name, data) && rest == unparcel(tail[k], data)
        && forall j | 0 <= j < k :: !Builds(unparcel, tail[j], name, data);
      assert classes[k + 1] == tail[k];
      forall j | 0 < j < k + 1 ensures !Builds(unparcel, classes[j], name, data) {
        assert classes[j] == tail[j - 1];
        assert !Builds(unparcel, tail[j - 1], name, data);
      }
      assert Builds(unparcel, classes[k + 1], name, data) && r == unparcel(classes[k + 1], data);
    }
  }

  /** What a received payload decodes to: a scalar by simple name, else a parcel from a known class. */
  datatype Inflow = ShortPayload | NoObject | Object(value: Value)

  function DecodeInbound(unparcel: Unparcel, classes: seq<ClassName>, data: seq<byte>, name: string): Inflow {
    match GetSendSimpleObject(data, name)
    case Underflow => ShortPayload
    case Decoded(v) => Object(v)
    case Unknown =>
      match FirstParcel(unparcel, classes, name, data)
      case None => NoObject
      case Some(v) => Object(v)
  }

  /**
   * When every known class's creator builds a value of that class, a parcel
   * payload decodes to a non-null value whose class is a known class with
   * the received simple name, so it is posted (and cached) under that class.
   */
  lemma OwnClassParcel(unparcel: Unparcel, classes: seq<ClassName>, data: seq<byte>, name: string)
    requires GetSendSimpleObject(data, name).Unknown?
    requires forall c | c in classes && unparcel(c, data).Some? ::
      unparcel(c, data).value != Null && ClassOf(unparcel(c, data).value) == c
    ensures DecodeInbound(unparcel, classes, data, name).Object? ==>
      var v := DecodeInbound(unparcel, classes, data, name).value;
      v != Null && ClassOf(v) in classes && SimpleName(ClassOf(v)) == name
  {
    if FirstParcel(unparcel, classes, name, data).Some? {
      FirstParcelFirst(unparcel, classes, name, data);
    }
  }

  /** Bus-generated NoSubscriberEvents weigh less than other events, so a drain that adds them still ends. */
  function Weight(q: seq<Value>): nat {
    if q == [] then 0 else (if q[0].NoSubscriber? then 1 else 2) + Weight(q[1..])
  }

  lemma {:induction false} WeightAppend(a: seq<Value>, b: seq<Value>)
    ensures Weight(a + b) == Weight(a) + Weight(b)
  {
    if a == [] {
      assert a + b == b;
    } else {
      assert (a + b)[0] == a[0];
      assert (a + b)[1..] == a[1..] + b;
      WeightAppend(a[1..], b);
    }
  }

  /**
   * A drain that started from `input` has handled `done` and left `left`:
   * the input comes out first and in order, and whatever the drain added
   * behind it is the bus's own NoSubscriberEvents.
   */
  ghost predicate FifoDrain(input: seq<Value>, done: seq<Value>, left: seq<Value>) {
    input <= done + left && forall k | |input| <= k < |done + left| :: (done + left)[k].NoSubscriber?
  }

  /** Taking the head of the queue keeps a drain first in, first out, when the turn queued only NoSubscriberEvents. */
  lemma FifoStep(q: seq<Value>, queued: seq<Value>, taken: seq<Value>, left: seq<Value>)
    requires q != []
    requires forall k | 0 <= k < |queued| :: queued[k].NoSubscriber?
    requires FifoDrain(q[1..] + queued, taken, left)
    ensures FifoDrain(q, [q[0]] + taken, left)
  {
    var next := q[1..] + queued;
    var all := taken + left;
    assert ([q[0]] + taken) + left == [q[0]] + all;
    assert q == [q[0]] + q[1..];
    assert q[1..] <= next;
    forall k | |q| <= k < |[q[0]] + all| ensures ([q[0]] + all)[k].NoSubscriber? {
      assert ([q[0]] + all)[k] == all[k - 1];
      if k - 1 < |next| {
        assert all[k - 1] == next[k - 1] == queued[k - 1 - |q[1..]|];
      }
    }
  }

  /** The transmissions `post` / `postRemote` start for events handed to parseToSend, in order. */
  function RemoteLog(evs: seq<Value>, sticky: bool, encoder: Encoder): seq<Transmission> {
    if evs == [] then []
    else
      var enc := ParseToSendBy(encoder, evs[0]);
      (if enc.Bytes? then [Transmission(enc.data, ClassOf(evs[0]), sticky)] else []) + RemoteLog(evs[1..], sticky, encoder)
  }

  lemma {:induction false} RemoteLogAppend(a: seq<Value>, b: seq<Value>, sticky: bool, encoder: Encoder)
    ensures RemoteLog(a + b, sticky, encoder) == RemoteLog(a, sticky, encoder) + RemoteLog(b, sticky, encoder)
  {
    if a == [] {
      assert a + b == b;
    } else {
      assert (a + b)[0] == a[0];
      assert (a + b)[1..] == a[1..] + b;
      RemoteLogAppend(a[1..], b, sticky, encoder);
    }
  }

  /**
   * Under either encoder, scalars are transmitted as their wire bytes;
   * NoSubscriberEvents and unsupported values never are.
   */
  lemma RemoteLogOfOne(v: Value, sticky: bool, encoder: Encoder)
    ensures v.Int? || v.Long? || v.Short? || v.Str? ==>
      RemoteLog([v], sticky, encoder) == [Transmission(ParseToSend(v).data, ClassOf(v), sticky)]
    ensures v.NoSubscriber? || v.Null? || v.Obj? || v.WearConnection? ==> RemoteLog([v], sticky, encoder) == []
  {
  }

  /** The class of the events the bus raises for a failed handler (not otherwise modelled). */
  const SUBSCRIBER_EXCEPTION_CLASS: ClassName := "pl.tajchert.buswear.SubscriberExceptionEvent"

  /**
   * The three drain loops: `postLocal`, `post`, and `postRemote` with its
   * sticky flag; the two that transmit name the `parseToSend` they call.
   */
  datatype DrainMode = LocalOnly | LocalAndRemote(encoder: Encoder) | RemoteOnly(sticky: bool, encoder: Encoder)

  /** What `postSingleEvent` does with one event: the effects, how it ends, and the NoSubscriberEvent it queues, if any. */
  datatype Handling = Handling(effects: seq<Effect>, outcome: Outcome, queued: seq<Value>)

  /** One event taken off the queue by a drain: local effects, transmissions, how it ends, what it queued. */
  datatype Turn = Turn(effects: seq<Effect>, sent: seq<Transmission>, outcome: Outcome, queued: seq<Value>)

  /**
   * What a drain does: the effects and transmissions, how it ends, the
   * events it took off the queue in order, and the queue it leaves.
   */
  datatype DrainResult = DrainResult(effects: seq<Effect>, sent: seq<Transmission>, outcome: Outcome,
                                     taken: seq<Value>, left: seq<Value>)

  /**
   * `addInterfaces(types, interfaces)`: appends each interface not yet
   * listed and, right after it, its own interfaces, depth first. `bound` is
   * a level above every interface given.
   */
  method AddInterfaces(h: Hierarchy, types: seq<ClassName>, interfaces: seq<ClassName>, ghost bound: nat)
    returns (r: seq<ClassName>)
    requires WellFormed(h)
    requires forall i | i in interfaces :: IsInterface(h, i) && Level(h, i) < bound
    ensures r == AddInterfacesList(h, types, interfaces, bound)
    decreases bound, 0
  {
    r := types;
    var k := 0;
    while k < |interfaces|
      invariant 0 <= k <= |interfaces|
      invariant AddInterfacesList(h, r, interfaces[k..], bound) == AddInterfacesList(h, types, interfaces, bound)
    {
      var interfaceClass := interfaces[k];
      assert interfaces[k..][0] == interfaceClass && interfaces[k..][1..] == interfaces[k + 1..];
      if interfaceClass !in r {
        r := r + [interfaceClass];
        r := AddInterfaces(h, r, Interfaces(h, interfaceClass), Level(h, interfaceClass));
      }
      k := k + 1;
    }
  }

  /** `after` is `before` with `s` inserted at `k`, the first index whose entry has a lower priority than `s`. */
  ghost predicate InsertedAt(before: seq<Subscription>, after: seq<Subscription>, k: nat, s: Subscription) {
    && k <= |before|
    && after == before[..k] + [s] + before[k..]
    && (forall j | 0 <= j < k :: before[j].priority >= s.priority)
    && (k < |before| ==> before[k].priority < s.priority)
  }

  /** Effect `f` hands event `e` to a subscription of subscriber `x` for handler method `m`, now or through a poster. */
  predicate Delivers(f: Effect, x: Subscriber, m: SubscriberMethod, e: Value) {
    var s := if f.Invoked? then f.subscription else f.post.subscription;
    var v := if f.Invoked? then f.event else f.post.event;
    s.subscriber == x && s.subscriberMethod == m && v == e
  }

  /** Some entry of the log hands `e` to `x`'s handler method `m`. */
  ghost predicate Reached(log: seq<Effect>, x: Subscriber, m: SubscriberMethod, e: Value) {
    exists i | 0 <= i < |log| :: Delivers(log[i], x, m, e)
  }

  /** A delivery stays in a log that only grows. */
  lemma ReachedGrows(log: seq<Effect>, log': seq<Effect>, x: Subscriber, m: SubscriberMethod, e: Value)
    requires log <= log' && Reached(log, x, m, e)
    ensures Reached(log', x, m, e)
  {
    var i :| 0 <= i < |log| && Delivers(log[i], x, m, e);
    assert log'[i] == log[i];
  }

  /** Every method in `ms` whose type has a cached sticky event has had that event delivered to `x` in `log`. */
  ghost predicate AllReached(log: seq<Effect>, x: Subscriber, ms: seq<SubscriberMethod>, cache: map<ClassName, Value>) {
    forall m | m in ms && m.eventType in cache :: Reached(log, x, m, cache[m.eventType])
  }

  /** One more subscribed method: earlier deliveries stay in the grown log, and the new one is added. */
  lemma AllReachedStep(log: seq<Effect>, log': seq<Effect>, x: Subscriber, ms: seq<SubscriberMethod>,
                       m: SubscriberMethod, cache: map<ClassName, Value>)
    requires log <= log' && AllReached(log, x, ms, cache)
    requires m.eventType in cache ==> Reached(log', x, m, cache[m.eventType])
    ensures AllReached(log', x, ms + [m], cache)
  {
    forall m' | m' in ms + [m] && m'.eventType in cache
      ensures Reached(log', x, m', cache[m'.eventType])
    {
      if m' != m {
        ReachedGrows(log, log', x, m', cache[m'.eventType]);
      }
    }
  }

  /** cancelEventDelivery(target) cancels in this posting state: the thread posts `target` to a PostThread subscription. */
  predicate CancelAccepted(isPosting: bool, currentEvent: Value, currentSubscription: Option<Subscription>, target: Value) {
    isPosting && target != Null && currentEvent == target
    && currentSubscription.Some? && currentSubscription.value.subscriberMethod.threadMode == PostThread
  }

  function TypesOf(bySubscriber: map<Subscriber, seq<ClassName>>, x: Subscriber): seq<ClassName> {
    if x in bySubscriber then bySubscriber[x] else []
  }

  /**
   * The registry's invariant: the class list has no repeats, every list is
   * sorted by priority, and every listed subscription sits in the list of
   * its own event type, which is recorded for its subscriber.
   */
  ghost predicate RegistryOk(classList: seq<ClassName>, byType: map<ClassName, seq<Subscription>>,
                             bySubscriber: map<Subscriber, seq<ClassName>>) {
    && NoDup(classList)
    && (forall t | t in byType :: Sorted(byType[t]))
    && (forall t, s | t in byType && s in byType[t] ::
          && s.subscriberMethod.eventType == t
          && s.subscriber in bySubscriber
          && t in bySubscriber[s.subscriber])
  }

  lemma RecordTypeKeepsRegistry(classList: seq<ClassName>, byType: map<ClassName, seq<Subscription>>,
                                bySubscriber: map<Subscriber, seq<ClassName>>, t: ClassName)
    requires RegistryOk(classList, byType, bySubscriber)
    ensures RegistryOk(classList + (if t in classList then [] else [t]), byType, bySubscriber)
  {
    var cl := classList + (if t in classList then [] else [t]);
    forall i, j | 0 <= i < j < |cl| ensures cl[i] != cl[j] {
      if j == |classList| {
        assert cl[i] in classList;
      }
    }
  }

  /** Inserting a subscription into its type's list and recording the type for its subscriber keeps the invariant. */
  lemma InsertKeepsRegistry(classList: seq<ClassName>, byType: map<ClassName, seq<Subscription>>,
                            bySubscriber: map<Subscriber, seq<ClassName>>, t: ClassName, k: nat, ns: Subscription)
    requires RegistryOk(classList, byType, bySubscriber)
    requires ns.subscriberMethod.eventType == t
    requires k <= |Listed(byType, t)|
    requires forall j | 0 <= j < k :: Listed(byType, t)[j].priority >= ns.priority
    requires k < |Listed(byType, t)| ==> Listed(byType, t)[k].priority < ns.priority
    ensures var before := Listed(byType, t);
      RegistryOk(classList, byType[t := before[..k] + [ns] + before[k..]],
                 bySubscriber[ns.subscriber := TypesOf(bySubscriber, ns.subscriber) + [t]])
  {
    var before := Listed(byType, t);
    var byType' := byType[t := before[..k] + [ns] + before[k..]];
    InsertKeepsSorted(before, k, ns);
    forall u | u in byType' ensures Sorted(byType'[u]) {
    }
    InsertKeepsIndex(byType, bySubscriber, t, k, ns);
  }

  /** After the insertion every listed subscription still sits in its own type's list, recorded for its subscriber. */
  lemma InsertKeepsIndex(byType: map<ClassName, seq<Subscription>>, bySubscriber: map<Subscriber, seq<ClassName>>,
                         t: ClassName, k: nat, ns: Subscription)
    requires forall u, s | u in byType && s in byType[u] ::
      s.subscriberMethod.eventType == u && s.subscriber in bySubscriber && u in bySubscriber[s.subscriber]
    requires ns.subscriberMethod.eventType == t
    requires k <= |Listed(byType, t)|
    ensures var before := Listed(byType, t);
      var byType' := byType[t := before[..k] + [ns] + before[k..]];
      var bySubscriber' := bySubscriber[ns.subscriber := TypesOf(bySubscriber, ns.subscriber) + [t]];
      forall u, s | u in byType' && s in byType'[u] ::
        s.subscriberMethod.eventType == u && s.subscriber in bySubscriber' && u in bySubscriber'[s.subscriber]
  {
    var before := Listed(byType, t);
    var byType' := byType[t := before[..k] + [ns] + before[k..]];
    var bySubscriber' := bySubscriber[ns.subscriber := TypesOf(bySubscriber, ns.subscriber) + [t]];
    forall u: ClassName, s: Subscription | u in byType' && s in byType'[u]
      ensures s.subscriberMethod.eventType == u && s.subscriber in bySubscriber' && u in bySubscriber'[s.subscriber]
    {
      if s == ns {
        assert u == t;
      } else {
        assert s in Listed(byType, u) by {
          if u == t {
            assert s in before[..k] || s in before[k..];
          }
        }
        var types := TypesOf(bySubscriber, s.subscriber);
        assert u in types;
        if s.subscriber == ns.subscriber {
          assert bySubscriber'[s.subscriber] == types + [t];
        }
      }
    }
  }

  ghost predicate Duplicate(before: seq<Subscription>, x: Subscriber, m: SubscriberMethod) {
    exists s | s in before :: s.subscriber == x && s.subscriberMethod == m
  }

  /** `x` has a subscription for handler method `m` in the list of `m`'s event type. */
  ghost predicate Holds(byType: map<ClassName, seq<Subscription>>, x: Subscriber, m: SubscriberMethod) {
    Duplicate(Listed(byType, m.eventType), x, m)
  }

  /** Inserting into one list keeps every subscription that was listed and adds the inserted one. */
  lemma InsertionKeepsListed(before: map<ClassName, seq<Subscription>>, after: map<ClassName, seq<Subscription>>,
                             t: ClassName, k: nat, ns: Subscription, x: Subscriber)
    requires t in after && after == before[t := after[t]]
    requires InsertedAt(Listed(before, t), after[t], k, ns)
    requires ns.subscriberMethod.eventType == t
    ensures forall m: SubscriberMethod | Holds(before, x, m) :: Holds(after, x, m)
    ensures ns.subscriber == x ==> Holds(after, x, ns.subscriberMethod)
  {
    var list := Listed(before, t);
    assert after[t][k] == ns;
    forall m: SubscriberMethod | Holds(before, x, m) ensures Holds(after, x, m) {
      if m.eventType == t {
        var s :| s in list && s.subscriber == x && s.subscriberMethod == m;
        var i :| 0 <= i < |list| && list[i] == s;
        if i < k {
          assert after[t][i] == s;
        } else {
          assert after[t][i + 1] == s;
        }
      }
    }
  }

  /**
   * Between two registries only subscriber `x`'s registrations differ: every
   * list holds the same entries of other subscribers in the same order, and
   * every other subscriber has the same recorded types.
   */
  ghost predicate OthersKept(before: map<ClassName, seq<Subscription>>, after: map<ClassName, seq<Subscription>>,
                             typesBefore: map<Subscriber, seq<ClassName>>, typesAfter: map<Subscriber, seq<ClassName>>,
                             x: Subscriber) {
    && (forall t :: Without(Listed(after, t), x) == Without(Listed(before, t), x))
    && (forall y | y != x :: TypesOf(typesAfter, y) == TypesOf(typesBefore, y))
  }

  /** Inserting an entry of `x` into one list changes no list as seen without `x`. */
  lemma InsertionKeepsOthers(before: map<ClassName, seq<Subscription>>, after: map<ClassName, seq<Subscription>>,
                             t: ClassName, k: nat, ns: Subscription, x: Subscriber)
    requires t in after && after == before[t := after[t]]
    requires InsertedAt(Listed(before, t), after[t], k, ns)
    requires ns.subscriber == x
    ensures forall t' :: Without(Listed(after, t'), x) == Without(Listed(before, t'), x)
  {
    WithoutInsert(Listed(before, t), k, ns, x);
    forall t' ensures Without(Listed(after, t'), x) == Without(Listed(before, t'), x) {
      if t' != t {
        assert Listed(after, t') == Listed(before, t');
      }
    }
  }

  /** Two steps that each keep the others' registrations keep them together. */
  lemma OthersKeptTrans(a: map<ClassName, seq<Subscription>>, b: map<ClassName, seq<Subscription>>,
                        c: map<ClassName, seq<Subscription>>, ta: map<Subscriber, seq<ClassName>>,
                        tb: map<Subscriber, seq<ClassName>>, tc: map<Subscriber, seq<ClassName>>, x: Subscriber)
    requires OthersKept(a, b, ta, tb, x) && OthersKept(b, c, tb, tc, x)
    ensures OthersKept(a, c, ta, tc, x)
  {
  }

  /**
   * Unregistering keeps the registry's invariant: the subscriber's entries
   * sit only in the lists of its recorded types, so clearing those lists of
   * it clears every list of it.
   */
  lemma UnregisterKeepsRegistry(classList: seq<ClassName>, byType: map<ClassName, seq<Subscription>>,
                                byType': map<ClassName, seq<Subscription>>,
                                bySubscriber: map<Subscriber, seq<ClassName>>, x: Subscriber)
    requires RegistryOk(classList, byType, bySubscriber)
    requires byType'.Keys == byType.Keys
    requires forall t | t in byType' :: byType'[t] == if t in TypesOf(bySubscriber, x) then Without(byType[t], x) else byType[t]
    ensures forall t | t in byType' :: byType'[t] == Without(byType[t], x)
    ensures RegistryOk(classList, byType', bySubscriber - {x})
  {
    forall t | t in byType' ensures byType'[t] == Without(byType[t], x) {
      if t !in TypesOf(bySubscriber, x) {
        WithoutIdentity(byType[t], x);
      }
    }
    forall t | t in byType' ensures Sorted(byType'[t]) {
      WithoutKeepsSorted(byType[t], x);
    }
  }

  /** One more type of the subscriber's list unsubscribed: the lists stand as if the first `j + 1` types were done. */
  lemma UnsubscribeStep(orig: map<ClassName, seq<Subscription>>, before: map<ClassName, seq<Subscription>>,
                        after: map<ClassName, seq<Subscription>>, types: seq<ClassName>, j: nat, x: Subscriber)
    requires j < |types|
    requires before.Keys == orig.Keys
    requires forall t | t in before :: before[t] == if t in types[..j] then Without(orig[t], x) else orig[t]
    requires after == if types[j] in before then before[types[j] := Without(before[types[j]], x)] else before
    ensures after.Keys == orig.Keys
    ensures forall t | t in after :: after[t] == if t in types[..j + 1] then Without(orig[t], x) else orig[t]
  {
    assert types[..j + 1] == types[..j] + [types[j]];
    forall u | u in after
      ensures after[u] == if u in types[..j + 1] then Without(orig[u], x) else orig[u]
    {
      if u == types[j] {
        WithoutTwice(orig[u], x);
      }
    }
  }

  class EventBus {
    const hierarchy: Hierarchy
    const eventInheritance: bool
    const sendNoSubscriberEvent: bool
    const throwSubscriberException: bool
    const react: Handlers
    const unparcel: Unparcel

    var subscriptionsByEventType: map<ClassName, seq<Subscription>>
    var typesBySubscriber: map<Subscriber, seq<ClassName>>
    var stickyEvents: map<ClassName, Value>
    /** Every event type a subscriber has been registered for; the inbound side resolves simple names with it. */
    var classList: seq<ClassName>
    var eventTypesCache: map<ClassName, seq<ClassName>>

    // The posting thread's state.
    var eventQueue: seq<Value>
    var isPosting: bool
    var isMainThread: bool
    var currentEvent: Value
    var currentSubscription: Option<Subscription>
    var canceled: bool

    /** Every handler run and every hand-off to a poster, in order. */
    var effects: seq<Effect>
    /** Every transmission started. */
    var sent: seq<Transmission>

    /** The registry's invariant. */
    ghost predicate RegistryValid()
      reads this
    {
      RegistryOk(classList, subscriptionsByEventType, typesBySubscriber)
    }

    /** The class graph is well formed and every cached lookup is the lookup itself. */
    ghost predicate TypesReady()
      reads this
    {
      && WellFormed(hierarchy)
      && forall c | c in eventTypesCache :: eventTypesCache[c] == EventTypes(hierarchy, c)
    }

    /** No delivery is under way: the posting state holds no current event or subscription. */
    ghost predicate PostingIdle()
      reads this
    {
      currentEvent == Null && currentSubscription.None?
    }

    /** Every cached sticky event is filed under its own class, so `getStickyEvent`'s cast never fails. */
    ghost predicate StickyOk()
      reads this
    {
      forall c | c in stickyEvents :: stickyEvents[c] != Null && ClassOf(stickyEvents[c]) == c
    }

    ghost predicate Valid()
      reads this
    {
      RegistryValid() && TypesReady() && PostingIdle() && StickyOk()
    }

    ghost function AllSubscriptions(): set<Subscription>
      reads this
    {
      set t, s | t in subscriptionsByEventType && s in subscriptionsByEventType[t] :: s
    }

    constructor (hierarchy: Hierarchy, eventInheritance: bool, sendNoSubscriberEvent: bool,
                 throwSubscriberException: bool, react: Handlers, unparcel: Unparcel)
      requires WellFormed(hierarchy)
      ensures Valid()
      ensures this.hierarchy == hierarchy && this.eventInheritance == eventInheritance
      ensures this.sendNoSubscriberEvent == sendNoSubscriberEvent
      ensures this.throwSubscriberException == throwSubscriberException
      ensures this.react == react && this.unparcel == unparcel
      ensures subscriptionsByEventType == map[] && typesBySubscriber == map[] && stickyEvents == map[]
      ensures classList == [] && eventTypesCache == map[]
      ensures eventQueue == [] && !isPosting && !isMainThread && !canceled
      ensures effects == [] && sent == []
    {
      this.hierarchy := hierarchy;
      this.eventInheritance := eventInheritance;
      this.sendNoSubscriberEvent := sendNoSubscriberEvent;
      this.throwSubscriberException := throwSubscriberException;
      this.react := react;
      this.unparcel := unparcel;
      subscriptionsByEventType := map[];
      typesBySubscriber := map[];
      stickyEvents := map[];
      classList := [];
      eventTypesCache := map[];
      eventQueue := [];
      isPosting := false;
      isMainThread := false;
      currentEvent := Null;
      currentSubscription := None;
      canceled := false;
      effects := [];
      sent := [];
    }

    // ---------------------------------------------------------------------
    // Handler invocation and cancellation

    /** Why cancelEventDelivery(target) would throw now, checked in the source's order; None if it would cancel. */
    function CancelRefusalOf(target: Value): (r: Option<CancelRefusal>)
      reads this
      ensures r.None? <==> CancelAccepted(isPosting, currentEvent, currentSubscription, target)
      ensures r == Some(NotPosting) <==> !isPosting
      ensures r == Some(NullTarget) <==> isPosting && target == Null
    {
      if !isPosting then Some(NotPosting)
      else if target == Null then Some(NullTarget)
      else if currentEvent != target then Some(NotCurrentEvent)
      else if currentSubscription.None? then Some(NoCurrentSubscription)
      else if currentSubscription.value.subscriberMethod.threadMode != PostThread then Some(NotPostThread)
      else None
    }

    /** Called by a handler: marks the current event canceled, or refuses. */
    method CancelEventDelivery(target: Value) returns (refusal: Option<CancelRefusal>)
      modifies this`canceled
      ensures refusal == old(CancelRefusalOf(target))
      ensures canceled == (old(canceled) || refusal.None?)
    {
      if !isPosting {
        return Some(NotPosting);
      } else if target == Null {
        return Some(NullTarget);
      } else if currentEvent != target {
        return Some(NotCurrentEvent);
      } else if currentSubscription.None? {
        return Some(NoCurrentSubscription);
      } else if currentSubscription.value.subscriberMethod.threadMode != PostThread {
        return Some(NotPostThread);
      }
      canceled := true;
      refusal := None;
    }

    /**
     * A handler ran: it is logged; a cancel it asked for took effect if
     * cancelEventDelivery accepted it; a throw or a refused cancel escapes
     * only when throwSubscriberException is set.
     */
    twostate predicate HandlerRan(new sub: Subscription, e: Value, outcome: Outcome)
      reads this
    {
      && effects == old(effects) + [Invoked(sub, e)]
      && var r := react(sub.subscriber, sub.subscriberMethod, e);
         var accepted := r.Cancels? && old(CancelRefusalOf(r.target)).None?;
         && canceled == (old(canceled) || accepted)
         && outcome == (if r.Returns? || accepted || !throwSubscriberException then Done else Raised(InvokingSubscriberFailed))
    }

    method InvokeSubscriber(sub: Subscription, e: Value) returns (outcome: Outcome)
      modifies this`effects, this`canceled
      ensures HandlerRan(sub, e, outcome)
    {
      effects := effects + [Invoked(sub, e)];
      match react(sub.subscriber, sub.subscriberMethod, e)
      case Returns =>
        outcome := Done;
      case Cancels(t) =>
        var refusal := CancelEventDelivery(t);
        outcome := if refusal.None? || !throwSubscriberException then Done else Raised(InvokingSubscriberFailed);
      case Throws =>
        outcome := if throwSubscriberException then Raised(InvokingSubscriberFailed) else Done;
    }

    /**
     * What postToSubscription(sub, e) does in the current posting state: the
     * handler runs now, or the delivery is queued on the poster its thread
     * mode names; a cancel the handler asks for takes effect if
     * cancelEventDelivery accepts it, and a throw or a refused cancel fails
     * only when throwSubscriberException is set.
     */
    function RouteTurn(sub: Subscription, e: Value, onMainThread: bool,
                       isPosting: bool, currentEvent: Value, currentSubscription: Option<Subscription>): (r: StepResult)
      ensures r.failed ==> throwSubscriberException
    {
      match RouteOf(sub.subscriberMethod.threadMode, onMainThread)
      case Enqueue(p) => StepResult(Enqueued(p, PendingPost(sub, e)), false, false)
      case InvokeInline =>
        var r := react(sub.subscriber, sub.subscriberMethod, e);
        var accepted := r.Cancels? && CancelAccepted(isPosting, currentEvent, currentSubscription, r.target);
        StepResult(Invoked(sub, e), accepted, throwSubscriberException && !r.Returns? && !accepted)
    }

    /** The subscription got the event as `RouteTurn` says: the effect is logged, a cancel recorded, a failure raised. */
    twostate predicate Routed(new sub: Subscription, e: Value, onMainThread: bool, outcome: Outcome)
      reads this
    {
      var d := RouteTurn(sub, e, onMainThread, old(isPosting), old(currentEvent), old(currentSubscription));
      && effects == old(effects) + [d.effect]
      && canceled == (old(canceled) || d.canceled)
      && outcome == (if d.failed then Raised(InvokingSubscriberFailed) else Done)
    }

    /** The switch on the handler's thread mode: run now, or queue on a poster. */
    method PostToSubscription(sub: Subscription, e: Value, onMainThread: bool) returns (outcome: Outcome)
      modifies this`effects, this`canceled
      ensures Routed(sub, e, onMainThread, outcome)
    {
      match sub.subscriberMethod.threadMode
      case PostThread =>
        outcome := InvokeSubscriber(sub, e);
      case MainThread =>
        if onMainThread {
          outcome := InvokeSubscriber(sub, e);
        } else {
          effects := effects + [Enqueued(MainThreadPoster, PendingPost(sub, e))];
          outcome := Done;
        }
      case BackgroundThread =>
        if onMainThread {
          effects := effects + [Enqueued(BackgroundPoster, PendingPost(sub, e))];
          outcome := Done;
        } else {
          outcome := InvokeSubscriber(sub, e);
        }
      case Async =>
        effects := effects + [Enqueued(AsyncPoster, PendingPost(sub, e))];
        outcome := Done;
    }

    /**
     * A poster runs a queued delivery on its own thread, which is not
     * posting; a subscription unregistered since it was queued is skipped.
     */
    method InvokePendingPost(p: PendingPost) returns (outcome: Outcome)
      requires !isPosting
      modifies this`effects, this`canceled
      ensures !p.subscription.active ==> effects == old(effects) && canceled == old(canceled) && outcome == Done
      ensures p.subscription.active ==> HandlerRan(p.subscription, p.event, outcome)
      ensures p.subscription.active ==> canceled == old(canceled)
    {
      if p.subscription.active {
        outcome := InvokeSubscriber(p.subscription, p.event);
      } else {
        outcome := Done;
      }
    }

    // ---------------------------------------------------------------------
    // Subscription registry

    /**
     * The subscription of `x` for `m` was inserted at index `k` of the list
     * for `m`'s type, behind every entry of equal or higher priority; with
     * `sticky`, the cached event of that type, if any, was routed to it.
     */
    twostate predicate SubscribedAt(k: nat, x: Subscriber, m: SubscriberMethod, priority: int, sticky: bool,
                                    onMainThread: bool, outcome: Outcome)
      reads this, set s | s in Listed(subscriptionsByEventType, m.eventType)
    {
      var t := m.eventType;
      var before := old(Listed(subscriptionsByEventType, t));
      && t in subscriptionsByEventType
      && k < |subscriptionsByEventType[t]|
      && var ns := subscriptionsByEventType[t][k];
         && InsertedAt(before, subscriptionsByEventType[t], k, ns)
         && fresh(ns) && ns.subscriber == x && ns.subscriberMethod == m
         && ns.priority == priority && ns.active
         && StickyDelivered(ns, sticky, onMainThread, outcome)
    }

    /** With `sticky`, the cached event of the subscription's type, if any, was routed to it; otherwise nothing ran. */
    twostate predicate StickyDelivered(new ns: Subscription, sticky: bool, onMainThread: bool, outcome: Outcome)
      reads this
    {
      var t := ns.subscriberMethod.eventType;
      if sticky && t in old(stickyEvents) then Routed(ns, old(stickyEvents)[t], onMainThread, outcome)
      else effects == old(effects) && canceled == old(canceled) && outcome == Done
    }

    /** The tail of `subscribe`: a sticky handler method gets the cached event of its type at once. */
    method DeliverSticky(ns: Subscription, sticky: bool, onMainThread: bool) returns (outcome: Outcome)
      modifies this`effects, this`canceled
      ensures StickyDelivered(ns, sticky, onMainThread, outcome)
      ensures old(effects) <= effects
      ensures !sticky ==> effects == old(effects) && canceled == old(canceled)
      ensures sticky && ns.subscriberMethod.eventType in stickyEvents ==>
        Reached(effects, ns.subscriber, ns.subscriberMethod, stickyEvents[ns.subscriberMethod.eventType])
    {
      var t := ns.subscriberMethod.eventType;
      if sticky && t in stickyEvents {
        ghost var log := effects;
        outcome := PostToSubscription(ns, stickyEvents[t], onMainThread);
        assert Delivers(effects[|log|], ns.subscriber, ns.subscriberMethod, stickyEvents[t]);
      } else {
        outcome := Done;
      }
    }

    /**
     * Registers one handler method of a subscriber. An equal subscription
     * already listed for the type raises; otherwise the new subscription
     * goes in after every entry of equal or higher priority, the type is
     * recorded for the subscriber, and with `sticky` the cached event of
     * that type, if any, is delivered to it at once.
     */
    method Subscribe(subscriber: Subscriber, m: SubscriberMethod, sticky: bool, priority: int, onMainThread: bool)
      returns (outcome: Outcome, ghost at: nat)
      requires RegistryValid()
      modifies this`classList, this`subscriptionsByEventType, this`typesBySubscriber, this`effects, this`canceled
      ensures RegistryValid()
      ensures classList == old(classList) + (if m.eventType in old(classList) then [] else [m.eventType])
      ensures Duplicate(old(Listed(subscriptionsByEventType, m.eventType)), subscriber, m) ==>
        && outcome == Raised(AlreadyRegistered)
        && subscriptionsByEventType == old(subscriptionsByEventType)
        && typesBySubscriber == old(typesBySubscriber)
        && effects == old(effects) && canceled == old(canceled)
      ensures !Duplicate(old(Listed(subscriptionsByEventType, m.eventType)), subscriber, m) ==>
        var t := m.eventType;
        && t in subscriptionsByEventType
        && subscriptionsByEventType == old(subscriptionsByEventType)[t := subscriptionsByEventType[t]]
        && typesBySubscriber == old(typesBySubscriber)[subscriber := TypesOf(old(typesBySubscriber), subscriber) + [t]]
        && SubscribedAt(at, subscriber, m, priority, sticky, onMainThread, outcome)
      ensures forall m': SubscriberMethod | old(HasSubscription(subscriber, m')) :: HasSubscription(subscriber, m')
      ensures outcome == Done ==> HasSubscription(subscriber, m) && subscriber in typesBySubscriber
      ensures OthersKept(old(subscriptionsByEventType), subscriptionsByEventType,
                         old(typesBySubscriber), typesBySubscriber, subscriber)
      ensures old(effects) <= effects
      ensures !sticky ==> effects == old(effects) && canceled == old(canceled)
      ensures outcome == Done && sticky && m.eventType in stickyEvents ==>
        Reached(effects, subscriber, m, stickyEvents[m.eventType])
    {
      var newSubscription, dup;
      newSubscription, dup, at := AddSubscription(subscriber, m, priority);
      if dup {
        return Raised(AlreadyRegistered), 0;
      }
      assert effects == old(effects) && canceled == old(canceled) && stickyEvents == old(stickyEvents);
      assert isPosting == old(isPosting) && currentEvent == old(currentEvent) && currentSubscription == old(currentSubscription);
      ghost var byType, types := subscriptionsByEventType, typesBySubscriber;
      outcome := DeliverSticky(newSubscription, sticky, onMainThread);
      assert subscriptionsByEventType == byType && typesBySubscriber == types;
      assert StickyDelivered(newSubscription, sticky, onMainThread, outcome);
      assert subscriptionsByEventType[m.eventType][at] == newSubscription;
      assert SubscribedAt(at, subscriber, m, priority, sticky, onMainThread, outcome);
    }

    /**
     * The registry half of `subscribe`: records the event type, refuses an
     * equal subscription already listed for it, and otherwise inserts a new
     * one by priority and records the type for the subscriber.
     */
    method AddSubscription(subscriber: Subscriber, m: SubscriberMethod, priority: int)
      returns (ns: Subscription, dup: bool, ghost at: nat)
      requires RegistryValid()
      modifies this`classList, this`subscriptionsByEventType, this`typesBySubscriber
      ensures RegistryValid()
      ensures classList == old(classList) + (if m.eventType in old(classList) then [] else [m.eventType])
      ensures fresh(ns) && ns.subscriber == subscriber && ns.subscriberMethod == m && ns.priority == priority && ns.active
      ensures dup <==> Duplicate(old(Listed(subscriptionsByEventType, m.eventType)), subscriber, m)
      ensures dup ==> subscriptionsByEventType == old(subscriptionsByEventType) && typesBySubscriber == old(typesBySubscriber)
      ensures !dup ==>
        var t := m.eventType;
        && t in subscriptionsByEventType
        && subscriptionsByEventType == old(subscriptionsByEventType)[t := subscriptionsByEventType[t]]
        && typesBySubscriber == old(typesBySubscriber)[subscriber := TypesOf(old(typesBySubscriber), subscriber) + [t]]
        && at < |subscriptionsByEventType[t]| && subscriptionsByEventType[t][at] == ns
        && InsertedAt(old(Listed(subscriptionsByEventType, t)), subscriptionsByEventType[t], at, ns)
      ensures forall m': SubscriberMethod | old(HasSubscription(subscriber, m')) :: HasSubscription(subscriber, m')
      ensures !dup ==> HasSubscription(subscriber, m) && subscriber in typesBySubscriber
      ensures OthersKept(old(subscriptionsByEventType), subscriptionsByEventType,
                         old(typesBySubscriber), typesBySubscriber, subscriber)
    {
      var t := m.eventType;
      RecordTypeKeepsRegistry(classList, subscriptionsByEventType, typesBySubscriber, t);
      if t !in classList {
        classList := classList + [t];
      }
      ns := new Subscription(subscriber, m, priority);
      if t in subscriptionsByEventType {
        var subscriptions := subscriptionsByEventType[t];
        if exists s | s in subscriptions :: SameSubscription(s, ns) {
          assert Duplicate(subscriptions, subscriber, m);
          return ns, true, 0;
        }
      }
      dup := false;
      at := InsertSubscription(ns);
      InsertionKeepsListed(old(subscriptionsByEventType), subscriptionsByEventType, t, at, ns, subscriber);
      assert subscriptionsByEventType[t][at] == ns;
    }

    /**
     * Puts `ns` into the list for its event type (creating the list if
     * needed) behind every entry of equal or higher priority, and records
     * the type for its subscriber.
     */
    method InsertSubscription(ns: Subscription) returns (k: nat)
      requires RegistryValid()
      modifies this`subscriptionsByEventType, this`typesBySubscriber
      ensures RegistryValid()
      ensures var t := ns.subscriberMethod.eventType;
        && t in subscriptionsByEventType
        && InsertedAt(old(Listed(subscriptionsByEventType, t)), subscriptionsByEventType[t], k, ns)
        && subscriptionsByEventType == old(subscriptionsByEventType)[t := subscriptionsByEventType[t]]
        && typesBySubscriber == old(typesBySubscriber)[ns.subscriber := TypesOf(old(typesBySubscriber), ns.subscriber) + [t]]
      ensures OthersKept(old(subscriptionsByEventType), subscriptionsByEventType,
                         old(typesBySubscriber), typesBySubscriber, ns.subscriber)
    {
      var t := ns.subscriberMethod.eventType;
      var subscriptions := Listed(subscriptionsByEventType, t);
      var size := |subscriptions|;
      k := 0;
      while k < size && ns.priority <= subscriptions[k].priority
        invariant 0 <= k <= size == |subscriptions|
        invariant forall j | 0 <= j < k :: subscriptions[j].priority >= ns.priority
      {
        k := k + 1;
      }
      InsertKeepsRegistry(classList, subscriptionsByEventType, typesBySubscriber, t, k, ns);
      subscriptionsByEventType := subscriptionsByEventType[t := subscriptions[..k] + [ns] + subscriptions[k..]];
      typesBySubscriber := typesBySubscriber[ns.subscriber := TypesOf(typesBySubscriber, ns.subscriber) + [t]];
      InsertionKeepsOthers(old(subscriptionsByEventType), subscriptionsByEventType, t, k, ns, ns.subscriber);
    }

    /** The event types recorded for a subscriber, empty when it has none. */
    function SubscribedTypes(x: Subscriber): seq<ClassName>
      reads this
    {
      TypesOf(typesBySubscriber, x)
    }

    /** `x` has a subscription for handler method `m` in the list of `m`'s event type. */
    ghost predicate HasSubscription(x: Subscriber, m: SubscriberMethod)
      reads this
    {
      Holds(subscriptionsByEventType, x, m)
    }

    /**
     * One pass of register's loop: `subscribe` for one handler method, as far
     * as register relies on it (the registry stays valid, the subscriber
     * keeps what it had and, unless an exception escapes, gains `m`).
     */
    method SubscribeNext(subscriber: Subscriber, m: SubscriberMethod, sticky: bool, priority: int, onMainThread: bool)
      returns (outcome: Outcome)
      requires RegistryValid()
      modifies this`classList, this`subscriptionsByEventType, this`typesBySubscriber, this`effects, this`canceled
      ensures RegistryValid()
      ensures outcome == Done ==> HasSubscription(subscriber, m) && subscriber in typesBySubscriber
      ensures forall m': SubscriberMethod | old(HasSubscription(subscriber, m')) :: HasSubscription(subscriber, m')
      ensures OthersKept(old(subscriptionsByEventType), subscriptionsByEventType,
                         old(typesBySubscriber), typesBySubscriber, subscriber)
      ensures old(classList) <= classList
      ensures forall c | c in classList :: c in old(classList) || c == m.eventType
      ensures old(effects) <= effects
      ensures !sticky ==> effects == old(effects) && canceled == old(canceled)
      ensures outcome == Done && sticky && m.eventType in stickyEvents ==>
        Reached(effects, subscriber, m, stickyEvents[m.eventType])
    {
      ghost var at;
      outcome, at := Subscribe(subscriber, m, sticky, priority, onMainThread);
    }

    /**
     * Subscribes every handler method found on the subscriber, stopping at
     * the first exception; when none is raised, each of them is listed.
     */
    method Register(subscriber: Subscriber, methods: seq<SubscriberMethod>, sticky: bool, priority: int, onMainThread: bool)
      returns (outcome: Outcome)
      requires RegistryValid()
      modifies this`classList, this`subscriptionsByEventType, this`typesBySubscriber, this`effects, this`canceled
      ensures RegistryValid()
      ensures outcome == Done ==> forall m | m in methods :: HasSubscription(subscriber, m)
      ensures outcome == Done && methods != [] ==> subscriber in typesBySubscriber
      ensures forall m: SubscriberMethod | old(HasSubscription(subscriber, m)) :: HasSubscription(subscriber, m)
      ensures OthersKept(old(subscriptionsByEventType), subscriptionsByEventType,
                         old(typesBySubscriber), typesBySubscriber, subscriber)
      ensures old(classList) <= classList
      ensures forall c | c in classList && c !in old(classList) :: exists m | m in methods :: m.eventType == c
      ensures old(effects) <= effects
      ensures !sticky ==> effects == old(effects) && canceled == old(canceled)
      ensures outcome == Done && sticky ==> AllReached(effects, subscriber, methods, stickyEvents)
    {
      outcome := Done;
      var k := 0;
      while k < |methods|
        invariant 0 <= k <= |methods|
        invariant RegistryValid()
        invariant forall m | m in methods[..k] :: HasSubscription(subscriber, m)
        invariant k > 0 ==> subscriber in typesBySubscriber
        invariant forall m: SubscriberMethod | old(HasSubscription(subscriber, m)) :: HasSubscription(subscriber, m)
        invariant OthersKept(old(subscriptionsByEventType), subscriptionsByEventType,
                             old(typesBySubscriber), typesBySubscriber, subscriber)
        invariant old(classList) <= classList
        invariant forall c | c in classList && c !in old(classList) :: exists m | m in methods[..k] :: m.eventType == c
        invariant old(effects) <= effects
        invariant !sticky ==> effects == old(effects) && canceled == old(canceled)
        invariant sticky ==> AllReached(effects, subscriber, methods[..k], stickyEvents)
      {
        ghost var byType, types, log := subscriptionsByEventType, typesBySubscriber, effects;
        var m := methods[k];
        outcome := SubscribeNext(subscriber, m, sticky, priority, onMainThread);
        OthersKeptTrans(old(subscriptionsByEventType), byType, subscriptionsByEventType,
                        old(typesBySubscriber), types, typesBySubscriber, subscriber);
        if outcome.Raised? {
          return;
        }
        assert methods[..k + 1] == methods[..k] + [m];
        if sticky {
          AllReachedStep(log, effects, subscriber, methods[..k], m, stickyEvents);
        }
        k := k + 1;
      }
    }

    /** `isRegistered`: the subscriber has recorded event types; one that has none has no subscription anywhere. */
    method IsRegistered(x: Subscriber) returns (b: bool)
      requires RegistryValid()
      ensures b <==> x in typesBySubscriber
      ensures !b ==> forall t, s | t in subscriptionsByEventType && s in subscriptionsByEventType[t] :: s.subscriber != x
    {
      b := x in typesBySubscriber;
    }

    /**
     * Takes every subscription of `x` out of the list for `t`, in place,
     * keeping the order of the others, and marks each removed one inactive.
     */
    method UnsubscribeByEventType(x: Subscriber, t: ClassName)
      modifies this`subscriptionsByEventType, set s | s in Listed(subscriptionsByEventType, t)
      ensures subscriptionsByEventType ==
        if t in old(subscriptionsByEventType)
        then old(subscriptionsByEventType)[t := Without(old(subscriptionsByEventType)[t], x)]
        else old(subscriptionsByEventType)
      ensures forall s | s in old(Listed(subscriptionsByEventType, t)) :: s.active == (old(s.active) && s.subscriber != x)
    {
      if t in subscriptionsByEventType {
        var subscriptions := subscriptionsByEventType[t];
        ghost var orig := subscriptions;
        var size := |subscriptions|;
        var i := 0;
        ghost var k := 0;
        while i < size
          invariant 0 <= i <= size == |subscriptions|
          invariant 0 <= k <= |orig|
          invariant subscriptions[..i] == Without(orig[..k], x)
          invariant subscriptions[i..] == orig[k..]
          invariant subscriptionsByEventType == old(subscriptionsByEventType)
          invariant forall s | s in orig :: s.active == (old(s.active) && !(s.subscriber == x && s in orig[..k]))
          decreases size - i
        {
          RemovalStep(orig, subscriptions, i, k, x);
          assert orig[..k + 1] == orig[..k] + [orig[k]];
          var subscription := subscriptions[i];
          if subscription.subscriber == x {
            subscription.active := false;
            subscriptions := subscriptions[..i] + subscriptions[i + 1..];
            i := i - 1;
            size := size - 1;
          }
          i := i + 1;
          k := k + 1;
        }
        assert subscriptions[..i] == subscriptions;
        subscriptionsByEventType := subscriptionsByEventType[t := subscriptions];
        assert orig[..k] == orig;
      }
    }

    /**
     * Removes every subscription of `x` from the lists of its recorded types,
     * marks them inactive and forgets `x`; for an unknown subscriber nothing
     * changes.
     */
    method Unregister(x: Subscriber)
      requires RegistryValid()
      modifies this`subscriptionsByEventType, this`typesBySubscriber, AllSubscriptions()
      ensures RegistryValid()
      ensures subscriptionsByEventType.Keys == old(subscriptionsByEventType).Keys
      ensures forall t | t in subscriptionsByEventType :: subscriptionsByEventType[t] == Without(old(subscriptionsByEventType)[t], x)
      ensures typesBySubscriber == old(typesBySubscriber) - {x}
      ensures forall s | s in old(AllSubscriptions()) :: s.active == (old(s.active) && s.subscriber != x)
      ensures x !in old(typesBySubscriber) ==> subscriptionsByEventType == old(subscriptionsByEventType)
    {
      if x in typesBySubscriber {
        var subscribedTypes := typesBySubscriber[x];
        UnsubscribeTypes(x, subscribedTypes);
        typesBySubscriber := typesBySubscriber - {x};
      }
      UnregisterKeepsRegistry(classList, old(subscriptionsByEventType), subscriptionsByEventType, old(typesBySubscriber), x);
    }

    /**
     * Where unregister's loop stands after the first `j` types: their lists
     * are free of `x`, the others are as they were (`orig`), every entry of
     * `x` in a done type is inactive, and other subscribers keep the flags
     * recorded in `flags`.
     */
    ghost predicate UnsubscribedUpTo(x: Subscriber, types: seq<ClassName>, j: nat,
                                     orig: map<ClassName, seq<Subscription>>, flags: map<Subscription, bool>)
      requires j <= |types|
      reads this, flags.Keys
    {
      && subscriptionsByEventType.Keys == orig.Keys
      && (forall t | t in subscriptionsByEventType ::
            subscriptionsByEventType[t] == if t in types[..j] then Without(orig[t], x) else orig[t])
      && (forall s | s in flags && s.subscriber != x :: s.active == flags[s])
      && (forall t, s | t in types[..j] && t in orig && s in orig[t] && s in flags && s.subscriber == x :: !s.active)
    }

    /** One pass of unregister's loop: `x` leaves the list of `types[j]`. */
    method UnsubscribeNext(x: Subscriber, types: seq<ClassName>, j: nat,
                           ghost orig: map<ClassName, seq<Subscription>>, ghost flags: map<Subscription, bool>)
      requires j < |types|
      requires forall t, s | t in orig && s in orig[t] :: s in flags
      requires UnsubscribedUpTo(x, types, j, orig, flags)
      modifies this`subscriptionsByEventType, flags.Keys
      ensures UnsubscribedUpTo(x, types, j + 1, orig, flags)
    {
      var t := types[j];
      assert types[..j + 1] == types[..j] + [t];
      ghost var listed := Listed(subscriptionsByEventType, t);
      ghost var before := subscriptionsByEventType;
      assert forall s | s in listed :: s in flags by {
        if t in before && t !in types[..j] {
          assert listed == orig[t];
        }
      }
      UnsubscribeByEventType(x, t);
      UnsubscribeStep(orig, before, subscriptionsByEventType, types, j, x);
      forall u, s | u in types[..j + 1] && u in orig && s in orig[u] && s in flags && s.subscriber == x
        ensures !s.active
      {
        if u == t && t !in types[..j] {
          assert s in listed;
        } else {
          assert u in types[..j];
        }
      }
      forall s | s in flags && s.subscriber != x
        ensures s.active == flags[s]
      {
        if s in listed {
          assert s.active == old(s.active);
        }
      }
    }

    /** The loop of unregister: unsubscribes `x` from each listed type in turn. */
    method UnsubscribeTypes(x: Subscriber, types: seq<ClassName>)
      modifies this`subscriptionsByEventType, AllSubscriptions()
      ensures subscriptionsByEventType.Keys == old(subscriptionsByEventType).Keys
      ensures forall t | t in subscriptionsByEventType ::
        subscriptionsByEventType[t] == if t in types then Without(old(subscriptionsByEventType)[t], x)
                                       else old(subscriptionsByEventType)[t]
      ensures forall s | s in old(AllSubscriptions()) && s.subscriber != x :: s.active == old(s.active)
      ensures forall t, s | t in types && t in old(subscriptionsByEventType) && s in old(subscriptionsByEventType)[t] && s.subscriber == x ::
        !s.active
    {
      ghost var orig := subscriptionsByEventType;
      ghost var flags := map s | s in AllSubscriptions() :: s.active;
      var j := 0;
      while j < |types|
        invariant 0 <= j <= |types|
        invariant UnsubscribedUpTo(x, types, j, orig, flags)
      {
        UnsubscribeNext(x, types, j, orig, flags);
        j := j + 1;
      }
      assert types[..j] == types;
    }

    // ---------------------------------------------------------------------
    // Event-type lookup

    /** The event types an event of class `c` is delivered to: all it reaches with eventInheritance, else `c` alone. */
    ghost function TypesFor(c: ClassName): (r: seq<ClassName>)
      requires WellFormed(hierarchy)
      ensures |r| > 0 && r[0] == c
      ensures NoDup(r)
    {
      if eventInheritance then EventTypesSpec(hierarchy, c); EventTypes(hierarchy, c) else [c]
    }

    /**
     * `lookupAllEventTypes(c)`: the cached list if there is one, otherwise
     * the class, its interfaces, then each superclass with its interfaces,
     * which is then cached.
     */
    method LookupAllEventTypes(c: ClassName) returns (types: seq<ClassName>)
      requires TypesReady()
      modifies this`eventTypesCache
      ensures types == EventTypes(hierarchy, c)
      ensures eventTypesCache == old(eventTypesCache)[c := types]
      ensures TypesReady()
    {
      if c in eventTypesCache {
        types := eventTypesCache[c];
        assert eventTypesCache == eventTypesCache[c := types];
        return;
      }
      types := [];
      var clazz: Option<ClassName> := Some(c);
      while clazz.Some?
        invariant Walk(hierarchy, types, clazz) == EventTypes(hierarchy, c)
        invariant eventTypesCache == old(eventTypesCache)
        decreases if clazz.Some? then Level(hierarchy, clazz.value) + 1 else 0
      {
        var x := clazz.value;
        types := types + [x];
        types := AddInterfaces(hierarchy, types, Interfaces(hierarchy, x), Level(hierarchy, x));
        clazz := Superclass(hierarchy, x);
      }
      eventTypesCache := eventTypesCache[c := types];
    }

    // ---------------------------------------------------------------------
    // Posting

    /** A NoSubscriberEvent is posted for `e` when nobody got it: never for one, nor for a SubscriberExceptionEvent. */
    predicate WantsNotice(e: Value)
      requires e != Null
    {
      sendNoSubscriberEvent && !e.NoSubscriber? && ClassOf(e) != NO_SUBSCRIBER_CLASS && ClassOf(e) != SUBSCRIBER_EXCEPTION_CLASS
    }

    /**
     * `postSingleEvent(e)`: each of the event's types has its list delivered
     * in turn; a handler failure ends the post; when no type has a list, a
     * NoSubscriberEvent wrapping `e` is queued if wanted. A null event has no
     * class: NullPointerException.
     */
    ghost function Handle(e: Value, onMainThread: bool): (h: Handling)
      requires WellFormed(hierarchy)
      reads this`subscriptionsByEventType
      ensures h.outcome in {Done, Raised(NullEvent), Raised(InvokingSubscriberFailed)}
      ensures h.outcome == Raised(NullEvent) <==> e == Null
      ensures h.queued == [] || (h.outcome == Done && e != Null && !e.NoSubscriber? && h.queued == [NoSubscriber(e)])
    {
      if e == Null then Handling([], Raised(NullEvent), [])
      else
        var d := TypesDelivery(react, throwSubscriberException, subscriptionsByEventType, TypesFor(ClassOf(e)), e, onMainThread);
        if d.failed then Handling(d.effects, Raised(InvokingSubscriberFailed), [])
        else Handling(d.effects, Done, if !d.found && WantsNotice(e) then [NoSubscriber(e)] else [])
    }

    /**
     * One event of a drain: it is delivered locally (`post` skips a null
     * event, `postRemote` delivers nothing locally), then handed to
     * parseToSend, whose RuntimeException ends the drain; the bytes of a
     * non-null event are transmitted.
     */
    ghost function TurnOf(e: Value, onMainThread: bool, mode: DrainMode): (t: Turn)
      requires WellFormed(hierarchy)
      reads this`subscriptionsByEventType
      ensures t.queued == [] || (!e.NoSubscriber? && t.queued == [NoSubscriber(e)])
      ensures t.outcome.Raised? ==> t.sent == []
    {
      var local := if mode.RemoteOnly? || (mode.LocalAndRemote? && e == Null) then Handling([], Done, [])
                   else Handle(e, onMainThread);
      if local.outcome.Raised? then Turn(local.effects, [], local.outcome, local.queued)
      else
        var enc := if mode.LocalOnly? then NotSent else ParseToSendBy(mode.encoder, e);
        if enc.Unsupported? then Turn(local.effects, [], Raised(UnsupportedEvent), local.queued)
        else Turn(local.effects, if enc.Bytes? then [Transmission(enc.data, ClassOf(e), mode.RemoteOnly? && mode.sticky)] else [],
                  Done, local.queued)
    }

    /**
     * The drain loop of `postLocal` (LocalOnly), `post` (LocalAndRemote) and
     * `postRemote` (RemoteOnly): events come off the front of the queue, one
     * turn each, until the queue is empty or a turn raises, which leaves the
     * rest of the queue in place.
     */
    ghost function Drain(q: seq<Value>, onMainThread: bool, mode: DrainMode): (r: DrainResult)
      requires WellFormed(hierarchy)
      reads this`subscriptionsByEventType
      ensures r.outcome in {Done, Raised(NullEvent), Raised(InvokingSubscriberFailed), Raised(UnsupportedEvent)}
      ensures mode.LocalOnly? ==> r.outcome != Raised(UnsupportedEvent)
      decreases Weight(q)
    {
      if q == [] then DrainResult([], [], Done, [], [])
      else
        var t := TurnOf(q[0], onMainThread, mode);
        var next := q[1..] + t.queued;
        if t.outcome.Raised? then DrainResult(t.effects, t.sent, t.outcome, [q[0]], next)
        else
          WeightAppend(q[1..], t.queued);
          var rest := Drain(next, onMainThread, mode);
          DrainResult(t.effects + rest.effects, t.sent + rest.sent, rest.outcome, [q[0]] + rest.taken, rest.left)
    }

    /**
     * One turn of the drain, for effects and transmissions logged after
     * `effectsBefore` and `sentBefore`: the queue gets lighter, and a turn
     * that does not raise leaves a queue whose drain completes the one begun.
     */
    lemma DrainStep(q: seq<Value>, onMainThread: bool, mode: DrainMode, effectsBefore: seq<Effect>, sentBefore: seq<Transmission>)
      requires q != [] && WellFormed(hierarchy)
      ensures var t := TurnOf(q[0], onMainThread, mode);
        var next := q[1..] + t.queued;
        var r := Drain(q, onMainThread, mode);
        var r' := Drain(next, onMainThread, mode);
        && Weight(next) < Weight(q)
        && (t.outcome.Raised? ==> r == DrainResult(t.effects, t.sent, t.outcome, [q[0]], next))
        && (t.outcome.Done? ==>
              && (effectsBefore + t.effects) + r'.effects == effectsBefore + r.effects
              && (sentBefore + t.sent) + r'.sent == sentBefore + r.sent
              && r.outcome == r'.outcome && r.left == r'.left)
    {
      var t := TurnOf(q[0], onMainThread, mode);
      var r' := Drain(q[1..] + t.queued, onMainThread, mode);
      WeightAppend(q[1..], t.queued);
      AppendAssoc(effectsBefore, t.effects, r'.effects);
      AppendAssoc(sentBefore, t.sent, r'.sent);
    }

    /**
     * One turn by drain mode: `postLocal` transmits nothing; `postRemote`
     * runs no handler and queues nothing; a turn of `post` or `postRemote`
     * that does not raise transmits what the remote log lists for its event.
     */
    lemma TurnByMode(e: Value, onMainThread: bool, mode: DrainMode)
      requires WellFormed(hierarchy)
      ensures var t := TurnOf(e, onMainThread, mode);
        && (mode.LocalOnly? ==> t.sent == [])
        && (mode.RemoteOnly? ==> t.effects == [] && t.queued == [])
        && (!mode.LocalOnly? && t.outcome.Done? ==> t.sent == RemoteLog([e], mode.RemoteOnly? && mode.sticky, mode.encoder))
    {
      assert [e][1..] == [];
    }

    /** The drain of a non-empty queue, one turn unfolded. */
    lemma DrainCons(q: seq<Value>, onMainThread: bool, mode: DrainMode)
      requires q != [] && WellFormed(hierarchy)
      ensures var t := TurnOf(q[0], onMainThread, mode);
        var next := q[1..] + t.queued;
        var r := Drain(q, onMainThread, mode);
        var rest := Drain(next, onMainThread, mode);
        && Weight(next) < Weight(q)
        && (t.outcome.Raised? ==> r == DrainResult(t.effects, t.sent, t.outcome, [q[0]], next))
        && (t.outcome.Done? ==>
              r == DrainResult(t.effects + rest.effects, t.sent + rest.sent, rest.outcome, [q[0]] + rest.taken, rest.left))
    {
      var t := TurnOf(q[0], onMainThread, mode);
      WeightAppend(q[1..], t.queued);
    }

    /**
     * One turn keeps a drain first in, first out: if the drain of what the
     * turn leaves is, so is the drain of the whole queue.
     */
    lemma FifoTurn(q: seq<Value>, onMainThread: bool, mode: DrainMode)
      requires q != [] && WellFormed(hierarchy)
      requires var t := TurnOf(q[0], onMainThread, mode);
        var rest := Drain(q[1..] + t.queued, onMainThread, mode);
        t.outcome.Done? ==> FifoDrain(q[1..] + t.queued, rest.taken, rest.left)
      ensures var r := Drain(q, onMainThread, mode);
        FifoDrain(q, r.taken, r.left)
    {
      var t := TurnOf(q[0], onMainThread, mode);
      var next := q[1..] + t.queued;
      var r := Drain(q, onMainThread, mode);
      DrainCons(q, onMainThread, mode);
      if t.outcome.Raised? {
        FifoStep(q, t.queued, [], next);
      } else {
        var rest := Drain(next, onMainThread, mode);
        FifoStep(q, t.queued, rest.taken, rest.left);
        assert r.taken == [q[0]] + rest.taken && r.left == rest.left;
      }
    }

    /**
     * Draining is first in, first out: the queue's events are taken in order,
     * and anything behind them is a NoSubscriberEvent the drain queued.
     */
    lemma {:induction false} DrainFifo(q: seq<Value>, onMainThread: bool, mode: DrainMode)
      requires WellFormed(hierarchy)
      ensures var r := Drain(q, onMainThread, mode);
        FifoDrain(q, r.taken, r.left)
      decreases Weight(q)
    {
      if q != [] {
        var t := TurnOf(q[0], onMainThread, mode);
        if t.outcome.Done? {
          DrainCons(q, onMainThread, mode);
          DrainFifo(q[1..] + t.queued, onMainThread, mode);
        }
        FifoTurn(q, onMainThread, mode);
      }
    }

    /** A drain that no exception ends leaves the queue empty. */
    lemma {:induction false} DrainEmptiesQueue(q: seq<Value>, onMainThread: bool, mode: DrainMode)
      requires WellFormed(hierarchy)
      ensures var r := Drain(q, onMainThread, mode);
        r.outcome.Done? ==> r.left == []
      decreases Weight(q)
    {
      if q != [] {
        var t := TurnOf(q[0], onMainThread, mode);
        DrainCons(q, onMainThread, mode);
        if t.outcome.Done? {
          DrainEmptiesQueue(q[1..] + t.queued, onMainThread, mode);
        }
      }
    }

    /** `postLocal` transmits nothing. */
    lemma {:induction false} LocalDrainSendsNothing(q: seq<Value>, onMainThread: bool)
      requires WellFormed(hierarchy)
      ensures Drain(q, onMainThread, LocalOnly).sent == []
      decreases Weight(q)
    {
      if q != [] {
        var t := TurnOf(q[0], onMainThread, LocalOnly);
        DrainCons(q, onMainThread, LocalOnly);
        TurnByMode(q[0], onMainThread, LocalOnly);
        if t.outcome.Done? {
          LocalDrainSendsNothing(q[1..] + t.queued, onMainThread);
        }
      }
    }

    /** One turn of `postRemote` keeps the drain free of local effects and of added events. */
    lemma RemoteTurn(q: seq<Value>, onMainThread: bool, sticky: bool, encoder: Encoder)
      requires q != [] && WellFormed(hierarchy)
      requires var rest := Drain(q[1..], onMainThread, RemoteOnly(sticky, encoder));
        TurnOf(q[0], onMainThread, RemoteOnly(sticky, encoder)).outcome.Done? ==>
          rest.effects == [] && rest.taken + rest.left == q[1..]
      ensures var r := Drain(q, onMainThread, RemoteOnly(sticky, encoder));
        r.effects == [] && r.taken + r.left == q
    {
      var t := TurnOf(q[0], onMainThread, RemoteOnly(sticky, encoder));
      var r := Drain(q, onMainThread, RemoteOnly(sticky, encoder));
      DrainCons(q, onMainThread, RemoteOnly(sticky, encoder));
      TurnByMode(q[0], onMainThread, RemoteOnly(sticky, encoder));
      assert q[1..] + t.queued == q[1..];
      assert q == [q[0]] + q[1..];
      if t.outcome.Done? {
        var rest := Drain(q[1..], onMainThread, RemoteOnly(sticky, encoder));
        assert r.effects == rest.effects && r.taken == [q[0]] + rest.taken && r.left == rest.left;
        AppendAssoc([q[0]], rest.taken, rest.left);
      } else {
        assert r.effects == [] && r.taken == [q[0]] && r.left == q[1..];
      }
    }

    /** `postRemote` delivers nothing locally and queues nothing: it takes events only from the queue it was given. */
    lemma {:induction false} RemoteDrainRunsNothing(q: seq<Value>, onMainThread: bool, sticky: bool, encoder: Encoder)
      requires WellFormed(hierarchy)
      ensures var r := Drain(q, onMainThread, RemoteOnly(sticky, encoder));
        r.effects == [] && r.taken + r.left == q
      decreases Weight(q)
    {
      if q != [] {
        if TurnOf(q[0], onMainThread, RemoteOnly(sticky, encoder)).outcome.Done? {
          DrainCons(q, onMainThread, RemoteOnly(sticky, encoder));
          TurnByMode(q[0], onMainThread, RemoteOnly(sticky, encoder));
          RemoteDrainRunsNothing(q[1..], onMainThread, sticky, encoder);
        }
        RemoteTurn(q, onMainThread, sticky, encoder);
      }
    }

    /**
     * `post` and `postRemote` transmit the wire bytes of every event they
     * took, in order and under the event's class, when no exception ends
     * the drain.
     */
    lemma {:induction false} RemoteDrainTransmits(q: seq<Value>, onMainThread: bool, mode: DrainMode)
      requires WellFormed(hierarchy) && !mode.LocalOnly?
      ensures var r := Drain(q, onMainThread, mode);
        r.outcome.Done? ==> r.sent == RemoteLog(r.taken, mode.RemoteOnly? && mode.sticky, mode.encoder)
      decreases Weight(q)
    {
      if q != [] {
        var t := TurnOf(q[0], onMainThread, mode);
        var next := q[1..] + t.queued;
        DrainCons(q, onMainThread, mode);
        TurnByMode(q[0], onMainThread, mode);
        var r := Drain(q, onMainThread, mode);
        if t.outcome.Done? && r.outcome.Done? {
          var sticky := mode.RemoteOnly? && mode.sticky;
          var rest := Drain(next, onMainThread, mode);
          RemoteDrainTransmits(next, onMainThread, mode);
          RemoteLogAppend([q[0]], rest.taken, sticky, mode.encoder);
        }
      }
    }

    /**
     * `post` delivers an event locally before it encodes it: an event of a
     * type parseToSend cannot send reaches its subscribers and then ends the
     * drain, leaving the events behind it in the queue.
     */
    lemma UnsupportedAfterDelivery(e: Value, q: seq<Value>, onMainThread: bool, encoder: Encoder)
      requires WellFormed(hierarchy)
      requires e != Null && ParseToSendBy(encoder, e).Unsupported?
      requires Handle(e, onMainThread).outcome == Done
      ensures var h := Handle(e, onMainThread);
        Drain([e] + q, onMainThread, LocalAndRemote(encoder))
          == DrainResult(h.effects, [], Raised(UnsupportedEvent), [e], q + h.queued)
    {
      assert ([e] + q)[0] == e && ([e] + q)[1..] == q;
    }

    /**
     * `post` as written, for an event nobody subscribes to while the bus
     * wants the notice: the event is delivered and transmitted, its
     * NoSubscriberEvent is delivered locally, and then parseToSend throws on
     * that notice, so the RuntimeException escapes `post`.
     */
    lemma AsWrittenPostRaisesOnNotice(e: Value, onMainThread: bool)
      requires WellFormed(hierarchy) && ParseToSend(e).Bytes?
      requires Handle(e, onMainThread).queued == [NoSubscriber(e)]
      requires Handle(NoSubscriber(e), onMainThread).outcome == Done
      ensures var r := Drain([e], onMainThread, LocalAndRemote(AsWritten));
        && r.outcome == Raised(UnsupportedEvent)
        && r.effects == Handle(e, onMainThread).effects + Handle(NoSubscriber(e), onMainThread).effects
        && r.sent == [Transmission(ParseToSend(e).data, ClassOf(e), false)]
        && r.taken == [e, NoSubscriber(e)] && r.left == []
    {
      NoticeDrain(e, onMainThread, AsWritten);
    }

    /**
     * The same post with the corrected parseToSend: the notice is delivered
     * locally and not sent, and the drain completes having transmitted the
     * event alone.
     */
    lemma CorrectedPostSkipsNotice(e: Value, onMainThread: bool)
      requires WellFormed(hierarchy) && ParseToSend(e).Bytes?
      requires Handle(e, onMainThread).queued == [NoSubscriber(e)]
      requires Handle(NoSubscriber(e), onMainThread).outcome == Done
      ensures var r := Drain([e], onMainThread, LocalAndRemote(Corrected));
        && r.outcome == Done
        && r.effects == Handle(e, onMainThread).effects + Handle(NoSubscriber(e), onMainThread).effects
        && r.sent == [Transmission(ParseToSend(e).data, ClassOf(e), false)]
        && r.taken == [e, NoSubscriber(e)] && r.left == []
    {
      NoticeDrain(e, onMainThread, Corrected);
    }

    /** The drain of an unheard event and its notice, two turns unfolded. */
    lemma NoticeDrain(e: Value, onMainThread: bool, encoder: Encoder)
      requires WellFormed(hierarchy) && ParseToSend(e).Bytes?
      requires Handle(e, onMainThread).queued == [NoSubscriber(e)]
      requires Handle(NoSubscriber(e), onMainThread).outcome == Done
      ensures var h := Handle(e, onMainThread);
        var n := Handle(NoSubscriber(e), onMainThread);
        var r := Drain([e], onMainThread, LocalAndRemote(encoder));
        && r.effects == h.effects + n.effects
        && r.sent == [Transmission(ParseToSend(e).data, ClassOf(e), false)]
        && r.outcome == (if encoder == AsWritten then Raised(UnsupportedEvent) else Done)
        && r.taken == [e, NoSubscriber(e)] && r.left == []
    {
      var mode := LocalAndRemote(encoder);
      var notice := NoSubscriber(e);
      NoticeTurns(e, onMainThread, encoder);
      assert [e][1..] + [notice] == [notice];
      assert [notice][1..] + [] == [];
      DrainCons([e], onMainThread, mode);
      DrainCons([notice], onMainThread, mode);
      assert Drain([], onMainThread, mode) == DrainResult([], [], Done, [], []);
    }

    /** The two turns of that drain: the unheard event's, then its notice's. */
    lemma NoticeTurns(e: Value, onMainThread: bool, encoder: Encoder)
      requires WellFormed(hierarchy) && ParseToSend(e).Bytes?
      requires Handle(e, onMainThread).queued == [NoSubscriber(e)]
      requires Handle(NoSubscriber(e), onMainThread).outcome == Done
      ensures TurnOf(e, onMainThread, LocalAndRemote(encoder))
        == Turn(Handle(e, onMainThread).effects, [Transmission(ParseToSend(e).data, ClassOf(e), false)], Done, [NoSubscriber(e)])
      ensures TurnOf(NoSubscriber(e), onMainThread, LocalAndRemote(encoder))
        == Turn(Handle(NoSubscriber(e), onMainThread).effects, [],
                if encoder == AsWritten then Raised(UnsupportedEvent) else Done, [])
    {
      EncodersAgreeElsewhere(e);
      assert ParseToSendBy(encoder, e) == ParseToSend(e);
    }

    /**
     * The other side of the same test: as written, `post` delivers an
     * instance of greenrobot's NoSubscriberEvent and sends nothing, where the
     * corrected parseToSend rejects it like any other plain object.
     */
    lemma GreenrobotNoticeByEncoder(e: Value, onMainThread: bool)
      requires WellFormed(hierarchy)
      requires e.Obj? && e.objClass == GREENROBOT_NO_SUBSCRIBER_CLASS
      requires Handle(e, onMainThread).outcome == Done
      ensures var h := Handle(e, onMainThread);
        && TurnOf(e, onMainThread, LocalAndRemote(AsWritten)) == Turn(h.effects, [], Done, h.queued)
        && TurnOf(e, onMainThread, LocalAndRemote(Corrected)) == Turn(h.effects, [], Raised(UnsupportedEvent), h.queued)
    {
    }

    /**
     * A NoSubscriberEvent is queued for `e` exactly when no handler failed,
     * none of the types `e` is delivered to has a subscription, and the bus
     * wants the notice for it.
     */
    lemma NoticeWhenUnheard(e: Value, onMainThread: bool)
      requires WellFormed(hierarchy) && e != Null
      ensures var h := Handle(e, onMainThread);
        h.queued == [NoSubscriber(e)] <==>
          && h.outcome == Done
          && WantsNotice(e)
          && forall t | t in TypesFor(ClassOf(e)) :: Listed(subscriptionsByEventType, t) == []
    {
      TypesDeliveryFound(react, throwSubscriberException, subscriptionsByEventType, TypesFor(ClassOf(e)), e, onMainThread);
    }

    /**
     * `postSingleEventForEventType(e, t)`: the subscriptions listed for `t`
     * take their turns with `e` as the current event until one cancels or a
     * handler failure escapes; the posting state is reset after every turn.
     * Returns whether `t` had any subscription.
     */
    method PostSingleEventForEventType(e: Value, t: ClassName) returns (found: bool, outcome: Outcome)
      requires isPosting && !canceled && PostingIdle()
      modifies this`effects, this`canceled, this`currentEvent, this`currentSubscription
      ensures var d := ListDelivery(react, throwSubscriberException, Listed(subscriptionsByEventType, t), e, isMainThread);
        && effects == old(effects) + d.effects
        && outcome == (if d.failed then Raised(InvokingSubscriberFailed) else Done)
      ensures found == (Listed(subscriptionsByEventType, t) != [])
      ensures !canceled && PostingIdle()
    {
      var subscriptions := Listed(subscriptionsByEventType, t);
      found := false;
      outcome := Done;
      if subscriptions != [] {
        ghost var whole := ListDelivery(react, throwSubscriberException, subscriptions, e, isMainThread);
        var i := 0;
        while i < |subscriptions|
          invariant 0 <= i <= |subscriptions|
          invariant !canceled && PostingIdle() && outcome == Done
          invariant var rest := ListDelivery(react, throwSubscriberException, subscriptions[i..], e, isMainThread);
            old(effects) + whole.effects == effects + rest.effects && whole.failed == rest.failed
        {
          var aborted;
          aborted, outcome := TurnAt(subscriptions, i, e);
          if outcome.Raised? {
            return true, outcome;
          }
          if aborted {
            break;
          }
          i := i + 1;
        }
        found := true;
      }
    }

    /**
     * The turn of subscription `i` of the list, stated against the delivery
     * of the list from `i` on: either the turn ends the list (a failure or a
     * cancel), or what is left to deliver is the list from `i + 1` on.
     */
    method TurnAt(subs: seq<Subscription>, i: nat, e: Value) returns (aborted: bool, outcome: Outcome)
      requires i < |subs|
      requires isPosting && !canceled && PostingIdle()
      modifies this`effects, this`canceled, this`currentEvent, this`currentSubscription
      ensures var here := ListDelivery(react, throwSubscriberException, subs[i..], e, isMainThread);
        var rest := ListDelivery(react, throwSubscriberException, subs[i + 1..], e, isMainThread);
        if outcome.Raised? || aborted then
          effects == old(effects) + here.effects && here.failed == outcome.Raised?
          && outcome in {Done, Raised(InvokingSubscriberFailed)}
        else
          effects + rest.effects == old(effects) + here.effects && here.failed == rest.failed && outcome == Done
      ensures !canceled && PostingIdle()
    {
      ListDeliveryNext(react, throwSubscriberException, subs, i, e, isMainThread, effects);
      aborted, outcome := TakeTurn(subs[i], e);
    }

    /**
     * One turn of the loop of `postSingleEventForEventType`: the posting
     * state names `e` and `sub` while the subscription gets the event, and is
     * cleared afterwards, canceled flag included; the turn reports whether
     * the handler canceled.
     */
    method TakeTurn(sub: Subscription, e: Value) returns (aborted: bool, outcome: Outcome)
      requires isPosting && !canceled && PostingIdle()
      modifies this`effects, this`canceled, this`currentEvent, this`currentSubscription
      ensures var st := Step(react, throwSubscriberException, sub, e, isMainThread);
        && effects == old(effects) + [st.effect]
        && aborted == st.canceled
        && outcome == (if st.failed then Raised(InvokingSubscriberFailed) else Done)
      ensures !canceled && PostingIdle()
    {
      currentEvent := e;
      currentSubscription := Some(sub);
      outcome := PostToSubscription(sub, e, isMainThread);
      aborted := false;
      if outcome.Done? {
        aborted := canceled;
      }
      currentEvent := Null;
      currentSubscription := None;
      canceled := false;
    }

    /**
     * `postSingleEvent(e)` on the posting thread: delivers `e` to every type
     * the lookup gives (or to its class alone) and, when none had a
     * subscription, posts a NoSubscriberEvent, which only queues it since
     * the thread is posting.
     */
    method PostSingleEvent(e: Value) returns (outcome: Outcome)
      requires isPosting && !canceled && PostingIdle() && TypesReady()
      modifies this`eventQueue, this`isPosting, this`isMainThread, this`currentEvent, this`currentSubscription
      modifies this`canceled, this`effects, this`sent, this`eventTypesCache
      decreases 2
      ensures var h := old(Handle(e, isMainThread));
        && effects == old(effects) + h.effects
        && outcome == h.outcome
        && eventQueue == old(eventQueue) + h.queued
      ensures isPosting && isMainThread == old(isMainThread) && !canceled && PostingIdle() && TypesReady()
      ensures sent == old(sent)
    {
      if e == Null {
        return Raised(NullEvent);
      }
      ghost var d := TypesDelivery(react, throwSubscriberException, subscriptionsByEventType, TypesFor(ClassOf(e)), e, isMainThread);
      assert Handle(e, isMainThread) == if d.failed then Handling(d.effects, Raised(InvokingSubscriberFailed), [])
        else Handling(d.effects, Done, if !d.found && WantsNotice(e) then [NoSubscriber(e)] else []);
      var eventClass := ClassOf(e);
      var subscriptionFound;
      if eventInheritance {
        var eventTypes := LookupAllEventTypes(eventClass);
        subscriptionFound, outcome := PostToTypes(e, eventTypes);
      } else {
        SingleTypeDelivery(react, throwSubscriberException, subscriptionsByEventType, eventClass, e, isMainThread);
        subscriptionFound, outcome := PostSingleEventForEventType(e, eventClass);
      }
      assert effects == old(effects) + d.effects && outcome.Raised? == d.failed;
      if outcome.Raised? {
        return;
      }
      assert subscriptionFound == d.found;
      outcome := PostNotice(e, subscriptionFound);
    }

    /** The tail of `postSingleEvent`: nobody got `e`, so a NoSubscriberEvent is posted, which only joins the queue. */
    method PostNotice(e: Value, subscriptionFound: bool) returns (outcome: Outcome)
      requires e != Null
      requires isPosting && !canceled && PostingIdle() && TypesReady()
      modifies this`eventQueue, this`isPosting, this`isMainThread, this`currentEvent, this`currentSubscription
      modifies this`canceled, this`effects, this`sent, this`eventTypesCache
      decreases 1
      ensures eventQueue == old(eventQueue) + (if !subscriptionFound && WantsNotice(e) then [NoSubscriber(e)] else [])
      ensures outcome == Done && effects == old(effects) && sent == old(sent)
      ensures isPosting && isMainThread == old(isMainThread) && !canceled && PostingIdle() && TypesReady()
    {
      outcome := Done;
      if !subscriptionFound && WantsNotice(e) {
        outcome := PostLocal(NoSubscriber(e), isMainThread);
      }
    }

    /** The loop of `postSingleEvent` over the looked-up types: each type's list in turn, until a handler failure escapes. */
    method PostToTypes(e: Value, types: seq<ClassName>) returns (found: bool, outcome: Outcome)
      requires isPosting && !canceled && PostingIdle()
      modifies this`effects, this`canceled, this`currentEvent, this`currentSubscription
      ensures var d := TypesDelivery(react, throwSubscriberException, subscriptionsByEventType, types, e, isMainThread);
        && effects == old(effects) + d.effects
        && outcome == (if d.failed then Raised(InvokingSubscriberFailed) else Done)
        && found == d.found
      ensures !canceled && PostingIdle()
    {
      found := false;
      outcome := Done;
      var h := 0;
      while h < |types|
        invariant 0 <= h <= |types|
        invariant var dh := TypesDelivery(react, throwSubscriberException, subscriptionsByEventType, types[..h], e, isMainThread);
          !dh.failed && effects == old(effects) + dh.effects && found == dh.found
        invariant !canceled && PostingIdle() && outcome == Done
      {
        TypesDeliveryNext(react, throwSubscriberException, subscriptionsByEventType, types, h, e, isMainThread, old(effects));
        var foundHere;
        foundHere, outcome := PostSingleEventForEventType(e, types[h]);
        if outcome.Raised? {
          return true, outcome;
        }
        found := found || foundHere;
        h := h + 1;
      }
      assert types[..h] == types;
    }

    /**
     * The drain loop shared by `postLocal`, `post` and `postRemote`, run
     * once the thread is marked posting: it ends with the queue empty, or at
     * the first exception with the rest of the queue left in place.
     */
    method DrainQueue(mode: DrainMode) returns (outcome: Outcome)
      requires isPosting && !canceled && PostingIdle() && TypesReady()
      modifies this`eventQueue, this`isPosting, this`isMainThread, this`currentEvent, this`currentSubscription
      modifies this`canceled, this`effects, this`sent, this`eventTypesCache
      decreases 5
      ensures var r := old(Drain(eventQueue, isMainThread, mode));
        && effects == old(effects) + r.effects
        && sent == old(sent) + r.sent
        && outcome == r.outcome
        && eventQueue == r.left
      ensures isPosting && isMainThread == old(isMainThread) && !canceled && PostingIdle() && TypesReady()
    {
      ghost var whole := Drain(eventQueue, isMainThread, mode);
      while eventQueue != []
        invariant isPosting && isMainThread == old(isMainThread) && !canceled && PostingIdle() && TypesReady()
        invariant var r := Drain(eventQueue, isMainThread, mode);
          && old(effects) + whole.effects == effects + r.effects
          && old(sent) + whole.sent == sent + r.sent
          && whole.outcome == r.outcome
          && whole.left == r.left
        decreases Weight(eventQueue)
      {
        outcome := DrainTurn(mode);
        if outcome.Raised? {
          return;
        }
      }
      outcome := Done;
    }

    /**
     * The body of the drain loop, stated against the drain: the turn either
     * raises, ending the drain as it ends, or leaves a lighter queue whose
     * drain completes the one begun.
     */
    method DrainTurn(mode: DrainMode) returns (outcome: Outcome)
      requires eventQueue != []
      requires isPosting && !canceled && PostingIdle() && TypesReady()
      modifies this`eventQueue, this`isPosting, this`isMainThread, this`currentEvent, this`currentSubscription
      modifies this`canceled, this`effects, this`sent, this`eventTypesCache
      decreases 4
      ensures var r := old(Drain(eventQueue, isMainThread, mode));
        var r' := Drain(eventQueue, isMainThread, mode);
        if outcome.Raised? then
          && effects == old(effects) + r.effects && sent == old(sent) + r.sent
          && outcome == r.outcome && eventQueue == r.left
        else
          && old(effects) + r.effects == effects + r'.effects
          && old(sent) + r.sent == sent + r'.sent
          && r.outcome == r'.outcome && r.left == r'.left
          && Weight(eventQueue) < old(Weight(eventQueue))
      ensures isPosting && isMainThread == old(isMainThread) && !canceled && PostingIdle() && TypesReady()
    {
      DrainStep(eventQueue, isMainThread, mode, effects, sent);
      outcome := DrainNext(mode);
    }

    /** The body of the drain loop: the event at the head of the queue is removed and has its turn. */
    method DrainNext(mode: DrainMode) returns (outcome: Outcome)
      requires eventQueue != []
      requires isPosting && !canceled && PostingIdle() && TypesReady()
      modifies this`eventQueue, this`isPosting, this`isMainThread, this`currentEvent, this`currentSubscription
      modifies this`canceled, this`effects, this`sent, this`eventTypesCache
      decreases 3
      ensures var t := old(TurnOf(eventQueue[0], isMainThread, mode));
        && effects == old(effects) + t.effects && sent == old(sent) + t.sent
        && outcome == t.outcome && eventQueue == old(eventQueue[1..]) + t.queued
      ensures isPosting && isMainThread == old(isMainThread) && !canceled && PostingIdle() && TypesReady()
    {
      var obj := eventQueue[0];
      eventQueue := eventQueue[1..];
      outcome := Done;
      if !mode.RemoteOnly? && (mode.LocalOnly? || obj != Null) {
        outcome := PostSingleEvent(obj);
        if outcome.Raised? {
          return;
        }
      }
      if !mode.LocalOnly? {
        var objectInArray := ParseToSendBy(mode.encoder, obj);
        if objectInArray.Unsupported? {
          return Raised(UnsupportedEvent);
        }
        if obj != Null && objectInArray.Bytes? {
          sent := sent + [Transmission(objectInArray.data, ClassOf(obj), mode.RemoteOnly? && mode.sticky)];
        }
      }
    }

    /**
     * What a post of `event` in `mode` did, from a thread whose main-thread
     * fact is `onMainThread`: a thread already posting only queued it; a
     * thread left canceled threw with the posting flags set; otherwise the
     * queue with the event behind it was drained and the flags cleared,
     * however the drain ended.
     */
    twostate predicate Posted(event: Value, onMainThread: bool, mode: DrainMode, outcome: Outcome)
      requires WellFormed(hierarchy)
      reads this
    {
      if old(isPosting) then
        && eventQueue == old(eventQueue) + [event] && outcome == Done
        && isPosting && isMainThread == old(isMainThread) && canceled == old(canceled)
        && effects == old(effects) && sent == old(sent)
      else if old(canceled) then
        && eventQueue == old(eventQueue) + [event] && outcome == Raised(AbortStateNotReset)
        && isPosting && isMainThread == onMainThread && canceled
        && effects == old(effects) && sent == old(sent)
      else
        var r := old(Drain(eventQueue + [event], onMainThread, mode));
        && effects == old(effects) + r.effects && sent == old(sent) + r.sent
        && outcome == r.outcome && eventQueue == r.left
        && !isPosting && !isMainThread && !canceled
    }

    /**
     * `postLocal(event)`: queues the event and, unless the thread is already
     * posting, drains the queue; the posting flags are cleared however the
     * drain ends.
     */
    method PostLocal(event: Value, onMainThread: bool) returns (outcome: Outcome)
      requires TypesReady() && PostingIdle()
      modifies this`eventQueue, this`isPosting, this`isMainThread, this`currentEvent, this`currentSubscription
      modifies this`canceled, this`effects, this`sent, this`eventTypesCache
      decreases if isPosting then 0 else 6
      ensures PostingIdle() && TypesReady()
      ensures Posted(event, onMainThread, LocalOnly, outcome)
    {
      eventQueue := eventQueue + [event];
      if !isPosting {
        ghost var r := Drain(eventQueue, onMainThread, LocalOnly);
        isMainThread := onMainThread;
        isPosting := true;
        if canceled {
          return Raised(AbortStateNotReset);
        }
        assert Drain(eventQueue, isMainThread, LocalOnly) == r;
        outcome := DrainQueue(LocalOnly);
        isPosting := false;
        isMainThread := false;
      } else {
        outcome := Done;
      }
    }

    /**
     * `post(event, context)`: as postLocal, but every event taken off the
     * queue is also handed to parseToSend, as written, after its local
     * delivery (a null one is not delivered), and its bytes, if any, are
     * transmitted. The bus's own NoSubscriberEvent therefore ends the drain
     * (AsWrittenPostRaisesOnNotice).
     */
    method Post(event: Value, onMainThread: bool) returns (outcome: Outcome)
      requires TypesReady() && PostingIdle()
      modifies this`eventQueue, this`isPosting, this`isMainThread, this`currentEvent, this`currentSubscription
      modifies this`canceled, this`effects, this`sent, this`eventTypesCache
      ensures PostingIdle() && TypesReady()
      ensures Posted(event, onMainThread, LocalAndRemote(AsWritten), outcome)
    {
      eventQueue := eventQueue + [event];
      if !isPosting {
        ghost var r := Drain(eventQueue, onMainThread, LocalAndRemote(AsWritten));
        isMainThread := onMainThread;
        isPosting := true;
        if canceled {
          return Raised(AbortStateNotReset);
        }
        assert Drain(eventQueue, isMainThread, LocalAndRemote(AsWritten)) == r;
        outcome := DrainQueue(LocalAndRemote(AsWritten));
        isPosting := false;
        isMainThread := false;
      } else {
        outcome := Done;
      }
    }

    /**
     * `postRemote(event, context)` (`sticky` false) and the private
     * `postRemote(event, context, isSticky)`: the queue is drained without
     * local delivery; each event is handed to parseToSend, as written, and
     * its bytes, if any, are transmitted with the sticky flag.
     */
    method PostRemote(event: Value, sticky: bool, onMainThread: bool) returns (outcome: Outcome)
      requires TypesReady() && PostingIdle()
      modifies this`eventQueue, this`isPosting, this`isMainThread, this`currentEvent, this`currentSubscription
      modifies this`canceled, this`effects, this`sent, this`eventTypesCache
      ensures PostingIdle() && TypesReady()
      ensures Posted(event, onMainThread, RemoteOnly(sticky, AsWritten), outcome)
    {
      eventQueue := eventQueue + [event];
      if !isPosting {
        ghost var r := Drain(eventQueue, onMainThread, RemoteOnly(sticky, AsWritten));
        isMainThread := onMainThread;
        isPosting := true;
        if canceled {
          return Raised(AbortStateNotReset);
        }
        assert Drain(eventQueue, isMainThread, RemoteOnly(sticky, AsWritten)) == r;
        outcome := DrainQueue(RemoteOnly(sticky, AsWritten));
        isPosting := false;
        isMainThread := false;
      } else {
        outcome := Done;
      }
    }

    // ---------------------------------------------------------------------
    // Sticky cache

    /** `getStickyEvent(eventType)`: the event last stored under the type, if any; its cast to the type never fails. */
    function GetStickyEvent(eventType: ClassName): (r: Option<Value>)
      requires StickyOk()
      reads this
      ensures r.None? <==> eventType !in stickyEvents
      ensures r.Some? ==> r.value != Null && ClassOf(r.value) == eventType
    {
      if eventType in stickyEvents then Some(stickyEvents[eventType]) else None
    }

    /**
     * `postStickyLocal(event)`: stores the event under its class, replacing
     * the one stored before, and then posts it locally; a null event has no
     * class and throws before anything changes.
     */
    method PostStickyLocal(event: Value, onMainThread: bool) returns (outcome: Outcome)
      requires TypesReady() && PostingIdle() && StickyOk()
      modifies this`eventQueue, this`isPosting, this`isMainThread, this`currentEvent, this`currentSubscription
      modifies this`canceled, this`effects, this`sent, this`eventTypesCache, this`stickyEvents
      ensures PostingIdle() && TypesReady() && StickyOk()
      ensures event == Null ==> outcome == Raised(NullEvent) && unchanged(this)
      ensures event != Null ==>
        && stickyEvents == old(stickyEvents)[ClassOf(event) := event]
        && GetStickyEvent(ClassOf(event)) == Some(event)
        && Posted(event, onMainThread, LocalOnly, outcome)
    {
      if event == Null {
        return Raised(NullEvent);
      }
      stickyEvents := stickyEvents[ClassOf(event) := event];
      outcome := PostLocal(event, onMainThread);
    }

    /** `removeStickyEventLocal(eventType)`: removes and returns the event stored under the type, if any. */
    method RemoveStickyEventLocal(eventType: ClassName) returns (r: Option<Value>)
      requires StickyOk()
      modifies this`stickyEvents
      ensures StickyOk()
      ensures r == old(GetStickyEvent(eventType))
      ensures stickyEvents == old(stickyEvents) - {eventType}
    {
      r := GetStickyEvent(eventType);
      stickyEvents := stickyEvents - {eventType};
    }

    /**
     * `removeStickyEventLocal(event)`: removes the entry of the event's class
     * only if it equals the event, and says whether it did; a null event
     * throws.
     */
    method RemoveStickyEventLocalIfEqual(event: Value) returns (removed: bool, outcome: Outcome)
      requires StickyOk()
      modifies this`stickyEvents
      ensures StickyOk()
      ensures event == Null ==> !removed && outcome == Raised(NullEvent) && stickyEvents == old(stickyEvents)
      ensures event != Null ==>
        && outcome == Done
        && (removed <==> old(GetStickyEvent(ClassOf(event))) == Some(event))
        && stickyEvents == if removed then old(stickyEvents) - {ClassOf(event)} else old(stickyEvents)
    {
      if event == Null {
        return false, Raised(NullEvent);
      }
      var eventType := ClassOf(event);
      var existingEvent := GetStickyEvent(eventType);
      outcome := Done;
      if existingEvent == Some(event) {
        stickyEvents := stickyEvents - {eventType};
        removed := true;
      } else {
        removed := false;
      }
    }

    /** `removeAllStickyEventsLocal()`: empties the cache. */
    method RemoveAllStickyEventsLocal()
      modifies this`stickyEvents
      ensures StickyOk()
      ensures stickyEvents == map[]
      ensures forall c :: GetStickyEvent(c).None?
    {
      stickyEvents := map[];
    }

    /**
     * `hasSubscriberForEvent(eventClass)`: whether any type an event of that
     * class reaches (looked up whatever eventInheritance says) has a
     * non-empty subscription list.
     */
    method HasSubscriberForEvent(eventClass: ClassName) returns (b: bool)
      requires TypesReady()
      modifies this`eventTypesCache
      ensures TypesReady()
      ensures eventTypesCache == old(eventTypesCache)[eventClass := EventTypes(hierarchy, eventClass)]
      ensures b <==> exists t | t in EventTypes(hierarchy, eventClass) :: Listed(subscriptionsByEventType, t) != []
    {
      var eventTypes := LookupAllEventTypes(eventClass);
      var h := 0;
      while h < |eventTypes|
        invariant 0 <= h <= |eventTypes|
        invariant forall j | 0 <= j < h :: Listed(subscriptionsByEventType, eventTypes[j]) == []
      {
        var clazz := eventTypes[h];
        if clazz in subscriptionsByEventType && subscriptionsByEventType[clazz] != [] {
          assert clazz in EventTypes(hierarchy, eventClass) && Listed(subscriptionsByEventType, clazz) != [];
          return true;
        }
        h := h + 1;
      }
      b := false;
    }

    // ---------------------------------------------------------------------
    // Inbound sync

    /**
     * `findParcel(data, name)`: walks the class list in order and returns
     * what the Parcel constructor of the first class of that simple name
     * builds, skipping classes whose constructor fails.
     */
    method FindParcel(data: seq<byte>, name: string) returns (r: Option<Value>)
      ensures r == FirstParcel(unparcel, classList, name, data)
    {
      var k := 0;
      while k < |classList|
        invariant 0 <= k <= |classList|
        invariant FirstParcel(unparcel, classList[k..], name, data) == FirstParcel(unparcel, classList, name, data)
      {
        var classTmp := classList[k];
        assert classList[k..][1..] == classList[k + 1..];
        if name == SimpleName(classTmp) {
          var made := unparcel(classTmp, data);
          if made.Some? {
            return made;
          }
        }
        k := k + 1;
      }
      r := None;
    }

    /** Decodes a received payload: a scalar by simple name first, else a parcel of a known class. */
    method DecodePayload(data: seq<byte>, name: string) returns (r: Inflow)
      ensures r == DecodeInbound(unparcel, classList, data, name)
    {
      match GetSendSimpleObject(data, name)
      case Underflow =>
        r := ShortPayload;
      case Decoded(v) =>
        r := Object(v);
      case Unknown =>
        var obj := FindParcel(data, name);
        r := if obj.Some? then Object(obj.value) else NoObject;
    }

    /**
     * What a received event or sticky-event message did: a short scalar
     * payload threw; no object, nothing; otherwise the object was posted
     * locally, stored in the cache first when `sticky`.
     */
    twostate predicate Received(inflow: Inflow, onMainThread: bool, sticky: bool, outcome: Outcome)
      requires WellFormed(hierarchy)
      reads this
    {
      match inflow
      case ShortPayload => outcome == Raised(BufferUnderflow) && unchanged(this)
      case NoObject => outcome == Done && unchanged(this)
      case Object(v) =>
        if v == Null then outcome == Done && unchanged(this)
        else
          && stickyEvents == (if sticky then old(stickyEvents)[ClassOf(v) := v] else old(stickyEvents))
          && Posted(v, onMainThread, LocalOnly, outcome)
    }

    /** What `stickyEventCommand` did to the cache for a command. */
    twostate predicate CommandApplied(cmd: StickyCommand, data: seq<byte>, outcome: Outcome)
      reads this
    {
      match cmd
      case ClearAll => stickyEvents == map[] && outcome == Done
      case RemoveByClassName(n) =>
        stickyEvents == old(stickyEvents) - (set c | c in classList && SimpleName(c) == n) && outcome == Done
      case RemoveByValue(n) =>
        (match DecodeInbound(unparcel, classList, data, n)
         case ShortPayload => outcome == Raised(BufferUnderflow) && stickyEvents == old(stickyEvents)
         case NoObject => outcome == Done && stickyEvents == old(stickyEvents)
         case Object(v) =>
           && outcome == Done
           && stickyEvents == if v != Null && ClassOf(v) in old(stickyEvents) && old(stickyEvents)[ClassOf(v)] == v
                              then old(stickyEvents) - {ClassOf(v)} else old(stickyEvents))
      case SliceOutOfRange => outcome == Raised(PathSliceOutOfRange) && stickyEvents == old(stickyEvents)
    }

    /**
     * `syncEvent(message)`: routes a message received from a peer by its
     * path: an event is decoded and posted locally, a sticky event is decoded
     * and posted as a local sticky event, a command goes to
     * stickyEventCommand, anything else is ignored.
     */
    method SyncEvent(path: string, data: seq<byte>, onMainThread: bool) returns (outcome: Outcome)
      requires TypesReady() && PostingIdle() && StickyOk()
      modifies this`eventQueue, this`isPosting, this`isMainThread, this`currentEvent, this`currentSubscription
      modifies this`canceled, this`effects, this`sent, this`eventTypesCache, this`stickyEvents
      ensures PostingIdle() && TypesReady() && StickyOk()
      ensures match Classify(path)
        case EventMessage(name) => Received(DecodeInbound(unparcel, classList, data, name), onMainThread, false, outcome)
        case StickyMessage(name) => Received(DecodeInbound(unparcel, classList, data, name), onMainThread, true, outcome)
        case CommandMessage =>
          && CommandApplied(ParseCommand(path, data), data, outcome)
          && eventQueue == old(eventQueue) && effects == old(effects) && sent == old(sent)
          && isPosting == old(isPosting) && isMainThread == old(isMainThread) && canceled == old(canceled)
          && currentEvent == old(currentEvent) && currentSubscription == old(currentSubscription)
          && eventTypesCache == old(eventTypesCache)
        case Dropped => outcome == Done && unchanged(this)
    {
      match Classify(path)
      case EventMessage(className) =>
        var obj := DecodePayload(data, className);
        outcome := PostInbound(obj, onMainThread, false);
      case StickyMessage(className) =>
        var obj := DecodePayload(data, className);
        outcome := PostInbound(obj, onMainThread, true);
      case CommandMessage =>
        outcome := StickyEventCommand(path, data);
      case Dropped =>
        outcome := Done;
    }

    /** The tail of the event and sticky-event branches of `syncEvent`: post what was decoded, if anything. */
    method PostInbound(inflow: Inflow, onMainThread: bool, sticky: bool) returns (outcome: Outcome)
      requires TypesReady() && PostingIdle() && StickyOk()
      modifies this`eventQueue, this`isPosting, this`isMainThread, this`currentEvent, this`currentSubscription
      modifies this`canceled, this`effects, this`sent, this`eventTypesCache, this`stickyEvents
      ensures PostingIdle() && TypesReady() && StickyOk()
      ensures Received(inflow, onMainThread, sticky, outcome)
    {
      match inflow
      case ShortPayload =>
        outcome := Raised(BufferUnderflow);
      case NoObject =>
        outcome := Done;
      case Object(obj) =>
        if obj == Null {
          outcome := Done;
        } else if sticky {
          outcome := PostStickyLocal(obj, onMainThread);
        } else {
          outcome := PostLocal(obj, onMainThread);
        }
    }

    /**
     * `stickyEventCommand(message, data)`: clears the cache, removes the
     * entries of every known class of the path's simple name, or removes the
     * decoded value if it is the one cached, as the path and payload say.
     */
    method StickyEventCommand(path: string, data: seq<byte>) returns (outcome: Outcome)
      requires StickyOk()
      modifies this`stickyEvents
      ensures StickyOk()
      ensures CommandApplied(ParseCommand(path, data), data, outcome)
    {
      match ParseCommand(path, data)
      case ClearAll =>
        RemoveAllStickyEventsLocal();
        outcome := Done;
      case RemoveByClassName(className) =>
        RemoveBySimpleName(className);
        outcome := Done;
      case RemoveByValue(className) =>
        var obj := DecodePayload(data, className);
        match obj {
          case ShortPayload =>
            outcome := Raised(BufferUnderflow);
          case NoObject =>
            outcome := Done;
          case Object(v) =>
            outcome := Done;
            if v != Null {
              var _, _ := RemoveStickyEventLocalIfEqual(v);
            }
        }
      case SliceOutOfRange =>
        outcome := Raised(PathSliceOutOfRange);
    }

    /** The loop of `stickyEventCommand` over the class list: drops the entry of every class with that simple name. */
    method RemoveBySimpleName(name: string)
      requires StickyOk()
      modifies this`stickyEvents
      ensures StickyOk()
      ensures stickyEvents == old(stickyEvents) - (set c | c in classList && SimpleName(c) == name)
    {
      var k := 0;
      while k < |classList|
        invariant 0 <= k <= |classList|
        invariant StickyOk()
        invariant stickyEvents == old(stickyEvents) - (set c | c in classList[..k] && SimpleName(c) == name)
      {
        var classTmp := classList[k];
        assert classList[..k + 1] == classList[..k] + [classTmp];
        if name == SimpleName(classTmp) {
          var _ := RemoveStickyEventLocal(classTmp);
        }
        k := k + 1;
      }
      assert classList[..k] == classList;
    }
  }
}

=== FILE: java_strings.dfy ===
/**
 * The few operations of java.lang.String that the bus uses on message paths
 * and class names: `contains`, `lastIndexOf(char)` and `substring`.
 */
module JavaStrings {

  /** `t` occurs in `s` starting at index `i`. */
  ghost predicate OccursAt(s: string, t: string, i: int)
  {
    0 <= i && i + |t| <= |s| && s[i..i + |t|] == t
  }

  /** `s.contains(t)`. */
  function Contains(s: string, t: string): (b: bool)
    ensures b <==> exists i :: OccursAt(s, t, i)
    decreases |s|
  {
    if |s| < |t| then false
    else if s[..|t|] == t then
      assert OccursAt(s, t, 0);
      true
    else
      var r := Contains(s[1..], t);
      assert r ==> exists i :: OccursAt(s, t, i) by {
        if r {
          var i :| OccursAt(s[1..], t, i);
          assert OccursAt(s, t, i + 1);
        }
      }
      assert (exists i :: OccursAt(s, t, i)) ==> r by {
        if exists i :: OccursAt(s, t, i) {
          var i :| OccursAt(s, t, i);
          assert OccursAt(s[1..], t, i - 1);
        }
      }
      r
  }

  /** `s.lastIndexOf(c)`: the greatest index holding `c`, or -1. */
  function LastIndexOf(s: string, c: char): (k: int)
    ensures -1 <= k < |s|
    ensures k >= 0 ==> s[k] == c
    ensures forall j :: k < j < |s| ==> s[j] != c
  {
    if s == [] then -1
    else if s[|s| - 1] == c then |s| - 1
    else LastIndexOf(s[..|s| - 1], c)
  }

  /** No character of `s` is `c`. */
  predicate Free(s: string, c: char)
  {
    forall j :: 0 <= j < |s| ==> s[j] != c
  }

  /** The text after the last `c` of `s` (all of `s` when it has none). */
  function AfterLast(s: string, c: char): (r: string)
    ensures Free(r, c)
  {
    s[LastIndexOf(s, c) + 1..]
  }

  /** Appending a `c`-free tail after a `c` makes that tail the text after the last `c`. */
  lemma {:induction false} AfterLastOfAppend(prefix: string, c: char, tail: string)
    requires |prefix| > 0 && prefix[|prefix| - 1] == c
    requires Free(tail, c)
    ensures LastIndexOf(prefix + tail, c) == |prefix| - 1
    ensures AfterLast(prefix + tail, c) == tail
  {
    var s := prefix + tail;
    var k := LastIndexOf(s, c);
    assert s[|prefix| - 1] == c;
    assert k >= |prefix| - 1;
    assert s[k + 1..] == tail;
  }

  /**
   * A pattern whose first character occurs in `s` only at index 0, and that
   * is not a prefix of `s`, does not occur in `s` at all.
   */
  lemma NotContainedByFirstChar(s: string, t: string)
    requires |t| > 0
    requires forall k | 0 < k < |s| :: s[k] != t[0]
    requires !(|t| <= |s| && s[..|t|] == t)
    ensures !Contains(s, t)
  {
  }

  /**
   * A pattern that ends in `c` and does not occur in `prefix` does not occur
   * in `prefix` followed by a `c`-free tail either: its last character would
   * have to fall inside `prefix`.
   */
  lemma {:induction false} NotContainedWithFreeTail(prefix: string, tail: string, t: string, c: char)
    requires |t| > 0 && t[|t| - 1] == c
    requires !Contains(prefix, t)
    requires Free(tail, c)
    ensures !Contains(prefix + tail, t)
  {
    forall i ensures !OccursAt(prefix + tail, t, i) {
      OccurrenceEndsInPrefix(prefix, tail, t, c, i);
    }
  }

  /** An occurrence of a pattern ending in `c` lies inside the prefix, when the tail has no `c`. */
  lemma OccurrenceEndsInPrefix(prefix: string, tail: string, t: string, c: char, i: int)
    ensures OccursAt(prefix + tail, t, i) && |t| > 0 && t[|t| - 1] == c && Free(tail, c)
      ==> OccursAt(prefix, t, i)
  {
    var s := prefix + tail;
    if OccursAt(s, t, i) && |t| > 0 && t[|t| - 1] == c && Free(tail, c) {
      var j := i + |t| - 1;
      assert s[j] == s[i..i + |t|][|t| - 1] == c;
      assert j < |prefix|;
      assert prefix[i..i + |t|] == s[i..i + |t|];
    }
  }
}

=== FILE: objects.dfy ===
/**
 * The Java values that travel on the bus: the boxed scalars the wire codec
 * knows, Parcelable payloads, the bus's own NoSubscriberEvent, the
 * WearConnectionEvent posted by the connection watcher, and any other object.
 */
module Objects {
  import opened JavaStrings

  type byte = b: int | 0 <= b < 0x100
  type int16 = x: int | -0x8000 <= x < 0x8000
  type int32 = x: int | -0x8000_0000 <= x < 0x8000_0000
  type int64 = x: int | -0x8000_0000_0000_0000 <= x < 0x8000_0000_0000_0000
  type uint32 = x: int | 0 <= x < 0x1_0000_0000
  type uint64 = x: int | 0 <= x < 0x1_0000_0000_0000_0000

  /** A fully qualified Java class name, such as "java.lang.Integer". */
  type ClassName = string

  /** A peer device as the Wearable API reports it; only `id` is compared. */
  datatype Node = Node(id: string, displayName: string)

  datatype Value =
    | Null
    | Str(s: string)                          // java.lang.String
    | Int(i: int32)                           // java.lang.Integer
    | Long(l: int64)                          // java.lang.Long
    | Short(h: int16)                         // java.lang.Short
    | Float(floatBits: uint32)                // java.lang.Float, by its IEEE 754 bit pattern
    | Double(doubleBits: uint64)              // java.lang.Double, by its IEEE 754 bit pattern
    | Parcel(parcelClass: ClassName, marshalled: seq<byte>)  // a Parcelable and the bytes Parcel.marshall gives
    | NoSubscriber(original: Value)           // pl.tajchert.buswear.NoSubscriberEvent
    | WearConnection(nodes: seq<Node>)        // WearConnectionEvent
    | Obj(objClass: ClassName, identity: nat) // any other object, told apart by identity

  const STRING_CLASS: ClassName := "java.lang.String"
  const INTEGER_CLASS: ClassName := "java.lang.Integer"
  const LONG_CLASS: ClassName := "java.lang.Long"
  const SHORT_CLASS: ClassName := "java.lang.Short"
  const FLOAT_CLASS: ClassName := "java.lang.Float"
  const DOUBLE_CLASS: ClassName := "java.lang.Double"
  const NO_SUBSCRIBER_CLASS: ClassName := "pl.tajchert.buswear.NoSubscriberEvent"
  const WEAR_CONNECTION_CLASS: ClassName := "pl.tajchert.buswear.wear.connection.WearConnectionEvent"
  /** The class WearBusTools imports under the name NoSubscriberEvent; the bus never creates one. */
  const GREENROBOT_NO_SUBSCRIBER_CLASS: ClassName := "org.greenrobot.eventbus.NoSubscriberEvent"

  /** `v.getClass()`; a null reference has none. */
  function ClassOf(v: Value): ClassName
    requires v != Null
  {
    match v
    case Str(_) => STRING_CLASS
    case Int(_) => INTEGER_CLASS
    case Long(_) => LONG_CLASS
    case Short(_) => SHORT_CLASS
    case Float(_) => FLOAT_CLASS
    case Double(_) => DOUBLE_CLASS
    case Parcel(c, _) => c
    case NoSubscriber(_) => NO_SUBSCRIBER_CLASS
    case WearConnection(_) => WEAR_CONNECTION_CLASS
    case Obj(c, _) => c
  }

  /**
   * `Class.getSimpleName()` of a top-level class: the name after the
   * package, that is the whole name when there is no package.
   */
  function SimpleName(c: ClassName): (r: string)
    ensures Free(r, '.')
  {
    AfterLast(c, '.')
  }

  /** The simple name ends the class name, and a dot stands right before it unless it is all of it. */
  lemma SimpleNameIsLastSegment(c: ClassName)
    ensures var r := SimpleName(c);
      && |r| <= |c| && c == c[..|c| - |r|] + r
      && (|r| < |c| ==> c[|c| - |r| - 1] == '.')
  {
    var k := LastIndexOf(c, '.');
    var r := SimpleName(c);
    assert r == c[k + 1..];
    assert |c| - |r| == k + 1;
    assert c == c[..k + 1] + c[k + 1..];
  }

  /** `WearConnectionEvent.hasBusWearConnection()`. */
  predicate HasBusWearConnection(e: Value)
    requires e.WearConnection?
  {
    |e.nodes| > 0
  }
}

=== FILE: subscriptions.dfy ===
/**
 * Subscriptions: a subscriber object, one of its handler methods and a
 * priority. The registry keeps one list of them per event type, ordered by
 * priority.
 */
module Subscriptions {
  import opened Objects

  datatype ThreadMode = PostThread | MainThread | BackgroundThread | Async

  /** A subscriber object, told apart by identity as `==` does. */
  type Subscriber = nat

  /** A handler method found on a subscriber: its name, delivery mode and parameter type. */
  datatype SubscriberMethod = SubscriberMethod(methodName: string, threadMode: ThreadMode, eventType: ClassName)

  class Subscription {
    const subscriber: Subscriber
    const subscriberMethod: SubscriberMethod
    const priority: int
    /** Cleared by unregister; queued deliveries check it before invoking. */
    var active: bool

    constructor (subscriber: Subscriber, subscriberMethod: SubscriberMethod, priority: int)
      ensures this.subscriber == subscriber && this.subscriberMethod == subscriberMethod
      ensures this.priority == priority && active
    {
      this.subscriber := subscriber;
      this.subscriberMethod := subscriberMethod;
      this.priority := priority;
      active := true;
    }
  }

  /** `Subscription.equals`: the same subscriber object and the same handler method. */
  predicate SameSubscription(a: Subscription, b: Subscription) {
    a.subscriber == b.subscriber && a.subscriberMethod == b.subscriberMethod
  }

  /** Non-increasing priority, the order in which a per-type list is delivered. */
  predicate Sorted(subs: seq<Subscription>) {
    forall i, j | 0 <= i < j < |subs| :: subs[i].priority >= subs[j].priority
  }

  /** The list with every subscription of subscriber `x` taken out. */
  function Without(subs: seq<Subscription>, x: Subscriber): (r: seq<Subscription>)
    ensures forall s | s in r :: s in subs && s.subscriber != x
    ensures forall s | s in subs && s.subscriber != x :: s in r
  {
    if subs == [] then []
    else if subs[0].subscriber == x then Without(subs[1..], x)
    else [subs[0]] + Without(subs[1..], x)
  }

  /** Removal works entry by entry, so the remaining entries keep their order. */
  lemma {:induction false} WithoutAppend(a: seq<Subscription>, b: seq<Subscription>, x: Subscriber)
    ensures Without(a + b, x) == Without(a, x) + Without(b, x)
  {
    if a == [] {
      assert a + b == b;
    } else {
      assert (a + b)[0] == a[0];
      assert (a + b)[1..] == a[1..] + b;
      WithoutAppend(a[1..], b, x);
    }
  }

  /** Inserting an entry of `x` anywhere leaves the list, read without `x`, as it was. */
  lemma WithoutInsert(subs: seq<Subscription>, k: nat, s: Subscription, x: Subscriber)
    requires k <= |subs| && s.subscriber == x
    ensures Without(subs[..k] + [s] + subs[k..], x) == Without(subs, x)
  {
    var front, back := subs[..k], subs[k..];
    assert front + back == subs;
    assert [s][1..] == [];
    assert Without([s], x) == [];
    WithoutAppend(front + [s], back, x);
    WithoutAppend(front, [s], x);
    WithoutAppend(front, back, x);
  }

  /** Removing a subscriber's entries leaves a list with no entry of it unchanged, and twice is once. */
  lemma {:induction false} WithoutIdentity(subs: seq<Subscription>, x: Subscriber)
    requires forall s | s in subs :: s.subscriber != x
    ensures Without(subs, x) == subs
  {
    if subs != [] {
      WithoutIdentity(subs[1..], x);
    }
  }

  lemma WithoutTwice(subs: seq<Subscription>, x: Subscriber)
    ensures Without(Without(subs, x), x) == Without(subs, x)
  {
    WithoutIdentity(Without(subs, x), x);
  }

  /**
   * One step of the removal loop of `unsubscribeByEventType`, which walks
   * the list `cur` at index `i` while `k` entries of the original list `orig`
   * have been seen: the entry at `i` is `orig[k]`, and dropping it when it
   * belongs to `x` (or stepping past it otherwise) keeps the loop's view.
   */
  lemma RemovalStep(orig: seq<Subscription>, cur: seq<Subscription>, i: nat, k: nat, x: Subscriber)
    requires i < |cur| && k <= |orig|
    requires cur[..i] == Without(orig[..k], x) && cur[i..] == orig[k..]
    ensures k < |orig| && cur[i] == orig[k]
    ensures var next := cur[..i] + cur[i + 1..];
      cur[i].subscriber == x ==> next[..i] == Without(orig[..k + 1], x) && next[i..] == orig[k + 1..]
    ensures cur[i].subscriber != x ==> cur[..i + 1] == Without(orig[..k + 1], x) && cur[i + 1..] == orig[k + 1..]
  {
    assert cur[i..][0] == cur[i];
    assert cur[i + 1..] == cur[i..][1..] == orig[k..][1..] == orig[k + 1..];
    assert orig[..k + 1] == orig[..k] + [orig[k]];
    WithoutAppend(orig[..k], [orig[k]], x);
    var next := cur[..i] + cur[i + 1..];
    assert next[..i] == cur[..i];
    assert next[i..] == cur[i + 1..];
    assert cur[..i + 1] == cur[..i] + [cur[i]];
  }

  /** Removal keeps a list sorted by priority. */
  lemma {:induction false} WithoutKeepsSorted(subs: seq<Subscription>, x: Subscriber)
    requires Sorted(subs)
    ensures Sorted(Without(subs, x))
  {
    if subs != [] {
      WithoutKeepsSorted(subs[1..], x);
      var rest := Without(subs[1..], x);
      forall s | s in rest ensures subs[0].priority >= s.priority {
        var k :| 0 <= k < |subs[1..]| && subs[1..][k] == s;
      }
    }
  }

  /**
   * Inserting at the first index whose entry has a lower priority than the
   * new one keeps the list sorted, and the new entry comes after every
   * entry of equal priority: ties keep registration order.
   */
  lemma InsertKeepsSorted(subs: seq<Subscription>, k: nat, s: Subscription)
    requires Sorted(subs) && k <= |subs|
    requires forall j | 0 <= j < k :: subs[j].priority >= s.priority
    requires k < |subs| ==> subs[k].priority < s.priority
    ensures var r := subs[..k] + [s] + subs[k..];
      && Sorted(r)
      && (forall j | 0 <= j < |subs| && subs[j].priority == s.priority :: j < k)
      && r[k] == s
  {
    var r := subs[..k] + [s] + subs[k..];
    forall i, j | 0 <= i < j < |r| ensures r[i].priority >= r[j].priority {
      if j > k && i < k {
        assert r[i] == subs[i] && r[j] == subs[j - 1];
      } else if j > k && i > k {
        assert r[i] == subs[i - 1] && r[j] == subs[j - 1];
      } else if j > k {
        assert r[j] == subs[j - 1];
        assert subs[k].priority >= subs[j - 1].priority;
      }
    }
  }
}

=== FILE: sync_protocol.dfy ===
/**
 * The pure half of the inbound sync protocol of EventBus: which branch
 * `syncEvent` takes for a message path, the class name it reads from the
 * path, and which sticky-cache command `stickyEventCommand` derives from a
 * command path and its payload.
 */
module SyncProtocol {
  import opened Objects
  import opened JavaStrings
  import opened WearBusTools
  import Utf8

  /** The branch `syncEvent` takes. */
  datatype Inbound =
    | EventMessage(className: string)    // decoded and posted locally
    | StickyMessage(className: string)   // decoded and posted as a local sticky event
    | CommandMessage                     // handed to stickyEventCommand
    | Dropped                            // no prefix matched: ignored

  /**
   * `path.substring(path.lastIndexOf(".") + 1)`: the path's last dotted
   * segment, read off the same way as a class's simple name.
   */
  function ClassNameOf(path: string): string
  {
    SimpleName(path)
  }

  /** The `contains` tests of `syncEvent`, in order: event, sticky event, command. */
  function Classify(path: string): (r: Inbound)
    ensures r.EventMessage? <==> Contains(path, MESSAGE_PATH)
    ensures r.StickyMessage? <==> !Contains(path, MESSAGE_PATH) && Contains(path, MESSAGE_PATH_STICKY)
    ensures (r.EventMessage? || r.StickyMessage?) ==> r.className == ClassNameOf(path)
  {
    if Contains(path, MESSAGE_PATH) then EventMessage(ClassNameOf(path))
    else if Contains(path, MESSAGE_PATH_STICKY) then StickyMessage(ClassNameOf(path))
    else if Contains(path, MESSAGE_PATH_COMMAND) then CommandMessage
    else Dropped
  }

  /** What `stickyEventCommand` does to the sticky cache. */
  datatype StickyCommand =
    | ClearAll                            // removeAllStickyEventsLocal
    | RemoveByClassName(simpleName: string) // removeStickyEventLocal(Class) for each known class of that simple name
    | RemoveByValue(className: string)    // decode the payload under that name, then removeStickyEventLocal(Object)
    | SliceOutOfRange                     // substring(dotPlace - 5, dotPlace) throws

  /**
   * The command a path and payload stand for. A `String` class name reads the
   * payload as an action; any other name reads the five characters before
   * the last dot as the removal scope.
   */
  function ParseCommand(path: string, payload: seq<byte>): (r: StickyCommand)
    ensures r == ClearAll <==> ClassNameOf(path) == "String" && Utf8.Decode(payload) == ACTION_STICKY_CLEAR_ALL
    ensures r.RemoveByValue? ==> r.className == ClassNameOf(path) != "String"
  {
    var className := ClassNameOf(path);
    if className == "String" then
      if Utf8.Decode(payload) == ACTION_STICKY_CLEAR_ALL then ClearAll else RemoveByClassName(className)
    else
      var dot := LastIndexOf(path, '.');
      if dot < 5 then SliceOutOfRange
      else if path[dot - 5..dot] == "class" then RemoveByClassName(className)
      else RemoveByValue(className)
  }

  /** An event path carrying a dot-free class name is routed to `postLocal` under that name. */
  lemma EventPathRoutes(name: string)
    requires Free(name, '.')
    ensures Classify(MESSAGE_PATH + name) == EventMessage(name)
  {
    assert OccursAt(MESSAGE_PATH + name, MESSAGE_PATH, 0);
    AfterLastOfAppend(MESSAGE_PATH, '.', name);
  }

  /** A sticky path carrying a dot-free class name is routed to `postStickyLocal`, never to `postLocal`. */
  lemma StickyPathRoutes(name: string)
    requires Free(name, '.')
    ensures Classify(MESSAGE_PATH_STICKY + name) == StickyMessage(name)
  {
    StickyPrefixIsNotEventPrefix();
    NotContainedWithFreeTail(MESSAGE_PATH_STICKY, name, MESSAGE_PATH, '.');
    assert OccursAt(MESSAGE_PATH_STICKY + name, MESSAGE_PATH_STICKY, 0);
    AfterLastOfAppend(MESSAGE_PATH_STICKY, '.', name);
  }

  /** Every command path (clear-all, remove by class, remove by value) reaches `stickyEventCommand`. */
  lemma CommandPathRoutes(scope: string, name: string)
    requires scope in ["", PREFIX_CLASS, PREFIX_EVENT]
    requires Free(name, '.')
    ensures Classify(MESSAGE_PATH_COMMAND + scope + name) == CommandMessage
  {
    var p := MESSAGE_PATH_COMMAND + scope;
    CommandPrefixIsNotEventPrefix(scope);
    NotContainedWithFreeTail(p, name, MESSAGE_PATH, '.');
    NotContainedWithFreeTail(p, name, MESSAGE_PATH_STICKY, '.');
    assert OccursAt(p + name, MESSAGE_PATH_COMMAND, 0);
  }

  /** The clear-all command, sent as the String action under the bare command path, empties the cache. */
  lemma ClearAllCommand()
    ensures ParseCommand(MESSAGE_PATH_COMMAND + "String", Utf8.Encode(ACTION_STICKY_CLEAR_ALL)) == ClearAll
  {
    AfterLastOfAppend(MESSAGE_PATH_COMMAND, '.', "String");
    Utf8.DecodeEncode(ACTION_STICKY_CLEAR_ALL);
  }

  /** The five characters before the last dot of a scoped command path are the scope's letters. */
  lemma ScopeSlice(scope: string, name: string)
    requires scope in [PREFIX_CLASS, PREFIX_EVENT]
    requires Free(name, '.')
    ensures var path := MESSAGE_PATH_COMMAND + scope + name;
      var dot := LastIndexOf(path, '.');
      dot >= 5 && path[dot - 5..dot] == scope[..5] && ClassNameOf(path) == name
  {
    RemovalPrefixesShape();
    var p := MESSAGE_PATH_COMMAND + scope;
    AfterLastOfAppend(p, '.', name);
    assert (p + name)[|p| - 6..|p| - 1] == scope[..5];
  }

  /** A remove-by-class command for a class other than String removes by simple name. */
  lemma RemoveByClassCommand(name: string, payload: seq<byte>)
    requires Free(name, '.') && name != "String"
    ensures ParseCommand(MESSAGE_PATH_COMMAND + PREFIX_CLASS + name, payload) == RemoveByClassName(name)
  {
    ScopeSlice(PREFIX_CLASS, name);
  }

  /** A remove-by-value command for a class other than String removes by decoded value. */
  lemma RemoveByValueCommand(name: string, payload: seq<byte>)
    requires Free(name, '.') && name != "String"
    ensures ParseCommand(MESSAGE_PATH_COMMAND + PREFIX_EVENT + name, payload) == RemoveByValue(name)
  {
    ScopeSlice(PREFIX_EVENT, name);
    RemovalPrefixesShape();
  }

  /**
   * A String sticky event is never removed by value: a remove-by-value
   * command for a String removes whatever String is cached, and the string
   * "pl.tajchert.buswear.clearall" clears the whole cache.
   */
  lemma StringValueCommand(s: string)
    ensures ParseCommand(MESSAGE_PATH_COMMAND + PREFIX_EVENT + "String", Utf8.Encode(s))
      == if s == ACTION_STICKY_CLEAR_ALL then ClearAll else RemoveByClassName("String")
  {
    AfterLastOfAppend(MESSAGE_PATH_COMMAND + PREFIX_EVENT, '.', "String");
    Utf8.DecodeEncode(s);
  }
}

=== FILE: type_hierarchy.dfy ===
/**
 * The class graph that `lookupAllEventTypes` walks: each class has its
 * directly implemented interfaces, in declaration order, and an optional
 * superclass. A class that the graph does not describe has neither (as
 * `java.lang.Object` has neither). Levels make the graph acyclic, as the
 * Java type system does: every interface and superclass of a class sits at a
 * lower level.
 */
module TypeHierarchy {
  import opened Wrappers
  import opened Objects

  datatype ClassDecl = ClassDecl(isInterface: bool, interfaces: seq<ClassName>, superclass: Option<ClassName>, level: nat)

  type Hierarchy = map<ClassName, ClassDecl>

  /** `Class.getInterfaces()`. */
  function Interfaces(h: Hierarchy, c: ClassName): seq<ClassName> {
    if c in h then h[c].interfaces else []
  }

  /** `Class.getSuperclass()`, None for null. */
  function Superclass(h: Hierarchy, c: ClassName): Option<ClassName> {
    if c in h then h[c].superclass else None
  }

  function Level(h: Hierarchy, c: ClassName): nat {
    if c in h then h[c].level else 0
  }

  predicate IsInterface(h: Hierarchy, c: ClassName) {
    c in h && h[c].isInterface
  }

  /**
   * What Java guarantees of a class graph: interface lists hold interfaces,
   * a superclass is a class, an interface has no superclass, and every edge
   * goes to a lower level.
   */
  ghost predicate WellFormed(h: Hierarchy) {
    forall c | c in h ::
      && (forall i | i in h[c].interfaces :: IsInterface(h, i) && Level(h, i) < h[c].level)
      && (h[c].superclass.Some? ==>
            !IsInterface(h, h[c].superclass.value) && Level(h, h[c].superclass.value) < h[c].level)
      && (h[c].isInterface ==> h[c].superclass.None?)
  }

  /** `x` is `c` itself or one of its interfaces or superclasses, transitively. */
  ghost predicate Reaches(h: Hierarchy, c: ClassName, x: ClassName)
    requires WellFormed(h)
    decreases Level(h, c)
  {
    || c == x
    || (exists i | i in Interfaces(h, c) :: Reaches(h, i, x))
    || (Superclass(h, c).Some? && Reaches(h, Superclass(h, c).value, x))
  }

  ghost predicate ReachableFrom(h: Hierarchy, roots: seq<ClassName>, x: ClassName)
    requires WellFormed(h)
  {
    exists i | i in roots :: Reaches(h, i, x)
  }

  ghost predicate NoDup(s: seq<ClassName>) {
    forall i, j | 0 <= i < j < |s| :: s[i] != s[j]
  }

  /** Every entry from index `from` on is an interface whose own interfaces are all listed. */
  ghost predicate InterfacesClosedFrom(h: Hierarchy, r: seq<ClassName>, from: nat) {
    forall k | from <= k < |r| :: IsInterface(h, r[k]) && forall j | j in Interfaces(h, r[k]) :: j in r
  }

  /**
   * The list `addInterfaces(types, ifaces)` leaves behind: each interface not
   * yet listed is appended and then followed by its own interfaces. `bound`
   * is a level above every interface in `ifaces`.
   */
  ghost function AddInterfacesList(h: Hierarchy, types: seq<ClassName>, ifaces: seq<ClassName>, bound: nat): seq<ClassName>
    requires WellFormed(h)
    requires forall i | i in ifaces :: IsInterface(h, i) && Level(h, i) < bound
    decreases bound, |ifaces|
  {
    if ifaces == [] then types
    else
      var i := ifaces[0];
      var next := if i in types then types else AddInterfacesList(h, types + [i], Interfaces(h, i), Level(h, i));
      AddInterfacesList(h, next, ifaces[1..], bound)
  }

  /** The loop of `lookupAllEventTypes` from class `c` on: the class, its interfaces, then its superclass. */
  ghost function Walk(h: Hierarchy, types: seq<ClassName>, c: Option<ClassName>): seq<ClassName>
    requires WellFormed(h)
    decreases if c.Some? then Level(h, c.value) + 1 else 0
  {
    if c.None? then types
    else
      var x := c.value;
      Walk(h, AddInterfacesList(h, types + [x], Interfaces(h, x), Level(h, x)), Superclass(h, x))
  }

  /** The list `lookupAllEventTypes(c)` computes and caches. */
  ghost function EventTypes(h: Hierarchy, c: ClassName): seq<ClassName>
    requires WellFormed(h)
  {
    Walk(h, [], Some(c))
  }

  /** `addInterfaces` appends an interface only when it is not yet listed, so it never lists one twice. */
  lemma {:induction false} AddInterfacesNoDup(h: Hierarchy, types: seq<ClassName>, ifaces: seq<ClassName>, bound: nat)
    requires WellFormed(h)
    requires forall i | i in ifaces :: IsInterface(h, i) && Level(h, i) < bound
    requires NoDup(types)
    ensures NoDup(AddInterfacesList(h, types, ifaces, bound))
    decreases bound, |ifaces|
  {
    if ifaces != [] {
      var i := ifaces[0];
      if i in types {
        AddInterfacesNoDup(h, types, ifaces[1..], bound);
      } else {
        var t0 := types + [i];
        assert NoDup(t0);
        AddInterfacesNoDup(h, t0, Interfaces(h, i), Level(h, i));
        AddInterfacesNoDup(h, AddInterfacesList(h, t0, Interfaces(h, i), Level(h, i)), ifaces[1..], bound);
      }
    }
  }

  /** `addInterfaces` only appends, and lists every interface it is given. */
  lemma {:induction false} AddInterfacesPrefix(h: Hierarchy, types: seq<ClassName>, ifaces: seq<ClassName>, bound: nat)
    requires WellFormed(h)
    requires forall i | i in ifaces :: IsInterface(h, i) && Level(h, i) < bound
    ensures var r := AddInterfacesList(h, types, ifaces, bound);
      types <= r && forall i | i in ifaces :: i in r
    decreases bound, |ifaces|
  {
    if ifaces != [] {
      var i := ifaces[0];
      var rest := ifaces[1..];
      var next := if i in types then types else AddInterfacesList(h, types + [i], Interfaces(h, i), Level(h, i));
      if i !in types {
        AddInterfacesPrefix(h, types + [i], Interfaces(h, i), Level(h, i));
        assert next[|types|] == (types + [i])[|types|] == i;
      }
      AddInterfacesPrefix(h, next, rest, bound);
    }
  }

  /** Everything `addInterfaces` appends is an interface whose own interfaces end up listed too. */
  lemma {:induction false} AddInterfacesClosed(h: Hierarchy, types: seq<ClassName>, ifaces: seq<ClassName>, bound: nat)
    requires WellFormed(h)
    requires forall i | i in ifaces :: IsInterface(h, i) && Level(h, i) < bound
    ensures InterfacesClosedFrom(h, AddInterfacesList(h, types, ifaces, bound), |types|)
    decreases bound, |ifaces|
  {
    var r := AddInterfacesList(h, types, ifaces, bound);
    if ifaces != [] {
      var i := ifaces[0];
      var rest := ifaces[1..];
      if i in types {
        AddInterfacesClosed(h, types, rest, bound);
      } else {
        var t0 := types + [i];
        var t1 := AddInterfacesList(h, t0, Interfaces(h, i), Level(h, i));
        AddInterfacesPrefix(h, t0, Interfaces(h, i), Level(h, i));
        AddInterfacesPrefix(h, t1, rest, bound);
        AddInterfacesClosed(h, t0, Interfaces(h, i), Level(h, i));
        AddInterfacesClosed(h, t1, rest, bound);
        assert r == AddInterfacesList(h, t1, rest, bound);
        assert t1[|types|] == i;
        forall k | |types| <= k < |r|
          ensures IsInterface(h, r[k]) && forall j | j in Interfaces(h, r[k]) :: j in r
        {
          if k < |t1| {
            assert r[k] == t1[k];
          }
        }
      }
    }
  }

  /** Everything `addInterfaces` appends is reachable from an interface it was given. */
  lemma {:induction false} AddInterfacesReach(h: Hierarchy, types: seq<ClassName>, ifaces: seq<ClassName>, bound: nat)
    requires WellFormed(h)
    requires forall i | i in ifaces :: IsInterface(h, i) && Level(h, i) < bound
    ensures var r := AddInterfacesList(h, types, ifaces, bound);
      forall k | |types| <= k < |r| :: ReachableFrom(h, ifaces, r[k])
    decreases bound, |ifaces|
  {
    var r := AddInterfacesList(h, types, ifaces, bound);
    if ifaces != [] {
      var i := ifaces[0];
      var rest := ifaces[1..];
      if i in types {
        AddInterfacesReach(h, types, rest, bound);
        assert r == AddInterfacesList(h, types, rest, bound);
        forall k | |types| <= k < |r| ensures ReachableFrom(h, ifaces, r[k]) {
          assert ReachableFrom(h, rest, r[k]);
          var j :| j in rest && Reaches(h, j, r[k]);
          assert j in ifaces;
        }
      } else {
        var t0 := types + [i];
        var t1 := AddInterfacesList(h, t0, Interfaces(h, i), Level(h, i));
        AddInterfacesPrefix(h, t0, Interfaces(h, i), Level(h, i));
        AddInterfacesPrefix(h, t1, rest, bound);
        AddInterfacesReach(h, t0, Interfaces(h, i), Level(h, i));
        AddInterfacesReach(h, t1, rest, bound);
        assert r == AddInterfacesList(h, t1, rest, bound);
        assert t1[|types|] == i;
        forall k | |types| <= k < |r| ensures ReachableFrom(h, ifaces, r[k]) {
          if k < |t1| {
            assert r[k] == t1[k];
            if k == |types| {
              assert Reaches(h, i, i);
            } else {
              var j :| j in Interfaces(h, i) && Reaches(h, j, r[k]);
              assert Reaches(h, i, r[k]);
            }
          } else {
            var j :| j in rest && Reaches(h, j, r[k]);
            assert j in ifaces;
          }
        }
      }
    }
  }

  /**
   * `addInterfaces` only appends; it lists every interface it is given, never
   * lists one twice, and everything it appends is an interface reachable from
   * those it was given whose own interfaces it has listed as well.
   */
  lemma AddInterfacesFacts(h: Hierarchy, types: seq<ClassName>, ifaces: seq<ClassName>, bound: nat)
    requires WellFormed(h)
    requires forall i | i in ifaces :: IsInterface(h, i) && Level(h, i) < bound
    ensures var r := AddInterfacesList(h, types, ifaces, bound);
      && types <= r
      && (forall i | i in ifaces :: i in r)
      && (NoDup(types) ==> NoDup(r))
      && InterfacesClosedFrom(h, r, |types|)
      && (forall k | |types| <= k < |r| :: ReachableFrom(h, ifaces, r[k]))
  {
    AddInterfacesPrefix(h, types, ifaces, bound);
    if NoDup(types) {
      AddInterfacesNoDup(h, types, ifaces, bound);
    }
    AddInterfacesClosed(h, types, ifaces, bound);
    AddInterfacesReach(h, types, ifaces, bound);
  }

  /**
   * From class `c` on, the walk appends `c`, then interfaces, then the rest
   * of the superclass chain; everything it appends is reachable from `c`,
   * nothing is listed twice, and the list ends closed under interfaces and
   * superclasses.
   */
  lemma {:induction false} WalkFacts(h: Hierarchy, types: seq<ClassName>, c: Option<ClassName>)
    requires WellFormed(h)
    requires NoDup(types)
    requires c.Some? && types != [] ==>
      !IsInterface(h, c.value) && forall y | y in types :: IsInterface(h, y) || Level(h, c.value) < Level(h, y)
    ensures var r := Walk(h, types, c);
      && types <= r
      && NoDup(r)
      && (c.Some? ==> |r| > |types| && r[|types|] == c.value)
      && (forall k | |types| <= k < |r| ::
            && (forall j | j in Interfaces(h, r[k]) :: j in r)
            && (Superclass(h, r[k]).Some? ==> Superclass(h, r[k]).value in r))
      && (forall k | |types| <= k < |r| :: c.Some? && Reaches(h, c.value, r[k]))
    decreases if c.Some? then Level(h, c.value) + 1 else 0
  {
    if c.Some? {
      var x := c.value;
      var r := Walk(h, types, c);
      var t0 := types + [x];
      var t1 := AddInterfacesList(h, t0, Interfaces(h, x), Level(h, x));
      var s := Superclass(h, x);
      assert x !in types;
      AddInterfacesFacts(h, t0, Interfaces(h, x), Level(h, x));
      assert NoDup(t0);
      assert t1[|types|] == x;
      if s.Some? {
        forall y | y in t1 ensures IsInterface(h, y) || Level(h, s.value) < Level(h, y) {
          var k :| 0 <= k < |t1| && t1[k] == y;
          if k < |types| {
            assert y in types;
          }
        }
      }
      WalkFacts(h, t1, s);
      assert t0 <= t1 <= r;
      forall k | |types| <= k < |r|
        ensures (forall j | j in Interfaces(h, r[k]) :: j in r)
        ensures Superclass(h, r[k]).Some? ==> Superclass(h, r[k]).value in r
        ensures Reaches(h, x, r[k])
      {
        if k == |types| {
          assert r[k] == x;
        } else if k < |t1| {
          assert r[k] == t1[k];
          var j :| j in Interfaces(h, x) && Reaches(h, j, r[k]);
          assert IsInterface(h, r[k]);
        } else {
          assert Reaches(h, s.value, r[k]);
        }
      }
    }
  }

  /** A list that holds `c` and is closed under interfaces and superclasses holds everything `c` reaches. */
  lemma {:induction false} ClosedListHoldsReached(h: Hierarchy, r: seq<ClassName>, c: ClassName, x: ClassName)
    requires WellFormed(h)
    requires c in r
    requires forall y | y in r ::
      (forall j | j in Interfaces(h, y) :: j in r) && (Superclass(h, y).Some? ==> Superclass(h, y).value in r)
    requires Reaches(h, c, x)
    ensures x in r
    decreases Level(h, c)
  {
    if c != x {
      if exists i | i in Interfaces(h, c) :: Reaches(h, i, x) {
        var i :| i in Interfaces(h, c) && Reaches(h, i, x);
        ClosedListHoldsReached(h, r, i, x);
      } else {
        ClosedListHoldsReached(h, r, Superclass(h, c).value, x);
      }
    }
  }

  /**
   * `lookupAllEventTypes(c)` lists `c` first, lists no class or interface
   * twice, and lists exactly the classes and interfaces `c` reaches.
   */
  lemma EventTypesSpec(h: Hierarchy, c: ClassName)
    requires WellFormed(h)
    ensures var r := EventTypes(h, c);
      && |r| > 0 && r[0] == c
      && NoDup(r)
      && forall x :: x in r <==> Reaches(h, c, x)
  {
    var r := EventTypes(h, c);
    WalkFacts(h, [], Some(c));
    forall x ensures x in r <==> Reaches(h, c, x) {
      if Reaches(h, c, x) {
        forall y | y in r
          ensures (forall j | j in Interfaces(h, y) :: j in r)
          ensures Superclass(h, y).Some? ==> Superclass(h, y).value in r
        {
          var k :| 0 <= k < |r| && r[k] == y;
        }
        ClosedListHoldsReached(h, r, c, x);
      }
    }
  }
}

=== FILE: utf8.dfy ===
/**
 * UTF-8 over strings of Unicode scalar values: `getBytes("UTF-8")` and
 * `new String(bytes, "UTF-8")` for Java strings without unpaired
 * surrogates, which a Dafny string cannot hold. Decoding replaces each
 * maximal ill-formed subpart with U+FFFD, the practice the Unicode standard
 * recommends (section 3.9, table 3-7 gives the well-formed byte ranges).
 */
module Utf8 {
  import opened Objects

  const REPLACEMENT: char := '�'

  predicate IsContinuation(b: byte)
  {
    0x80 <= b <= 0xBF
  }

  /** The bytes of one Unicode scalar value, shortest form. */
  function EncodeChar(c: char): (r: seq<byte>)
    ensures 1 <= |r| <= 4
  {
    var x := c as int;
    if x < 0x80 then [x]
    else if x < 0x800 then [0xC0 + x / 64, 0x80 + x % 64]
    else if x < 0x1_0000 then [0xE0 + x / 64 / 64, 0x80 + (x / 64) % 64, 0x80 + x % 64]
    else [0xF0 + x / 64 / 64 / 64, 0x80 + (x / 64 / 64) % 64, 0x80 + (x / 64) % 64, 0x80 + x % 64]
  }

  function Encode(s: string): (r: seq<byte>)
    ensures |s| <= |r| <= 4 * |s|
  {
    if s == [] then [] else EncodeChar(s[0]) + Encode(s[1..])
  }

  /** Lowest byte allowed right after the lead byte `b0` of a 3- or 4-byte sequence. */
  function SecondLow(b0: int): int
  {
    if b0 == 0xE0 then 0xA0 else if b0 == 0xF0 then 0x90 else 0x80
  }

  /** Highest byte allowed right after the lead byte `b0` of a 3- or 4-byte sequence. */
  function SecondHigh(b0: int): int
  {
    if b0 == 0xED then 0x9F else if b0 == 0xF4 then 0x8F else 0xBF
  }

  /**
   * The first character that `bs` decodes to and how many bytes it takes:
   * a well-formed sequence gives its scalar value, otherwise the longest
   * prefix that could still have begun a well-formed sequence (at least one
   * byte) gives U+FFFD.
   */
  function DecodeOne(bs: seq<byte>): (r: (char, nat))
    requires |bs| > 0
    ensures 1 <= r.1 <= |bs|
  {
    var b0: int := bs[0];
    if b0 < 0x80 then (b0 as char, 1)
    else if 0xC2 <= b0 <= 0xDF then
      if |bs| < 2 || !IsContinuation(bs[1]) then (REPLACEMENT, 1)
      else (((b0 - 0xC0) * 64 + (bs[1] as int - 0x80)) as char, 2)
    else if 0xE0 <= b0 <= 0xEF then
      if |bs| < 2 || !(SecondLow(b0) <= bs[1] <= SecondHigh(b0)) then (REPLACEMENT, 1)
      else if |bs| < 3 || !IsContinuation(bs[2]) then (REPLACEMENT, 2)
      else (((b0 - 0xE0) * 0x1000 + (bs[1] as int - 0x80) * 64 + (bs[2] as int - 0x80)) as char, 3)
    else if 0xF0 <= b0 <= 0xF4 then
      if |bs| < 2 || !(SecondLow(b0) <= bs[1] <= SecondHigh(b0)) then (REPLACEMENT, 1)
      else if |bs| < 3 || !IsContinuation(bs[2]) then (REPLACEMENT, 2)
      else if |bs| < 4 || !IsContinuation(bs[3]) then (REPLACEMENT, 3)
      else (((b0 - 0xF0) * 0x4_0000 + (bs[1] as int - 0x80) * 0x1000 + (bs[2] as int - 0x80) * 64 + (bs[3] as int - 0x80)) as char, 4)
    else (REPLACEMENT, 1)
  }

  function Decode(bs: seq<byte>): (s: string)
    ensures |s| <= |bs|
    ensures REPLACEMENT !in s ==> Encode(s) == bs
    decreases |bs|
  {
    if bs == [] then []
    else
      var (c, k) := DecodeOne(bs);
      DecodedCharReencodes(bs);
      [c] + Decode(bs[k..])
  }

  /** A decoded character other than U+FFFD re-encodes to exactly the bytes it was decoded from. */
  lemma DecodedCharReencodes(bs: seq<byte>)
    requires |bs| > 0
    ensures var (c, k) := DecodeOne(bs);
      c != REPLACEMENT ==> EncodeChar(c) == bs[..k]
  {
    var b0: int := bs[0];
    if 0xC2 <= b0 <= 0xDF && |bs| >= 2 && IsContinuation(bs[1]) {
      ReencodeTwo(bs);
    } else if 0xE0 <= b0 <= 0xEF && |bs| >= 3 && SecondLow(b0) <= bs[1] <= SecondHigh(b0) && IsContinuation(bs[2]) {
      ReencodeThree(bs);
    } else if 0xF0 <= b0 <= 0xF4 && |bs| >= 4 && SecondLow(b0) <= bs[1] <= SecondHigh(b0)
      && IsContinuation(bs[2]) && IsContinuation(bs[3]) {
      ReencodeFour(bs);
    }
  }

  lemma ReencodeTwo(bs: seq<byte>)
    requires |bs| >= 2 && 0xC2 <= bs[0] <= 0xDF && IsContinuation(bs[1])
    ensures DecodeOne(bs).1 == 2 && EncodeChar(DecodeOne(bs).0) == bs[..2]
  {
    var x := DecodeOne(bs).0 as int;
    assert x == (bs[0] as int - 0xC0) * 64 + (bs[1] as int - 0x80);
    SplitTwo(bs[0] as int - 0xC0, bs[1] as int - 0x80);
    assert EncodeChar(DecodeOne(bs).0) == [bs[0], bs[1]];
  }

  lemma ReencodeThree(bs: seq<byte>)
    requires |bs| >= 3 && 0xE0 <= bs[0] <= 0xEF && IsContinuation(bs[2])
    requires SecondLow(bs[0] as int) <= bs[1] as int <= SecondHigh(bs[0] as int)
    ensures DecodeOne(bs).1 == 3 && EncodeChar(DecodeOne(bs).0) == bs[..3]
  {
    var x := DecodeOne(bs).0 as int;
    assert x == (bs[0] as int - 0xE0) * 0x1000 + (bs[1] as int - 0x80) * 64 + (bs[2] as int - 0x80);
    SplitThree(bs[0] as int - 0xE0, bs[1] as int - 0x80, bs[2] as int - 0x80);
    assert x >= 0x800;
    assert EncodeChar(DecodeOne(bs).0) == [bs[0], bs[1], bs[2]];
  }

  lemma ReencodeFour(bs: seq<byte>)
    requires |bs| >= 4 && 0xF0 <= bs[0] <= 0xF4 && IsContinuation(bs[2]) && IsContinuation(bs[3])
    requires SecondLow(bs[0] as int) <= bs[1] as int <= SecondHigh(bs[0] as int)
    ensures DecodeOne(bs).1 == 4 && EncodeChar(DecodeOne(bs).0) == bs[..4]
  {
    var x := DecodeOne(bs).0 as int;
    assert x == (bs[0] as int - 0xF0) * 0x4_0000 + (bs[1] as int - 0x80) * 0x1000 + (bs[2] as int - 0x80) * 64 + (bs[3] as int - 0x80);
    SplitFour(bs[0] as int - 0xF0, bs[1] as int - 0x80, bs[2] as int - 0x80, bs[3] as int - 0x80);
    assert x >= 0x1_0000;
    assert EncodeChar(DecodeOne(bs).0) == [bs[0], bs[1], bs[2], bs[3]];
  }

  /** Six-bit groups come back out of the value they were packed into. */
  lemma SplitTwo(hi: int, l: int)
    requires 0 <= l < 64
    ensures (hi * 64 + l) / 64 == hi && (hi * 64 + l) % 64 == l
  {
  }

  lemma SplitThree(hi: int, m: int, l: int)
    requires 0 <= m < 64 && 0 <= l < 64
    ensures var x := hi * 0x1000 + m * 64 + l;
      x / 64 / 64 == hi && (x / 64) % 64 == m && x % 64 == l
  {
    SplitTwo(hi * 64 + m, l);
    SplitTwo(hi, m);
  }

  lemma SplitFour(hi: int, n: int, m: int, l: int)
    requires 0 <= n < 64 && 0 <= m < 64 && 0 <= l < 64
    ensures var x := hi * 0x4_0000 + n * 0x1000 + m * 64 + l;
      x / 64 / 64 / 64 == hi && (x / 64 / 64) % 64 == n && (x / 64) % 64 == m && x % 64 == l
  {
    SplitTwo((hi * 64 + n) * 64 + m, l);
    SplitTwo(hi * 64 + n, m);
    SplitTwo(hi, n);
  }

  /** A character's own encoding decodes back to it, whatever follows. */
  lemma DecodeOneEncodeChar(c: char, rest: seq<byte>)
    ensures DecodeOne(EncodeChar(c) + rest) == (c, |EncodeChar(c)|)
  {
    var x := c as int;
    if x < 0x80 {
    } else if x < 0x800 {
      DecodeTwo(c, rest);
    } else if x < 0x1_0000 {
      DecodeThree(c, rest);
    } else {
      DecodeFour(c, rest);
    }
  }

  lemma DecodeTwo(c: char, rest: seq<byte>)
    requires 0x80 <= c as int < 0x800
    ensures DecodeOne(EncodeChar(c) + rest) == (c, 2)
  {
    var x := c as int;
    var bs := EncodeChar(c) + rest;
    var a, l := x / 64, x % 64;
    assert bs[0] == 0xC0 + a && bs[1] == 0x80 + l;
  }

  lemma DecodeThree(c: char, rest: seq<byte>)
    requires 0x800 <= c as int < 0x1_0000
    ensures DecodeOne(EncodeChar(c) + rest) == (c, 3)
  {
    var x := c as int;
    var bs := EncodeChar(c) + rest;
    var a, l := x / 64, x % 64;
    var b, m := a / 64, a % 64;
    assert x == b * 0x1000 + m * 64 + l;
    assert bs[0] == 0xE0 + b && bs[1] == 0x80 + m && bs[2] == 0x80 + l;
  }

  lemma DecodeFour(c: char, rest: seq<byte>)
    requires 0x1_0000 <= c as int
    ensures DecodeOne(EncodeChar(c) + rest) == (c, 4)
  {
    var x := c as int;
    var bs := EncodeChar(c) + rest;
    var a, l := x / 64, x % 64;
    var b, m := a / 64, a % 64;
    var d, n := b / 64, b % 64;
    assert x == d * 0x4_0000 + n * 0x1000 + m * 64 + l;
    assert bs[0] == 0xF0 + d && bs[1] == 0x80 + n && bs[2] == 0x80 + m && bs[3] == 0x80 + l;
  }

  /** `new String(s.getBytes("UTF-8"), "UTF-8")` is `s`, for a string of scalar values (no unpaired surrogate). */
  lemma {:induction false} DecodeEncode(s: string)
    ensures Decode(Encode(s)) == s
  {
    if s != [] {
      var head := EncodeChar(s[0]);
      DecodeOneEncodeChar(s[0], Encode(s[1..]));
      assert (head + Encode(s[1..]))[|head|..] == Encode(s[1..]);
      DecodeEncode(s[1..]);
    }
  }
}

=== FILE: wear_bus_tools.dfy ===
/**
 * WearBusTools: the message-path layout shared by both devices and the codec
 * that turns a posted value into the bytes sent to the peer
 * (`parseToSend`) and back (`getSendSimpleObject`).
 */
module WearBusTools {
  import opened Objects
  import opened JavaStrings
  import BigEndian
  import Utf8

  const MESSAGE_PATH: string := "pl.tajchert.buswear.event."
  const MESSAGE_PATH_STICKY: string := "pl.tajchert.buswear.stickyevent."
  const MESSAGE_PATH_COMMAND: string := "pl.tajchert.buswear.command."
  const ACTION_STICKY_CLEAR_ALL: string := "pl.tajchert.buswear.clearall"
  const PREFIX_CLASS: string := "class."
  const PREFIX_EVENT: string := "event."
  const CLASS_NAME_DELIMITER: string := "-"

  /** What `parseToSend` gives: `null` (nothing is sent), a byte array, or a RuntimeException. */
  datatype Encoding = NotSent | Bytes(data: seq<byte>) | Unsupported

  /** What `getSendSimpleObject` gives: `null`, a value, or the BufferUnderflowException of a short buffer. */
  datatype Decoding = Unknown | Decoded(value: Value) | Underflow

  /** The class names `getSendSimpleObject` understands, in the order it tests them. */
  const SIMPLE_NAMES: seq<string> := ["String", "Integer", "Long", "Double", "Float", "Short"]

  /** The encoding of every value past the NoSubscriberEvent test of `parseToSend`. */
  function EncodeValue(v: Value): (r: Encoding)
    ensures r != NotSent
  {
    BigEndian.Pow256Values();
    match v
    case Str(s) => Bytes(Utf8.Encode(s))
    case Int(i) => Bytes(BigEndian.EncodeSigned(i, 4))
    case Long(l) => Bytes(BigEndian.EncodeSigned(l, 8))
    case Float(bits) => Bytes(BigEndian.ToBytes(bits, 4))
    case Double(bits) => Bytes(BigEndian.ToBytes(bits, 8))
    case Short(h) => Bytes(BigEndian.EncodeSigned(h, 2))
    case Parcel(_, marshalled) => Bytes(marshalled)
    case _ => Unsupported
  }

  /**
   * `parseToSend` as written: the NoSubscriberEvent it tests for is the one
   * imported from org.greenrobot.eventbus, not the class the bus posts.
   */
  function ParseToSendAsWritten(v: Value): (r: Encoding)
    ensures r == NotSent <==> v.Obj? && v.objClass == GREENROBOT_NO_SUBSCRIBER_CLASS
  {
    if v.Obj? && v.objClass == GREENROBOT_NO_SUBSCRIBER_CLASS then NotSent else EncodeValue(v)
  }

  /** `parseToSend` with its test naming the bus's own NoSubscriberEvent, as its purpose says. */
  function ParseToSend(v: Value): (r: Encoding)
    ensures r == NotSent <==> v.NoSubscriber?
    ensures r.Unsupported? <==> v.Null? || v.WearConnection? || v.Obj?
  {
    if v.NoSubscriber? then NotSent else EncodeValue(v)
  }

  /** Which `parseToSend` the bus calls: the one in WearBusTools, or the corrected one. */
  datatype Encoder = AsWritten | Corrected

  function ParseToSendBy(encoder: Encoder, v: Value): Encoding {
    match encoder
    case AsWritten => ParseToSendAsWritten(v)
    case Corrected => ParseToSend(v)
  }

  /** The two encoders part only on the two NoSubscriberEvent classes. */
  lemma EncodersAgreeElsewhere(v: Value)
    ensures ParseToSendAsWritten(v) != ParseToSend(v) <==> v.NoSubscriber? || (v.Obj? && v.objClass == GREENROBOT_NO_SUBSCRIBER_CLASS)
  {
  }

  /** `getSendSimpleObject(bytes, className)`: decodes the scalar kinds, `null` for every other name. */
  function GetSendSimpleObject(bs: seq<byte>, className: string): (r: Decoding)
    ensures r.Unknown? <==> className !in SIMPLE_NAMES
    ensures r.Underflow? ==> className != "String"
  {
    BigEndian.Pow256Values();
    if className == "String" then Decoded(Str(Utf8.Decode(bs)))
    else if className == "Integer" then
      if |bs| < 4 then Underflow else Decoded(Int(BigEndian.DecodeSigned(bs, 4)))
    else if className == "Long" then
      if |bs| < 8 then Underflow else Decoded(Long(BigEndian.DecodeSigned(bs, 8)))
    else if className == "Double" then
      if |bs| < 8 then Underflow else Decoded(Double(BigEndian.FromBytes(bs[..8])))
    else if className == "Float" then
      if |bs| < 4 then Underflow else Decoded(Float(BigEndian.FromBytes(bs[..4])))
    else if className == "Short" then
      if |bs| < 2 then Underflow else Decoded(Short(BigEndian.DecodeSigned(bs, 2)))
    else Unknown
  }

  /** The fixed widths: Integer and Float take 4 bytes, Long and Double 8, Short 2. */
  lemma EncodedWidths(v: Value)
    requires v.Int? || v.Long? || v.Short? || v.Float? || v.Double?
    ensures ParseToSend(v).Bytes?
    ensures |ParseToSend(v).data| == (if v.Int? || v.Float? then 4 else if v.Short? then 2 else 8)
  {
  }

  /** The encoding is big-endian: byte `k` of an Integer is its two's-complement digit `3 - k` in base 256. */
  lemma IntegerIsBigEndian(i: int32, k: nat)
    requires k < 4
    ensures ParseToSend(Int(i)).data[k] == ((if i < 0 then i + 0x1_0000_0000 else i) / BigEndian.Pow256(3 - k)) % 256
  {
    BigEndian.Pow256Values();
    BigEndian.ToBytesDigit(BigEndian.Unsigned(i, 4), 4, k);
  }

  /** The simple name of a boxed scalar's class is the name the receiver decodes it by. */
  lemma SimpleNameOfJavaLang(name: string, cls: ClassName)
    requires Free(name, '.') && cls == "java.lang." + name
    ensures SimpleName(cls) == name
  {
    AfterLastOfAppend("java.lang.", '.', name);
  }

  lemma ScalarSimpleNames()
    ensures SimpleName(STRING_CLASS) == "String"
    ensures SimpleName(INTEGER_CLASS) == "Integer"
    ensures SimpleName(LONG_CLASS) == "Long"
    ensures SimpleName(SHORT_CLASS) == "Short"
    ensures SimpleName(FLOAT_CLASS) == "Float"
    ensures SimpleName(DOUBLE_CLASS) == "Double"
  {
    SimpleNameOfJavaLang("String", STRING_CLASS);
    SimpleNameOfJavaLang("Integer", INTEGER_CLASS);
    SimpleNameOfJavaLang("Long", LONG_CLASS);
    SimpleNameOfJavaLang("Short", SHORT_CLASS);
    SimpleNameOfJavaLang("Float", FLOAT_CLASS);
    SimpleNameOfJavaLang("Double", DOUBLE_CLASS);
  }

  /**
   * Round trip: decoding what `parseToSend` produced, under the simple name
   * of the value's class, gives the value back, for String and every
   * fixed-width kind.
   */
  lemma RoundTrip(v: Value)
    requires v.Str? || v.Int? || v.Long? || v.Short? || v.Float? || v.Double?
    ensures ParseToSend(v).Bytes?
    ensures GetSendSimpleObject(ParseToSend(v).data, SimpleName(ClassOf(v))) == Decoded(v)
  {
    if v.Str? {
      RoundTripString(v.s);
    } else if v.Float? || v.Double? {
      RoundTripFloating(v);
    } else {
      RoundTripInteger(v);
    }
  }

  lemma RoundTripString(s: string)
    ensures GetSendSimpleObject(ParseToSend(Str(s)).data, SimpleName(STRING_CLASS)) == Decoded(Str(s))
  {
    ScalarSimpleNames();
    Utf8.DecodeEncode(s);
  }

  lemma RoundTripInteger(v: Value)
    requires v.Int? || v.Long? || v.Short?
    ensures ParseToSend(v).Bytes?
    ensures GetSendSimpleObject(ParseToSend(v).data, SimpleName(ClassOf(v))) == Decoded(v)
  {
    BigEndian.Pow256Values();
    ScalarSimpleNames();
    match v
    case Int(i) =>
      BigEndian.DecodeEncodeSigned(i, 4);
    case Long(l) =>
      BigEndian.DecodeEncodeSigned(l, 8);
    case Short(h) =>
      BigEndian.DecodeEncodeSigned(h, 2);
  }

  lemma RoundTripFloating(v: Value)
    requires v.Float? || v.Double?
    ensures ParseToSend(v).Bytes?
    ensures GetSendSimpleObject(ParseToSend(v).data, SimpleName(ClassOf(v))) == Decoded(v)
  {
    BigEndian.Pow256Values();
    ScalarSimpleNames();
    var bs := ParseToSend(v).data;
    match v
    case Float(b) =>
      assert bs[..4] == bs;
      BigEndian.FromToBytes(b, 4);
    case Double(b) =>
      assert bs[..8] == bs;
      BigEndian.FromToBytes(b, 8);
  }

  /**
   * The other direction: a buffer of exactly the width of a fixed-width
   * kind decodes to a value whose encoding is that buffer.
   */
  lemma DecodeThenEncode(bs: seq<byte>, name: string)
    requires name in ["Integer", "Long", "Double", "Float", "Short"]
    requires |bs| == (if name == "Integer" || name == "Float" then 4 else if name == "Short" then 2 else 8)
    ensures GetSendSimpleObject(bs, name).Decoded?
    ensures ParseToSend(GetSendSimpleObject(bs, name).value) == Bytes(bs)
  {
    BigEndian.Pow256Values();
    assert bs[..|bs|] == bs;
    if name == "Float" || name == "Double" {
      BigEndian.ToFromBytes(bs);
    } else {
      BigEndian.EncodeDecodeSigned(bs);
    }
  }

  /** `parseToSend` as written sends the bus's own NoSubscriberEvent on to the RuntimeException branch. */
  lemma AsWrittenRejectsBusNoSubscriber(original: Value)
    ensures ParseToSendAsWritten(NoSubscriber(original)) == Unsupported
    ensures ParseToSend(NoSubscriber(original)) == NotSent
  {
  }

  /** The sticky-event prefix does not contain the event prefix, so `contains(MESSAGE_PATH)` cannot take a sticky path. */
  lemma StickyPrefixIsNotEventPrefix()
    ensures !Contains(MESSAGE_PATH_STICKY, MESSAGE_PATH)
  {
    assert MESSAGE_PATH_STICKY[..|MESSAGE_PATH|][20] != MESSAGE_PATH[20];
    NotContainedByFirstChar(MESSAGE_PATH_STICKY, MESSAGE_PATH);
  }

  /** A command path prefix contains neither the event prefix nor the sticky-event prefix. */
  lemma CommandPrefixIsNotEventPrefix(scope: string)
    requires scope in ["", PREFIX_CLASS, PREFIX_EVENT]
    ensures !Contains(MESSAGE_PATH_COMMAND + scope, MESSAGE_PATH)
    ensures !Contains(MESSAGE_PATH_COMMAND + scope, MESSAGE_PATH_STICKY)
  {
    var p := MESSAGE_PATH_COMMAND + scope;
    assert p[20] == 'c';
    assert forall k | 0 < k < |p| :: p[k] != 'p';
    NotContainedByFirstChar(p, MESSAGE_PATH);
    NotContainedByFirstChar(p, MESSAGE_PATH_STICKY);
  }

  /** Each removal-scope prefix is five letters and a dot, matching the five-character slice before the last dot. */
  lemma RemovalPrefixesShape()
    ensures |PREFIX_CLASS| == 6 && PREFIX_CLASS[..5] == "class" && PREFIX_CLASS[5] == '.'
    ensures |PREFIX_EVENT| == 6 && PREFIX_EVENT[..5] == "event" && PREFIX_EVENT[5] == '.'
    ensures Free(PREFIX_CLASS[..5], '.') && Free(PREFIX_EVENT[..5], '.')
  {
  }
}

=== FILE: wrappers.dfy ===
/** The optional-value type used for Java's nullable references. */
module Wrappers {

  datatype Option<+T> = None | Some(value: T)
}
